=== FILE: README.md ===
# cube-cli core, modelled in Dafny

This project models the command-line core of the RancherCUBE `cube` tool
(cnrancher/cube-cli, Go):

- **Node roster editing**: `cube node ls|add|rm`, covering the roster load-path choice, the duplicate check, the append, and the find-and-splice removal, together with `util.MergeNodes`.
- **Name-addressed container lifecycle** on the engine: create-or-restart, stop, remove and status. Each looks a container up by name. Create, stop and remove use the any-shared-character rule of `strings.ContainsAny`; status uses the substring rule.
- **Image resolution before a create**: local hit, pull, or an error, and the credentials lookup by registry domain. The registry token is the padded base 64 URL-safe encoding of section 5 of RFC 4648, applied to the credential JSON; the model states the token as that exact encoding and proves that decoding it gives the JSON back.
- **The engine version gate** at client creation: the RancherOS bypass, the patch-zeroing conversion of the supported patterns, and the major/minor comparison.
- **Short-flag expansion** of the command line (`-abc` → `-a -b -c`, with `=` values).
- **The api-server commands** `cube server run|stop|rm|status`: the fixed container descriptor, delegation to the lifecycle operations, and writing the status row only when a container was found.
- **Table output**: the header/value template builder, the id, command, name and port renderers, the writer's option selection, and its header-once, sticky-error state machine.

The container engine is an immutable `Engine.State`: an ordered sequence of containers and a set of local image references. Every engine operation is a pure function that returns an `Engine.Effect`. An Effect holds three things:

- the new state;
- the exact sequence of engine calls the operation issued;
- the `Result`.

Whether an engine call fails is decided by an oracle in `Engine.Env`. The host name, the docker reference domain parser and the JSON marshaller are oracles there too.

The roster commands record their host steps in the same way: read, cluster-up and write. The answers come from the `NodeCmd.Host` oracles. Go runtime panics that depend on oracle output are modelled as a `Panicked` outcome.

The modules follow the program's layout:

| module | file | models |
|---|---|---|
| `Rke`, `NodeCmd`, `NodeProps` | rke.dfy, node.dfy, node_props.dfy | util/rke.go, cmd/node.go |
| `Engine`, `Lookup`, `Lifecycle`, `LifecycleProps` | engine.dfy, lookup.dfy, lifecycle.dfy, lifecycle_props.dfy | docker/common.go, create.go, stop.go, remove.go, status.go |
| `Pull`, `Base64Url` | pull.dfy, base64url.dfy | docker/pull.go |
| `Client` | client.dfy | docker/client.go |
| `Args`, `ArgsProps` | args.dfy, args_props.dfy | main.go `parseArgs` |
| `Server` | server.dfy | cmd/server.go |
| `TableFormat`, `TableWriter` | table_format.dfy, table_writer.dfy | cmd/pkg/table |
| `Results`, `Strings`, `Decimal`, `Common` | results.dfy, strings.dfy, decimal.dfy, common.dfy | error results, the Go `strings` functions used, `strconv.Itoa`, constants |

Where the code and the repository's own description disagree, the model follows the code:

- Create, stop and remove match names with `strings.ContainsAny`, not with a name comparison. A container whose name merely shares a character with the requested one is found (`Lookup.SharedCharFalsePositive`).
- The multi-entry removal slices `Nodes[0:foundIndex-1]`, not `Nodes[0:foundIndex]`. The consequences are listed under Findings.
- The credentials map that create passes to image resolution is always empty, so the api-server image is always pulled anonymously.

## Model

| member | source | states |
|---|---|---|
| NodeCmd.LoadPath | cmd/node.go:126-130 | the roster is read from the primary path exactly when its stat succeeds, otherwise from the base path |
| NodeCmd.FindIndex | cmd/node.go:189-195 | the first index whose address matches, or -1 exactly when no entry has the address |
| NodeCmd.NewEntry | cmd/node.go:117-121 | the new entry carries the address, user and key path; its roles are at least one comma-free piece, and their comma-join is the roles flag, in order (so an empty flag gives one empty role) |
| NodeCmd.AddEntry | cmd/node.go:137-151 | a listed address gives no edit; otherwise the old roster with exactly the new entry appended, and address uniqueness is kept |
| NodeCmd.SpliceAsWritten | cmd/node.go:204-208 | the two-slice splice keeps the entries before foundIndex-1 and after foundIndex, so its length is n-2 |
| NodeCmd.RemoveEntryAsWritten | cmd/node.go:189-208 | empty roster: no-op; one entry: emptied whatever the address; two or more entries with foundIndex < 1: slice panic; otherwise the splice |
| NodeCmd.RemoveAt | cmd/node.go:205-207 | the intended splice: exactly the entry at i leaves, the result is the entries before i followed by those after it, and the multiset loses just that entry |
| NodeCmd.RemoveEntry | cmd/node.go:189-208 | corrected removal: none when the address is not listed; otherwise the entries before the first match followed by those after it, and on a unique roster the address is gone and uniqueness is kept |
| NodeCmd.RemovalFacts | cmd/node.go:189-208 | the corrected removal's promises, stated of its result: nothing to do exactly when the address is not listed; otherwise one fewer entry, the entries before the first match then those after it, and on a unique roster the address gone and uniqueness kept |
| NodeCmd.NodeLs | cmd/node.go:93-109 | reads the roster from the chosen path, and that read is its only step and its result |
| NodeCmd.Apply | cmd/node.go:153-166 | cluster-up with the edited roster comes first; the roster is written to the primary path only after cluster-up succeeds, and any failure is returned |
| NodeCmd.NodeAdd | cmd/node.go:111-167 | an empty address fails before any read; a load error aborts with no write; a duplicate returns success with no cluster-up and no write; a fresh address gives the prior roster plus the new entry, brought up and then written to the primary path, each failure returned |
| NodeCmd.NodeRm | cmd/node.go:169-224 | the removal command as written: empty-address error, load error, empty-roster no-op, one-entry emptying, a panic for foundIndex < 1, the two-entry splice otherwise; only the node list of the loaded configuration changes; the edited configuration is brought up and then written to the primary path, each failure returned |
| NodeCmd.NodeRmCorrected | cmd/node.go:169-224 | removal with the intended edit: an unlisted address changes nothing; a listed one is removed and the rest of the roster kept, then brought up and written, each failure returned; it never panics |
| NodeCmd.RemoveLoaded | cmd/node.go:189-222 | once the roster is loaded: an empty roster is a no-op after the read, a longer one whose match is not at index 1 or later panics, otherwise the as-written edit replaces only the node list and that configuration is brought up and written |
| NodeCmd.RemoveLoadedCorrected | cmd/node.go:189-224 | once the roster is loaded: an unlisted address is a no-op after the read; a listed one is always removed, with the rest of the configuration kept, then brought up and written; it never panics |
| NodeProps.AddKeepsAddressesUnique | cmd/node.go:137-151 | a roster with unique addresses still has unique addresses after `node add` |
| NodeProps.AddTwiceIsNoop | cmd/node.go:137-143 | re-running `node add` on the roster it wrote only reads and succeeds |
| NodeProps.RemoveUndoesAdd | cmd/node.go:146-151 | corrected removal of a just-added address gives back the previous roster |
| NodeProps.RemoveTwiceIsNoop | cmd/node.go:189-195 | after a corrected removal the address is no longer found |
| NodeProps.AsWrittenLosesPredecessor | cmd/node.go:205-207 | removing the middle of [a, b, c] as written leaves [c]; the intended result is [a, c] |
| NodeProps.AsWrittenEmptiesOnMismatch | cmd/node.go:202-203 | a one-entry roster is emptied by an address it does not hold; the corrected edit finds nothing to remove |
| NodeProps.AsWrittenPanicsOnFirst | cmd/node.go:204-205 | removing the first of two entries as written is a slice-bounds panic; the corrected edit leaves the second |
| NodeProps.SecondIsFound | cmd/node.go:189-195 | the search finds the second entry at index 1 |
| NodeProps.AddAddRemoveScenario | cmd/node.go:111-224 | adding a node to an empty roster gives just that node, adding it again gives no edit, and removing it, as written or corrected, leaves an empty roster |
| NodeProps.OneEntryRoundTrip | cmd/node.go:137-208 | for any entry: adding to an empty roster gives just it, adding it again gives no edit, and removing it, as written or corrected, empties the roster |
| Rke.FlattenCons | util/rke.go:41-46 | the concatenation of rosters is the first roster followed by the concatenation of the rest |
| Rke.MergeNodes | util/rke.go:34-51 | no arguments give an empty roster, one gives itself, and in general the result is the in-order concatenation of all arguments |
| Rke.MergeTwo | util/rke.go:41-46 | merging two rosters keeps the first as prefix and the second as suffix, with the lengths adding up |
| Engine.SetState | docker/stop.go:37 | only containers with the given id change run state; everything else is kept |
| Engine.Without | docker/remove.go:37 | no container with the id remains, and a sequence without the id is left as it is |
| Engine.WithoutKeepsOthers | docker/remove.go:37 | removal keeps every container with another id and adds none |
| Engine.WithoutUnique | docker/remove.go:37 | with unique ids, removal drops exactly the container with the id and keeps the others in order |
| Lookup.FirstMatch | docker/create.go:25-36 | the first container in list order with a name matching under the rule, or none when no container matches |
| Lookup.TargetId | docker/create.go:25-38 | the id create, stop and remove act on is that of the first shared-character match, never empty, and none when nothing matches |
| Lookup.TargetIdIsFirstShared | docker/create.go:25-38 | stated over the containers alone: no shared-character name gives no target; otherwise the first container with one decides, and its empty id counts as not found (the `isFound && containerID != ""` test) |
| Lookup.EmptyNameNeverShares | docker/create.go:27 | an empty name shares no character, so create, stop and remove never find anything for it |
| Lookup.EmptyNameSubstringFindsFirstNamed | docker/status.go:24 | under the substring rule the empty name matches exactly the containers that have a name |
| Lookup.SubstringImpliesSharedChar | docker/status.go:24 | for a non-empty name a substring match is also a shared-character match |
| Lookup.SharedCharFalsePositive | docker/create.go:27 | "/nginx" is found when looking up "cube-apiserver", because the two names share a letter |
| Lifecycle.Restart | docker/create.go:38-45 | exactly one restart of the target with the default timeout; on success that container runs; no other container changes, and nothing is pulled or created |
| Lifecycle.Provision | docker/create.go:47-79 | image resolution, then one create of the named container, then a start of the new id, in that order; a resolution error is returned as it is; a resolved image is always created; a failing create is returned at once with nothing started; after a create, the result is Ok exactly when the start succeeds; no rollback leaves a created container on a start failure |
| Lifecycle.CreateAndStart | docker/create.go:67-77 | a failing create is returned with the state unchanged; otherwise one create then one start of the new id, the new container present, Ok exactly when the start succeeds, and running on success |
| Lifecycle.CreateOrRestart | docker/create.go:15-80 | the list comes first and its failure is returned alone; with a target only the restart follows and its outcome is the result; without one, a host-name error is returned, otherwise the creation path follows and decides the result; any create uses the exact descriptor; pulls are anonymous; on success the target or the new container runs |
| Lifecycle.StopContainer | docker/stop.go:12-46 | list failure: nothing stopped; no match: success with no change; otherwise one stop of the target, whose error propagates; only the target's run state changes |
| Lifecycle.RemoveContainer | docker/remove.go:12-47 | list failure: nothing removed; no match: success with no change; otherwise one forced remove of the target; only the target leaves, and every other container stays |
| Lifecycle.StatusContainer | docker/status.go:12-36 | read-only single list; its failure is the error; the result is the first substring match, or the empty record when none matches |
| LifecycleProps.NewContainerMatches | docker/create.go:68 | a created container's name matches its own lookup |
| LifecycleProps.FirstMatchOfAppended | docker/create.go:25-36 | when nothing matched before, the first match after an append is the appended container |
| LifecycleProps.CreateThenRestarts | docker/create.go:25-45 | after a run that created the container, the next run only lists and restarts it and never creates a second one |
| LifecycleProps.ProvisionStarts | docker/create.go:61-79 | a successful creation path adds exactly one container at the end, the new one, running, and keeps the names and ids of the others |
| LifecycleProps.StartedIsTarget | docker/create.go:25-38 | after that creation, the name's lookup finds the new container's id |
| LifecycleProps.FirstMatchSameNames | docker/create.go:25-36 | the lookup and the target id depend only on names and ids, not on run state or anything else |
| LifecycleProps.EmptyNameAlwaysCreates | docker/create.go:25-61 | an empty name never takes the restart branch: image resolution follows the list, and no restart is ever issued |
| LifecycleProps.RemoveHitsUnrelatedContainer | docker/remove.go:22-41 | removing "cube-apiserver" from [nginx, api] twice removes both, so removal is not idempotent |
| LifecycleProps.RemoveTwice | docker/remove.go:22-41 | two removals without failures, where the lookup finds a first and then b, empty an engine holding just a and b |
| LifecycleProps.RemovesWithout | docker/remove.go:22-41 | a successful removal with a target takes out every container carrying the found id |
| LifecycleProps.StopChangesAtMostOne | docker/stop.go:22-41 | with unique ids a stop changes at most one container |
| LifecycleProps.RemoveDropsTarget | docker/remove.go:22-41 | with unique ids a successful removal takes out exactly the found container, leaving the others in order and one fewer |
| LifecycleProps.StopTwiceIsNoop | docker/stop.go:22-41 | stopping again after a successful stop leaves the engine as it was |
| LifecycleProps.StopSetsExited | docker/stop.go:22-41 | a successful stop marks every container with the found id exited, and changes nothing when nothing is found |
| Pull.RegistryAt | docker/pull.go:57 | indexing the map gives the entry under the key, or the zero record when the key is absent |
| Pull.RegistryAuth | docker/pull.go:89-99 | the token is exactly the padded URL-safe base 64 encoding of the marshalled user/password JSON, and it decodes back to that JSON; a marshalling error is returned |
| Pull.ImageRegistryConfig | docker/pull.go:75-87 | a parse error is returned; a domain missing from the map gives an empty token and URL; otherwise that entry's token, the exact encoding of its marshalled credentials, and its URL field, or that entry's marshalling error |
| Pull.OptionsFor | docker/pull.go:51-59 | the token is always sent; the callback is attached exactly when the token is non-empty and the URL is "docker.io" |
| Pull.LocalImageExists | docker/pull.go:36-48 | a single inspect; not found is false, present is true, and any other failure is the wrapped error |
| Pull.PullImage | docker/pull.go:50-73 | an unparseable reference fails before any pull; otherwise exactly one pull, whose failure is the wrapped error and whose success makes the image local |
| Pull.UseLocalOrPull | docker/pull.go:18-34 | inspect first; an inspect error is returned; a local hit does no pull; not found is followed by the pull, whose outcome is the result; on success the image is local and the containers are unchanged |
| Pull.ResolveIsIdempotent | docker/pull.go:18-34 | after a successful resolution, resolving again only inspects |
| Pull.EmptyMapPullsAnonymously | docker/create.go:54-61 | with the always-empty map, every pull carries no token and no callback |
| Pull.CallbackRederivesToken | docker/pull.go:101-105 | the callback re-derives exactly the token sent up front |
| Pull.CallbackUsesEntryUrl | docker/pull.go:56-58 | the callback is looked up by the entry's URL field, not by the image's domain |
| Base64Url.DecodeEncode | docker/pull.go:98 | decoding the URL-safe padded encoding gives back the bytes |
| Client.ZeroPatch | docker/client.go:67-73 | a value exactly when the version has two dots; the value is the first two pieces with "0" as the third |
| Client.ConvertToSemver | docker/client.go:67-74 | "the default version is not correct" unless there are three pieces; otherwise the parse of the zero-patched version |
| Client.ScanFindsFirstHit | docker/client.go:55-64 | the scan answers true at the first entry with equal major and minor, when no earlier entry fails to convert |
| Client.ScanAllMiss | docker/client.go:55-64 | when every entry converts and none matches, the answer is false |
| Client.ScanStopsAtBad | docker/client.go:56-59 | the first entry that fails to convert is an error unless an earlier entry matched |
| Client.IsSupportVersion | docker/client.go:47-65 | a version containing "ros" is supported unparsed; an unparseable version is an error; otherwise true exactly at a first hit, false exactly when every pattern converts and misses, and the first pattern that fails to convert gives its error |
| Client.CheckEngineVersion | docker/client.go:32-45 | info failure and determination failure are wrapped errors; an unsupported version still succeeds |
| Client.NewClient | docker/client.go:14-30 | an empty host fails before connecting; a client exists exactly when the connection and the version check succeed, at API version 1.24 |
| Client.ZeroPatchReplacesThird | docker/client.go:68-73 | "a.b.c" with dot-free a and b becomes "a.b.0" |
| Client.PatchZeroedExample | docker/client.go:68-73 | "17.03.x" is converted through "17.03.0" |
| Client.SupportedPatternsConvert | docker/common.go:9 | every supported pattern survives the three-piece check |
| Client.RosAlwaysSupported | docker/client.go:48-50 | a RancherOS engine version yields a client even when the parser rejects it |
| Client.UnsupportedStillConnects | docker/client.go:41-44 | an unsupported version still yields a client |
| Args.ClusterByShape | main.go:60 | an argument is a short-flag cluster exactly when it is a dash followed by a character other than a dash |
| Args.Singles | main.go:68-69 | each letter becomes its own "-" + letter element, in order |
| Args.FirstNonLetter | main.go:61-72 | the index of the first non-letter after the dash, or the length when all are letters |
| Args.ErrorInPrefix | main.go:57-78 | an error from an argument is the error of every longer argument list |
| Args.ScanCluster | main.go:61-73 | the character loop over one cluster computes its reference expansion |
| Args.ParseArgs | main.go:57-79 | the loop over the arguments computes the reference expansion of the whole list, including its first error |
| ArgsProps.RejoinSingles | main.go:68-69 | the letter elements joined back give the letters |
| ArgsProps.ClusterRejoins | main.go:61-73 | a successful cluster expansion, undashed and rejoined, gives back the argument |
| ArgsProps.GluedRejoins | main.go:66-67 | the value, from '=' onward, is glued to the last letter element |
| ArgsProps.ExpandArgNonEmpty | main.go:57-78 | every argument contributes at least one element |
| ArgsProps.ExpandAllLonger | main.go:57-78 | on success the output is at least as long as the input |
| ArgsProps.PlainArgsUnchanged | main.go:60-76 | arguments that are not clusters are copied unchanged, in order |
| ArgsProps.ExpandsLetters | main.go:61-69 | "-" + letters expands to one element per letter |
| ArgsProps.ExpandsValue | main.go:62-67 | "-" + letters + "=" + rest gives the letters, with the last one carrying "=" + rest |
| ArgsProps.RejectsLeadingEquals | main.go:63-65 | "=" right after the dash is the "invalid input with '-' and '=' flag" error |
| ArgsProps.RejectsOther | main.go:70-72 | any other character is the "invalid input c in flag" error |
| ArgsProps.FirstNonLetterAt | main.go:61-72 | the scan index is the position of the first non-letter |
| Server.RunPreflight | cmd/server.go:89-106 | an empty config location is the "require" error; the config is moved only when it is not already in place, and a failed move is the error; otherwise the result is the client's; it succeeds exactly when all three checks pass |
| Server.ServerRun | cmd/server.go:87-144 | an empty kube-config, a failed rename or a failed client fails with no engine call; otherwise the command is the create-or-restart of the api-server with exactly its descriptor; on success the api-server runs |
| Server.ServerStop | cmd/server.go:146-155 | a client failure aborts before any lookup; otherwise the command is the stop of the api-server by name, changing at most the target's run state |
| Server.ServerRm | cmd/server.go:157-166 | a client failure aborts before any lookup; otherwise the command is the removal of the api-server by name, and the target is gone on success |
| Server.Report | cmd/server.go:181-196 | a record with an empty id is not written, so the result is success with the header only; otherwise success exactly when the write did not fail |
| Server.ServerStatus | cmd/server.go:168-197 | read-only; a client failure aborts before any lookup; a list failure prints nothing; otherwise it reports the first substring match |
| Server.ServerPublishesListenPort | cmd/server.go:109-140 | the container serves on 9600, exposes exactly 9600/tcp whatever --port says, and binds it on 0.0.0.0 at port + "/tcp" |
| Server.ServerRunTwiceRestarts | cmd/server.go:143 | when the first run created the api-server, the second only lists and restarts it |
| Server.ServerRmRemovesOne | cmd/server.go:157-166 | with unique ids a successful `server rm` takes out exactly the api-server container found |
| Server.ServerStopTwiceIsNoop | cmd/server.go:146-155 | a second `server stop` changes nothing more |
| Server.StatusHeaderOnly | cmd/server.go:190-196 | with nothing found, status succeeds and prints only the header |
| Server.StatusIgnoresCloseError | cmd/server.go:190-196 | an error from the deferred close is not returned |
| Server.StatusHeaderThenRow | cmd/server.go:181-194 | with the default flags the text is the header followed by the one row |
| Server.ReportHeaderThenRow | cmd/server.go:181-194 | for any writer flags with a header, when the header and the row both render, a found container's listing is the header followed by its row |
| Server.StatusHeaderNonEmpty | cmd/server.go:181-189 | the status listing has a header |
| Strings.Contains | docker/status.go:24 | true exactly when the substring occurs at some index |
| Strings.JoinSplit | cmd/node.go:118 | joining the comma-split pieces gives back the string |
| TableFormat.Cells | cmd/pkg/table/fmt.go:16-20 | a value holding "{{" is kept verbatim, and otherwise it becomes "{{." + value + "}}" |
| TableFormat.CellNonEmpty | cmd/pkg/table/fmt.go:16-20 | no value cell is empty, so every tab separator appears |
| TableFormat.AppendTabDelim | cmd/pkg/table/fmt.go:29-36 | into an empty buffer the value goes alone; after something, a tab goes in first, so the buffer's tab-separated fields are followed by the value's |
| TableFormat.Buffers | cmd/pkg/table/fmt.go:14-21 | after the loop, the header buffer is the tab-join of the titles without leading empty ones, and the value buffer is the tab-join of the cells |
| TableFormat.SimpleFormat | cmd/pkg/table/fmt.go:11-27 | the header and value lines are those joins followed by a newline |
| TableFormat.SimpleFormatSplits | cmd/pkg/table/fmt.go:11-36 | splitting the value line at tabs gives back the cells, one per column |
| TableFormat.NoColumnsEmptyLines | cmd/pkg/table/fmt.go:11-26 | no columns give ("\n", "\n") |
| TableFormat.FormatContainerID | cmd/pkg/table/server_writer.go:132-143 | a non-string gives ""; a longer id is cut to its first 12 characters; a shorter id is kept |
| TableFormat.FormatContainerCommand | cmd/pkg/table/server_writer.go:145-156 | the same, with a limit of 25 |
| TableFormat.TruncateIdempotent | cmd/pkg/table/server_writer.go:137-142 | a shown id or command shows as itself |
| TableFormat.FormatContainerName | cmd/pkg/table/server_writer.go:158-169 | no names give "" |
| TableFormat.FormatContainerNameJoins | cmd/pkg/table/server_writer.go:158-169 | the rendering is the names without their first character, joined by single spaces |
| TableFormat.FormatContainerNameSplits | cmd/pkg/table/server_writer.go:158-169 | for space-free names, splitting at spaces gives back the unslashed names |
| TableFormat.FormatContainerPort | cmd/pkg/table/server_writer.go:171-182 | the rendering is the "IP:public->private/type" texts of the ports, in order, joined by single spaces, and "" for no ports |
| TableFormat.FormatContainerPortSplits | cmd/pkg/table/server_writer.go:171-182 | for space-free addresses and types, splitting at spaces gives back one text per port |
| TableFormat.PortNumbersReadBack | cmd/pkg/table/server_writer.go:173-176 | the public port number reads back from its decimal text |
| TableFormat.FormatEncoded | cmd/pkg/table/fmt.go:38-46 | the encoder's output followed by a newline, together with its error |
| Decimal.AtoiItoa | cmd/pkg/table/server_writer.go:176 | reading the decimal rendering of a number gives back the number |
| TableWriter.ApplyFormat | cmd/pkg/table/server_writer.go:49-59 | json or yaml selects that encoding; any other non-empty format becomes the value template with a newline; every format drops the header |
| TableWriter.NewWriter | cmd/pkg/table/server_writer.go:25-62 | a fresh writer with the seven server functions; the header and value come from the columns, with an ID column first under --ids; quiet shows only ids; the format flag overrides both |
| TableWriter.NewNodeWriter | cmd/pkg/table/node_writer.go:10-33 | a fresh writer with only the json and yaml functions, the column formats, and the format override; no ids and no quiet |
| TableWriter.AddFormatFunc | cmd/pkg/table/writer.go:13-15 | the name is registered and nothing else in the writer changes |
| TableWriter.WriteHeader | cmd/pkg/table/writer.go:21-29 | a due header is marked printed before it is rendered, even when rendering fails; an empty header is never printed |
| TableWriter.Write | cmd/pkg/table/writer.go:21-59 | once an error is recorded, nothing happens; a header still due is printed first, and its error suppresses the row; then the record's json, "---" + yaml, or template text is appended, or its render error recorded; output is append-only |
| TableWriter.Close | cmd/pkg/table/writer.go:61-70 | returns the recorded error without flushing; otherwise a header still due is printed and then the flush result returned, or its render error returned in place of the flush |
| TableWriter.ErrorSticks | cmd/pkg/table/writer.go:32-64 | once an error is recorded, further writes and the close change nothing and report it |
| TableWriter.RecordsInOrder | cmd/pkg/table/writer.go:31-59 | with the header done, rendered records are appended in order and nothing else is written |
| TableWriter.HeaderOnceThenRecords | cmd/pkg/table/writer.go:21-70 | a fresh table prints its header exactly once, before the records, even with no records, and closes with the flush result |
| TableWriter.HeaderThenOneRecord | cmd/pkg/table/writer.go:21-70 | a fresh listing of one record that renders is the header, then the record, and the close adds nothing |
| TableWriter.FormatBeatsQuiet | cmd/pkg/table/server_writer.go:44-59 | quiet gives "{{.ID}}\n", but a format flag overrides it |
| TableWriter.IdsColumnFirst | cmd/pkg/table/server_writer.go:20-28 | with --ids the header starts with "ID" and the value line with "{{.ID}}" |

## Left out

- Real I/O is replaced by oracle parameters:
  - engine HTTP calls and their timeouts;
  - the streaming of pull output;
  - `os.Hostname`, `os.Rename` and `os.Stat`;
  - the YAML roster read and write of util/rke.go;
  - `rkecmd.ClusterUp`;
  - the tab writer's flush.

  The roster document is a node list plus an uninterpreted rest.
- Foreign parsers and encoders are uninterpreted functions: docker reference parsing and domain extraction, go-semver parsing, JSON and YAML marshalling, and Go template parsing and execution. Template functions are tracked by name only.
- `FormatContainerCreated` is left out: it depends on the wall clock and on humanised durations.
- Column alignment by the tab writer is left out; the model's output is the text handed to the aligner.
- Partial output written by a template that then fails is left out: a failing render appends nothing.
- Standard-output write errors are left out. In the Go code they can surface from `Write` as well as from the flush, for example for a line without a tab; the model treats every append as succeeding and takes only the flush result from the oracle.
- Logging is left out, and so are the warnings for an unsupported engine version, a missing container and an empty roster.
- The RSA key helpers of util/util.go, the Kubernetes client, the interactive completer and the `cli.Command` wiring are left out: they are library glue, not logic.
- `table.NewServerWriter`, `table.WriterServerFlags` and `KubeConfigLocation` are not part of this model, because their definitions are not available:
  - `Server.ServerStatus` assumes the server writer is `TableWriter.NewWriter` over the status columns.
  - The expected kube-config path is a parameter.
- Engine API version negotiation and the client object are left out: a client is its host and the API version.
- `nat.NewPort("tcp", "9600")` is taken to succeed. Its error branch at cmd/server.go:110-112 cannot be reached with those constants.
- TableFormat.FormatContainerName: requires non-empty names. The Go code slices `name[1:]` and panics on an empty name; engine names always start with "/".
- Strings are sequences of characters. Go's byte indexing, for example the 12- and 25-character truncations, is modelled per character, which agrees for ASCII text.
- `ContainerDefaultTimeout` is the number 10, in seconds. `time.Duration` is not modelled.

## Findings

| source | as written | input that shows it | evidently intended | confidence | as-written member | corrected member |
|---|---|---|---|---|---|---|
| cmd/node.go:205 | `left := config.Nodes[0 : foundIndex-1]` also drops the entry before the match | roster [a, b, c], `node rm --address b.address` writes [c] | `Nodes[0:foundIndex]`, giving [a, c] | high, not executed | NodeProps.AsWrittenLosesPredecessor | NodeCmd.RemoveEntry |
| cmd/node.go:202-203 | a one-entry roster is emptied without checking the address | roster [a], `node rm` with an address other than a's writes [] | nothing removed when the address is not listed | high, not executed | NodeProps.AsWrittenEmptiesOnMismatch | NodeCmd.NodeRmCorrected |
| cmd/node.go:189-205 | with two or more entries, foundIndex 0 (first entry) or -1 (not listed) makes the slice bounds invalid, so Go panics | roster [a, b], `node rm --address a.address` | the first entry is removable, and an unlisted address is a no-op | high, not executed | NodeProps.AsWrittenPanicsOnFirst | NodeProps.RemoveUndoesAdd |

=== FILE: args.dfy ===
/** Short-flag expansion of the command line before the CLI library sees
    it (main.go, `parseArgs`): a single-dash cluster "-abc" becomes "-a",
    "-b", "-c"; "=" after at least one letter attaches the rest of the
    argument to the last flag. */
module Args {
  import opened Results
  import opened Strings

  /** The one-character class `[a-zA-Z]`. */
  predicate IsLetter(c: char) {
    'a' <= c <= 'z' || 'A' <= c <= 'Z'
  }

  /** A single-dash cluster: starts with "-", not with "--", and is longer
      than the lone "-". */
  predicate IsCluster(arg: string) {
    HasPrefix(arg, "-") && !HasPrefix(arg, "--") && |arg| > 1
  }

  /** An argument is a cluster exactly when it is a dash followed by
      something other than a dash. */
  lemma {:induction false} ClusterByShape(arg: string)
    ensures IsCluster(arg) <==> (|arg| > 1 && arg[0] == '-' && arg[1] != '-')
  {
    if |arg| > 1 {
      assert arg[..1] == [arg[0]];
      assert arg[..2] == [arg[0], arg[1]];
    }
  }

  /** One "-x" flag per character. */
  function Singles(body: string): (r: seq<string>)
    ensures |r| == |body|
    ensures forall j | 0 <= j < |body| :: r[j] == "-" + [body[j]]
  {
    seq(|body|, j requires 0 <= j < |body| => "-" + [body[j]])
  }

  /** The position of the first character that is not a letter. */
  function FirstNonLetter(body: string): (k: nat)
    ensures k <= |body|
    ensures forall j | 0 <= j < k :: IsLetter(body[j])
    ensures k < |body| ==> !IsLetter(body[k])
  {
    if |body| == 0 || !IsLetter(body[0]) then 0
    else 1 + FirstNonLetter(body[1..])
  }

  /** What one argument contributes: itself when it is not a cluster; one
      flag per letter otherwise, up to an "=" (whose text, from the "="
      on, is glued to the flag before it) or up to a character that is
      neither, which is an error. */
  function ExpandArg(arg: string): Result<seq<string>> {
    if !IsCluster(arg) then Ok([arg])
    else
      var body := arg[1..];
      var k := FirstNonLetter(body);
      if k == |body| then Ok(Singles(body))
      else if body[k] == '=' then
        if k == 0 then Err("invalid input with '-' and '=' flag")
        else Ok(Singles(body[..k - 1]) + ["-" + [body[k - 1]] + body[k..]])
      else Err("invalid input " + [body[k]] + " in flag")
  }

  /** The arguments expanded in order, stopping at the first error. */
  function ExpandAll(args: seq<string>): Result<seq<string>>
    decreases |args|
  {
    if |args| == 0 then Ok([])
    else
      match ExpandAll(args[..|args| - 1])
      case Err(e) => Err(e)
      case Ok(prev) =>
        match ExpandArg(args[|args| - 1])
        case Err(e) => Err(e)
        case Ok(more) => Ok(prev + more)
  }

  /** An error in a prefix of the arguments is the error of the whole. */
  lemma {:induction false} ErrorInPrefix(args: seq<string>, n: nat, e: string)
    requires n <= |args| && ExpandAll(args[..n]) == Err(e)
    ensures ExpandAll(args) == Err(e)
    decreases |args| - n
  {
    if n < |args| {
      assert args[..n + 1][..n] == args[..n];
      ErrorInPrefix(args, n + 1, e);
    } else {
      assert args[..n] == args;
    }
  }

  /** The scan of one cluster's characters after the dash: a flag per
      letter; at "=" the rest of the argument, from the "=" on, is glued to
      the last flag and the scan ends. The flags go straight onto the
      output in the program; here they are returned and appended by the
      caller, which is the same since the "=" case only ever touches a
      flag this scan emitted. */
  method ScanCluster(arg: string) returns (r: Result<seq<string>>)
    requires IsCluster(arg)
    ensures r == ExpandArg(arg)
  {
    var body := arg[1..];
    var k := FirstNonLetter(body);
    var flags: seq<string> := [];
    var i := 0;
    while i < |body|
      invariant 0 <= i <= |body| && i <= k
      invariant flags == Singles(body[..i])
    {
      var c := body[i];
      if c == '=' {
        if i < 1 {
          return Err("invalid input with '-' and '=' flag");
        }
        assert Singles(body[..i]) == Singles(body[..i - 1]) + ["-" + [body[i - 1]]];
        flags := flags[..|flags| - 1] + [flags[|flags| - 1] + arg[i + 1..]];
        assert arg[i + 1..] == body[i..];
        return Ok(flags);
      } else if IsLetter(c) {
        assert Singles(body[..i + 1]) == Singles(body[..i]) + ["-" + [c]];
        flags := flags + ["-" + [c]];
        i := i + 1;
      } else {
        return Err("invalid input " + [c] + " in flag");
      }
    }
    assert body[..i] == body;
    return Ok(flags);
  }

  /** The expansion as the program computes it: a scan over the arguments,
      expanding each cluster in place and stopping at the first error. */
  method ParseArgs(args: seq<string>) returns (r: Result<seq<string>>)
    ensures r == ExpandAll(args)
  {
    var result: seq<string> := [];
    var n := 0;
    while n < |args|
      invariant 0 <= n <= |args|
      invariant ExpandAll(args[..n]) == Ok(result)
    {
      var arg := args[n];
      assert args[..n + 1][..n] == args[..n] && args[..n + 1][n] == arg;
      if IsCluster(arg) {
        var flags := ScanCluster(arg);
        if flags.Err? {
          ErrorInPrefix(args, n + 1, flags.error);
          return Err(flags.error);
        }
        result := result + flags.value;
      } else {
        result := result + [arg];
      }
      n := n + 1;
    }
    assert args[..n] == args;
    return Ok(result);
  }
}

=== FILE: args_props.dfy ===
/** What the short-flag expansion promises: nothing is lost, nothing else
    changes, and the documented shapes. */
module ArgsProps {
  import opened Results
  import opened Strings
  import opened Args

  /** A flag without its leading dash. */
  function Undash(flag: string): string {
    if |flag| == 0 then "" else flag[1..]
  }

  /** The flags with their dashes dropped, run together. */
  function Rejoin(flags: seq<string>): string
    decreases |flags|
  {
    if |flags| == 0 then "" else Rejoin(flags[..|flags| - 1]) + Undash(flags[|flags| - 1])
  }

  lemma {:induction false} RejoinSingles(body: string)
    ensures Rejoin(Singles(body)) == body
    decreases |body|
  {
    if |body| > 0 {
      var n := |body| - 1;
      assert Singles(body)[..n] == Singles(body[..n]);
      RejoinSingles(body[..n]);
      assert body == body[..n] + [body[n]];
    }
  }

  lemma {:induction false} RejoinAppend(flags: seq<string>, last: string)
    ensures Rejoin(flags + [last]) == Rejoin(flags) + Undash(last)
  {
    assert (flags + [last])[..|flags|] == flags;
  }

  /** Expansion loses nothing: dropping each flag's dash and running the
      flags together gives back the cluster after its dash. */
  lemma {:induction false} ClusterRejoins(arg: string)
    requires IsCluster(arg) && ExpandArg(arg).Ok?
    ensures "-" + Rejoin(ExpandArg(arg).value) == arg
  {
    var body := arg[1..];
    var k := FirstNonLetter(body);
    assert arg == "-" + body by { assert arg[0] == '-'; }
    if k == |body| {
      RejoinSingles(body);
    } else {
      GluedRejoins(body, k);
    }
  }

  lemma {:induction false} GluedRejoins(body: string, k: nat)
    requires 0 < k < |body|
    ensures Rejoin(Singles(body[..k - 1]) + ["-" + [body[k - 1]] + body[k..]]) == body
  {
    var pre := body[..k - 1];
    var last := "-" + [body[k - 1]] + body[k..];
    RejoinAppend(Singles(pre), last);
    RejoinSingles(pre);
    UndashGlued([body[k - 1]], body[k..]);
    SplitAround(body, k - 1);
  }

  /** Dropping the dash of a glued flag leaves its letter and tail. */
  lemma {:induction false} UndashGlued(c: string, tail: string)
    ensures Undash("-" + c + tail) == c + tail
  {
    assert ("-" + c + tail)[1..] == c + tail;
  }

  /** A string is what comes before position `j`, the character there,
      and what follows. */
  lemma {:induction false} SplitAround(body: string, j: nat)
    requires j < |body|
    ensures body[..j] + ([body[j]] + body[j + 1..]) == body
  {
    assert body[j..] == [body[j]] + body[j + 1..];
    assert body == body[..j] + body[j..];
  }

  /** Every argument contributes at least one element. */
  lemma {:induction false} ExpandArgNonEmpty(arg: string)
    requires ExpandArg(arg).Ok?
    ensures |ExpandArg(arg).value| >= 1
  {
    if IsCluster(arg) {
      var body := arg[1..];
      assert |body| >= 1;
    }
  }

  /** On success the output is at least as long as the input. */
  lemma {:induction false} ExpandAllLonger(args: seq<string>)
    requires ExpandAll(args).Ok?
    ensures |ExpandAll(args).value| >= |args|
    decreases |args|
  {
    if |args| > 0 {
      ExpandAllLonger(args[..|args| - 1]);
      ExpandArgNonEmpty(args[|args| - 1]);
    }
  }

  /** Arguments that are not clusters (plain words, "--long" flags, the
      lone "-") pass through unchanged and in order. */
  lemma {:induction false} PlainArgsUnchanged(args: seq<string>)
    requires forall k | 0 <= k < |args| :: !IsCluster(args[k])
    ensures ExpandAll(args) == Ok(args)
    decreases |args|
  {
    if |args| > 0 {
      var n := |args| - 1;
      var init := args[..n];
      assert forall k | 0 <= k < n :: init[k] == args[k];
      assert ExpandAll(args) == Ok(init + [args[n]]) by {
        PlainArgsUnchanged(init);
        assert ExpandArg(args[n]) == Ok([args[n]]);
      }
      assert init + [args[n]] == args;
    }
  }

  /** A cluster of letters only becomes one flag per letter ("-abc"
      becomes "-a", "-b", "-c"). */
  lemma {:induction false} ExpandsLetters(letters: string)
    requires |letters| >= 1 && forall j | 0 <= j < |letters| :: IsLetter(letters[j])
    ensures ExpandArg("-" + letters) == Ok(Singles(letters))
  {
    var arg := "-" + letters;
    assert arg[1..] == letters;
    assert arg[1] == letters[0] && arg[1] != '-';
    ClusterByShape(arg);
  }

  /** After at least one letter, "=" glues the rest of the argument, "="
      included, to the last letter's flag ("-ab=x" becomes "-a", "-b=x"). */
  lemma {:induction false} ExpandsValue(letters: string, rest: string)
    requires |letters| >= 1 && forall j | 0 <= j < |letters| :: IsLetter(letters[j])
    ensures var n := |letters| - 1;
      ExpandArg("-" + letters + "=" + rest) ==
        Ok(Singles(letters[..n]) + ["-" + [letters[n]] + "=" + rest])
  {
    var arg := "-" + letters + "=" + rest;
    var body := arg[1..];
    var n := |letters| - 1;
    assert body == letters + "=" + rest;
    assert arg[1] == letters[0] && arg[1] != '-';
    ClusterByShape(arg);
    assert forall j | 0 <= j < |letters| :: body[j] == letters[j];
    FirstNonLetterAt(body, |letters|);
    assert body[..n] == letters[..n];
    assert body[n] == letters[n];
    assert body[|letters|..] == "=" + rest;
    assert |body| > |letters| && body[|letters|] == '=';
    assert "-" + [body[n]] + body[|letters|..] == "-" + [letters[n]] + "=" + rest;
    assert ExpandArg(arg) == Ok(Singles(body[..n]) + ["-" + [body[n]] + body[|letters|..]]);
  }

  /** "=" straight after the dash is an error. */
  lemma {:induction false} RejectsLeadingEquals(rest: string)
    ensures ExpandArg("-=" + rest) == Err("invalid input with '-' and '=' flag")
  {
    var arg := "-=" + rest;
    assert arg[1..][0] == '=' && arg[1] == '=';
  }

  /** A character that is neither a letter nor "=" is an error naming it. */
  lemma {:induction false} RejectsOther(letters: string, c: char, rest: string)
    requires forall j | 0 <= j < |letters| :: IsLetter(letters[j])
    requires !IsLetter(c) && c != '=' && (|letters| == 0 ==> c != '-')
    ensures ExpandArg("-" + letters + [c] + rest) == Err("invalid input " + [c] + " in flag")
  {
    var arg := "-" + letters + [c] + rest;
    var body := arg[1..];
    assert body == letters + [c] + rest;
    assert |letters| > 0 ==> arg[1] == letters[0];
    assert |letters| == 0 ==> arg[1] == c;
    ClusterByShape(arg);
    assert forall j | 0 <= j < |letters| :: body[j] == letters[j];
    FirstNonLetterAt(body, |letters|);
  }

  /** The first non-letter is at `k` when everything before it is a
      letter and it is not. */
  lemma {:induction false} FirstNonLetterAt(body: string, k: nat)
    requires k < |body| && !IsLetter(body[k])
    requires forall j | 0 <= j < k :: IsLetter(body[j])
    ensures FirstNonLetter(body) == k
    decreases k
  {
    if k > 0 {
      FirstNonLetterAt(body[1..], k - 1);
    }
  }
}

=== FILE: base64url.dfy ===
/** Base 64 encoding with the URL- and filename-safe alphabet and `=`
    padding, section 5 of RFC 4648: Go's `base64.URLEncoding`, which turns
    registry credentials into the `RegistryAuth` token of an image pull. */
module Base64Url {
  import opened Results

  /** The 64-symbol alphabet of section 5: letters, digits, `-`, `_`. */
  function Symbol(v: nat): (c: char)
    requires v < 64
  {
    if v < 26 then ('A' as int + v) as char
    else if v < 52 then ('a' as int + (v - 26)) as char
    else if v < 62 then ('0' as int + (v - 52)) as char
    else if v == 62 then '-'
    else '_'
  }

  /** The value of an alphabet symbol; padding and anything else has none. */
  function SymbolValue(c: char): (r: Option<nat>)
    ensures r.Some? ==> r.value < 64
  {
    if 'A' <= c <= 'Z' then Some(c as int - 'A' as int)
    else if 'a' <= c <= 'z' then Some(c as int - 'a' as int + 26)
    else if '0' <= c <= '9' then Some(c as int - '0' as int + 52)
    else if c == '-' then Some(62)
    else if c == '_' then Some(63)
    else None
  }

  lemma {:induction false} SymbolRoundTrip(v: nat)
    requires v < 64
    ensures SymbolValue(Symbol(v)) == Some(v)
    ensures Symbol(v) != '='
  {
  }

  /** Three bytes as four symbols: the 24 bits cut into sextets, most
      significant first. */
  function EncodeGroup(b0: byte, b1: byte, b2: byte): (q: string)
    ensures |q| == 4 && q[3] != '='
    ensures DecodeGroup(q) == Some([b0, b1, b2])
  {
    var x0, x1, x2 := b0 as int, b1 as int, b2 as int;
    var v0, v1, v2, v3 := x0 / 4, x0 % 4 * 16 + x1 / 16, x1 % 16 * 4 + x2 / 64, x2 % 64;
    SymbolRoundTrip(v0);
    SymbolRoundTrip(v1);
    SymbolRoundTrip(v2);
    SymbolRoundTrip(v3);
    SextetsToByte0(x0, x1);
    SextetsToByte1(x0, x1, x2);
    SextetsToByte2(x1, x2);
    [Symbol(v0), Symbol(v1), Symbol(v2), Symbol(v3)]
  }

  /** A final single byte: two symbols and two padding characters. */
  function EncodeLastOne(b0: byte): (q: string)
    ensures |q| == 4 && q[2] == '=' && q[3] == '='
    ensures DecodeLast(q) == Some([b0])
  {
    var x0 := b0 as int;
    SymbolRoundTrip(x0 / 4);
    SymbolRoundTrip(x0 % 4 * 16);
    SextetsToByte0(x0, 0);
    [Symbol(x0 / 4), Symbol(x0 % 4 * 16), '=', '=']
  }

  /** Two final bytes: three symbols and one padding character. */
  function EncodeLastTwo(b0: byte, b1: byte): (q: string)
    ensures |q| == 4 && q[2] != '=' && q[3] == '='
    ensures DecodeLast(q) == Some([b0, b1])
  {
    var x0, x1 := b0 as int, b1 as int;
    SymbolRoundTrip(x0 / 4);
    SymbolRoundTrip(x0 % 4 * 16 + x1 / 16);
    SymbolRoundTrip(x1 % 16 * 4);
    SextetsToByte0(x0, x1);
    SextetsToByte1(x0, x1, 0);
    [Symbol(x0 / 4), Symbol(x0 % 4 * 16 + x1 / 16), Symbol(x1 % 16 * 4), '=']
  }

  /** The sextets of a group, read back, give the first byte... */
  lemma {:induction false} SextetsToByte0(x0: int, x1: int)
    requires 0 <= x0 < 256 && 0 <= x1 < 256
    ensures (x0 / 4) * 4 + (x0 % 4 * 16 + x1 / 16) / 16 == x0
  {
    var m := x1 / 16;
    assert 0 <= m < 16;
    assert (x0 % 4 * 16 + m) / 16 == x0 % 4;
  }

  /** ... the second byte ... */
  lemma {:induction false} SextetsToByte1(x0: int, x1: int, x2: int)
    requires 0 <= x0 < 256 && 0 <= x1 < 256 && 0 <= x2 < 256
    ensures (x0 % 4 * 16 + x1 / 16) % 16 * 16 + (x1 % 16 * 4 + x2 / 64) / 4 == x1
  {
    var m := x1 / 16;
    assert 0 <= m < 16;
    assert (x0 % 4 * 16 + m) % 16 == m;
    var n := x2 / 64;
    assert 0 <= n < 4;
    assert (x1 % 16 * 4 + n) / 4 == x1 % 16;
  }

  /** ... and the third byte. */
  lemma {:induction false} SextetsToByte2(x1: int, x2: int)
    requires 0 <= x1 < 256 && 0 <= x2 < 256
    ensures (x1 % 16 * 4 + x2 / 64) % 4 * 64 + x2 % 64 == x2
  {
    var n := x2 / 64;
    assert 0 <= n < 4;
    assert (x1 % 16 * 4 + n) % 4 == n;
  }

  /** Encoding: every three input bytes become four symbols; a final group
      of one or two bytes is padded with `=` to four characters. */
  function Encode(b: seq<byte>): (s: string)
    ensures |s| == (|b| + 2) / 3 * 4
    decreases |b|
  {
    if |b| == 0 then ""
    else if |b| == 1 then EncodeLastOne(b[0])
    else if |b| == 2 then EncodeLastTwo(b[0], b[1])
    else
      GroupsLengthStep(|b|);
      EncodeGroup(b[0], b[1], b[2]) + Encode(b[3..])
  }

  /** Three more bytes cost one more group of four symbols. */
  lemma {:induction false} GroupsLengthStep(n: nat)
    requires n >= 3
    ensures (n + 2) / 3 * 4 == (n - 3 + 2) / 3 * 4 + 4
  {
    assert (n + 2) / 3 == (n - 3 + 2) / 3 + 1;
  }

  /** Four symbols without padding as three bytes. */
  function DecodeGroup(q: string): Option<seq<byte>>
    requires |q| == 4
  {
    var v0, v1, v2, v3 := SymbolValue(q[0]), SymbolValue(q[1]), SymbolValue(q[2]), SymbolValue(q[3]);
    if v0.None? || v1.None? || v2.None? || v3.None? then None
    else Some([(v0.value * 4 + v1.value / 16) as byte,
               (v1.value % 16 * 16 + v2.value / 4) as byte,
               (v2.value % 4 * 64 + v3.value) as byte])
  }

  /** A padded final group as one or two bytes. */
  function DecodeLast(q: string): Option<seq<byte>>
    requires |q| == 4 && q[3] == '='
  {
    var v0, v1, v2 := SymbolValue(q[0]), SymbolValue(q[1]), SymbolValue(q[2]);
    if v0.None? || v1.None? then None
    else if q[2] == '=' then Some([(v0.value * 4 + v1.value / 16) as byte])
    else if v2.None? then None
    else Some([(v0.value * 4 + v1.value / 16) as byte, (v1.value % 16 * 16 + v2.value / 4) as byte])
  }

  /** Decoding, the inverse direction: groups of four characters, padding
      only in the last group. */
  function Decode(s: string): Result<seq<byte>>
    decreases |s|
  {
    if |s| == 0 then
      Ok([])
    else if |s| < 4 then
      Err("illegal base64 data")
    else if |s| == 4 && s[3] == '=' then
      match DecodeLast(s)
      case None => Err("illegal base64 data")
      case Some(last) => Ok(last)
    else
      match DecodeGroup(s[..4])
      case None => Err("illegal base64 data")
      case Some(group) =>
        match Decode(s[4..])
        case Err(e) => Err(e)
        case Ok(rest) => Ok(group + rest)
  }

  /** Decoding an encoding gives back the bytes: the token carries the
      credential JSON without loss. */
  lemma {:induction false} DecodeEncode(b: seq<byte>)
    ensures Decode(Encode(b)) == Ok(b)
    decreases |b|
  {
    if |b| == 1 {
      assert b == [b[0]];
    } else if |b| == 2 {
      assert b == [b[0], b[1]];
    } else if |b| >= 3 {
      var q := EncodeGroup(b[0], b[1], b[2]);
      var rest := Encode(b[3..]);
      assert Encode(b) == q + rest;
      DecodeEncode(b[3..]);
      DecodeGroupThen(q, rest, [b[0], b[1], b[2]], b[3..]);
      FirstThree(b);
    }
  }

  /** A full group in front of a decodable rest decodes to the group's
      bytes followed by the rest's. */
  lemma {:induction false} DecodeGroupThen(q: string, rest: string, group: seq<byte>, tail: seq<byte>)
    requires |q| == 4 && q[3] != '=' && DecodeGroup(q) == Some(group)
    requires Decode(rest) == Ok(tail)
    ensures Decode(q + rest) == Ok(group + tail)
  {
    var s := q + rest;
    assert s[..4] == q && s[4..] == rest;
  }

  /** A sequence of three or more is its first three elements and the rest. */
  lemma {:induction false} FirstThree<T>(b: seq<T>)
    requires |b| >= 3
    ensures b == [b[0], b[1], b[2]] + b[3..]
  {
    assert b[..3] == [b[0], b[1], b[2]];
    assert b == b[..3] + b[3..];
  }
}

=== FILE: client.dfy ===
/** The engine client and its version gate (docker/client.go). Semantic
    version parsing is the go-semver library's and enters as a parameter
    `parse`; so do the docker client library's acceptance of the host and
    the engine's reported server version. */
module Client {
  import opened Results
  import opened Strings
  import opened Engine

  /** A parsed version; only major and minor take part in the gate. */
  datatype Semver = Semver(major: int, minor: int, patch: int)

  /** What the client learns from outside: whether the docker client
      library accepts the host (an error when not), and the engine's info
      call, which yields its server version. */
  datatype Daemon = Daemon(connect: string -> Option<string>, info: Result<string>)

  /** A connected client: the host and the pinned API version. */
  datatype EngineClient = EngineClient(host: string, apiVersion: string)

  /** A supported-version pattern with its third component replaced by
      "0": defined exactly when the pattern has two dots, and then the
      pattern up to and including its second dot, followed by "0". */
  function ZeroPatch(version: string): (r: Option<string>)
    ensures r.Some? <==> exists i, j :: 0 <= i < j < |version| && version[i] == '.' && version[j] == '.'
    ensures r.Some? ==> exists i, j | 0 <= i < j < |version| ::
      && version[i] == '.' && version[j] == '.'
      && '.' !in version[..i] && '.' !in version[i + 1..j]
      && r.value == version[..j + 1] + "0"
  {
    var parts := SplitN(version, '.', 3);
    SplitNThreeCount(version, '.');
    if |parts| != 3 then None
    else
      ZeroPatchForm(version);
      Some(Join([parts[0], parts[1], "0"], "."))
  }

  /** The two-dot case of `ZeroPatch`: the first two pieces and the dots
      after them are the pattern's prefix through its second dot. */
  lemma {:induction false} ZeroPatchForm(version: string)
    requires |SplitN(version, '.', 3)| == 3
    ensures var parts := SplitN(version, '.', 3);
      exists i, j | 0 <= i < j < |version| ::
        && version[i] == '.' && version[j] == '.'
        && '.' !in version[..i] && '.' !in version[i + 1..j]
        && Join([parts[0], parts[1], "0"], ".") == version[..j + 1] + "0"
  {
    var parts := SplitN(version, '.', 3);
    SplitNThreeShape(version, '.');
    SplitNThreeFree(version, '.');
    JoinThree(parts[0], parts[1]);
    DotPieces(version, parts[0], parts[1], parts[2]);
  }

  lemma {:induction false} JoinThree(a: string, b: string)
    ensures Join([a, b, "0"], ".") == a + "." + b + "." + "0"
  {
    assert [a, b, "0"][1..] == [b, "0"];
    assert [b, "0"][1..] == ["0"];
    assert Join(["0"], ".") == "0";
    assert Join([b, "0"], ".") == b + "." + "0";
    assert Join([a, b, "0"], ".") == a + "." + (b + "." + "0");
  }

  /** A text made of two dot-free pieces, each followed by a dot, and a
      rest: the dots sit right after each piece. */
  lemma {:induction false} DotPieces(version: string, a: string, b: string, c: string)
    requires version == a + "." + b + "." + c
    requires '.' !in a && '.' !in b
    ensures var i, j := |a|, |a| + 1 + |b|;
      && 0 <= i < j < |version|
      && version[i] == '.' && version[j] == '.'
      && version[..i] == a && version[i + 1..j] == b
      && version[..j + 1] == a + "." + b + "."
  {
    var i, j := |a|, |a| + 1 + |b|;
    assert version == (a + "." + b + ".") + c;
    assert version[..j + 1] == a + "." + b + ".";
    assert version[..i] == a;
    assert version[i + 1..j] == b;
  }

  /** The pattern converted to a version, or the error for a pattern
      without two dots. */
  function ConvertToSemver(version: string, parse: string -> Result<Semver>): (r: Result<Semver>)
    ensures ZeroPatch(version).None? ==> r == Err("the default version is not correct")
    ensures ZeroPatch(version).Some? ==> r == parse(ZeroPatch(version).value)
  {
    match ZeroPatch(version)
    case None => Err("the default version is not correct")
    case Some(z) => parse(z)
  }

  /** Pattern `v` converts and names the engine's major and minor. */
  predicate Hit(engine: Semver, v: string, parse: string -> Result<Semver>) {
    var c := ConvertToSemver(v, parse);
    c.Ok? && c.value.major == engine.major && c.value.minor == engine.minor
  }

  /** Pattern `v` converts but names another major or minor. */
  predicate Miss(engine: Semver, v: string, parse: string -> Result<Semver>) {
    var c := ConvertToSemver(v, parse);
    c.Ok? && !(c.value.major == engine.major && c.value.minor == engine.minor)
  }

  /** Pattern `i` is the first that does not miss, and it hits. */
  predicate FirstHit(engine: Semver, versions: seq<string>, parse: string -> Result<Semver>, i: int)
    requires 0 <= i < |versions|
  {
    Hit(engine, versions[i], parse) && forall j | 0 <= j < i :: Miss(engine, versions[j], parse)
  }

  /** Pattern `i` is the first that does not miss, and it does not
      convert. */
  predicate FirstBad(engine: Semver, versions: seq<string>, parse: string -> Result<Semver>, i: int)
    requires 0 <= i < |versions|
  {
    ConvertToSemver(versions[i], parse).Err? && forall j | 0 <= j < i :: Miss(engine, versions[j], parse)
  }

  /** Behind a leading miss, the first hit (or first bad pattern) of the
      list is that of its tail, one position later. */
  lemma {:induction false} ShiftPastMiss(engine: Semver, versions: seq<string>, parse: string -> Result<Semver>)
    requires |versions| >= 1 && Miss(engine, versions[0], parse)
    ensures forall i | 1 <= i < |versions| ::
      (FirstHit(engine, versions, parse, i) <==> FirstHit(engine, versions[1..], parse, i - 1)) &&
      (FirstBad(engine, versions, parse, i) <==> FirstBad(engine, versions[1..], parse, i - 1))
    ensures forall i | 0 <= i < |versions| - 1 ::
      (FirstHit(engine, versions[1..], parse, i) ==> FirstHit(engine, versions, parse, i + 1)) &&
      (FirstBad(engine, versions[1..], parse, i) ==> FirstBad(engine, versions, parse, i + 1))
    ensures !FirstHit(engine, versions, parse, 0) && !FirstBad(engine, versions, parse, 0)
  {
    assert forall j | 1 <= j < |versions| :: versions[j] == versions[1..][j - 1];
  }

  /** The scan of the supported patterns in order: true at the first hit,
      the conversion error at the first pattern that does not convert,
      false when every pattern converts and misses. What it answers is
      stated by `ScanFindsFirstHit`, `ScanAllMiss` and `ScanStopsAtBad`. */
  function Scan(engine: Semver, versions: seq<string>, parse: string -> Result<Semver>): Result<bool>
    decreases |versions|
  {
    if |versions| == 0 then Ok(false)
    else
      match ConvertToSemver(versions[0], parse)
      case Err(e) => Err(e)
      case Ok(c) =>
        if c.major == engine.major && c.minor == engine.minor then Ok(true)
        else Scan(engine, versions[1..], parse)
  }

  /** The scan answers true exactly when some pattern is the first hit. */
  lemma {:induction false} ScanFindsFirstHit(engine: Semver, versions: seq<string>, parse: string -> Result<Semver>)
    ensures Scan(engine, versions, parse) == Ok(true) <==>
      exists i | 0 <= i < |versions| :: FirstHit(engine, versions, parse, i)
    decreases |versions|
  {
    if |versions| > 0 {
      if Hit(engine, versions[0], parse) {
        assert FirstHit(engine, versions, parse, 0);
      } else if Miss(engine, versions[0], parse) {
        ScanFindsFirstHit(engine, versions[1..], parse);
        ShiftPastMiss(engine, versions, parse);
      } else {
        assert forall i | 0 <= i < |versions| :: !FirstHit(engine, versions, parse, i);
      }
    }
  }

  /** The scan answers false exactly when every pattern converts and
      misses. */
  lemma {:induction false} ScanAllMiss(engine: Semver, versions: seq<string>, parse: string -> Result<Semver>)
    ensures Scan(engine, versions, parse) == Ok(false) <==>
      forall j | 0 <= j < |versions| :: Miss(engine, versions[j], parse)
    decreases |versions|
  {
    if |versions| > 0 {
      if Miss(engine, versions[0], parse) {
        assert Scan(engine, versions, parse) == Scan(engine, versions[1..], parse);
        ScanAllMiss(engine, versions[1..], parse);
        assert forall j | 1 <= j < |versions| :: versions[j] == versions[1..][j - 1];
      } else {
        assert Scan(engine, versions, parse) != Ok(false);
      }
    }
  }

  /** The scan fails exactly when some pattern is the first that does not
      convert, and then with that pattern's conversion error. */
  lemma {:induction false} ScanStopsAtBad(engine: Semver, versions: seq<string>, parse: string -> Result<Semver>)
    ensures Scan(engine, versions, parse).Err? <==>
      exists i | 0 <= i < |versions| :: FirstBad(engine, versions, parse, i)
    ensures Scan(engine, versions, parse).Err? ==> exists i | 0 <= i < |versions| ::
      FirstBad(engine, versions, parse, i) &&
      Scan(engine, versions, parse).error == ConvertToSemver(versions[i], parse).error
    decreases |versions|
  {
    if |versions| > 0 {
      if ConvertToSemver(versions[0], parse).Err? {
        assert FirstBad(engine, versions, parse, 0);
      } else if Hit(engine, versions[0], parse) {
        assert forall i | 0 <= i < |versions| :: !FirstBad(engine, versions, parse, i);
      } else {
        ScanStopsAtBad(engine, versions[1..], parse);
        ShiftPastMiss(engine, versions, parse);
      }
    }
  }

  /** Whether the engine's version is supported: any version containing
      "ros" is, unconditionally; otherwise it must parse and then match a
      pattern on major and minor. */
  function IsSupportVersion(serverVersion: string, versions: seq<string>, parse: string -> Result<Semver>): (r: Result<bool>)
    ensures Contains(serverVersion, "ros") ==> r == Ok(true)
    ensures !Contains(serverVersion, "ros") && parse(serverVersion).Err? ==> r == Err(parse(serverVersion).error)
    ensures !Contains(serverVersion, "ros") && parse(serverVersion).Ok? ==>
      (r == Ok(true) <==> exists i | 0 <= i < |versions| :: FirstHit(parse(serverVersion).value, versions, parse, i))
    // no hit: false when every pattern converts, otherwise the first conversion error
    ensures !Contains(serverVersion, "ros") && parse(serverVersion).Ok? ==>
      (r == Ok(false) <==> forall j | 0 <= j < |versions| :: Miss(parse(serverVersion).value, versions[j], parse))
    ensures !Contains(serverVersion, "ros") && parse(serverVersion).Ok? ==>
      (r.Err? <==> exists i | 0 <= i < |versions| :: FirstBad(parse(serverVersion).value, versions, parse, i))
    ensures !Contains(serverVersion, "ros") && parse(serverVersion).Ok? && r.Err? ==>
      exists i | 0 <= i < |versions| ::
        FirstBad(parse(serverVersion).value, versions, parse, i) && r.error == ConvertToSemver(versions[i], parse).error
  {
    if Contains(serverVersion, "ros") then Ok(true)
    else
      match parse(serverVersion)
      case Err(e) => Err(e)
      case Ok(engine) =>
        ScanFindsFirstHit(engine, versions, parse);
        ScanAllMiss(engine, versions, parse);
        ScanStopsAtBad(engine, versions, parse);
        Scan(engine, versions, parse)
  }

  /** The gate: a failing info call or an undecidable version is an error;
      an unsupported version is not (it is only warned about), so the
      answer is whether the version is supported. */
  function CheckEngineVersion(daemon: Daemon, parse: string -> Result<Semver>): (r: Result<bool>)
    ensures daemon.info.Err? ==> r == Err("can not retrieve engine info: " + daemon.info.error)
    ensures daemon.info.Ok? && IsSupportVersion(daemon.info.value, EngineSupportVersion, parse).Err? ==>
      r == Err("error while determining supported engine version [" + daemon.info.value + "]: " +
               IsSupportVersion(daemon.info.value, EngineSupportVersion, parse).error)
    ensures r.Ok? <==> daemon.info.Ok? && IsSupportVersion(daemon.info.value, EngineSupportVersion, parse).Ok?
    ensures r.Ok? ==> r == IsSupportVersion(daemon.info.value, EngineSupportVersion, parse)
  {
    match daemon.info
    case Err(e) => Err("can not retrieve engine info: " + e)
    case Ok(serverVersion) =>
      match IsSupportVersion(serverVersion, EngineSupportVersion, parse)
      case Err(e) => Err("error while determining supported engine version [" + serverVersion + "]: " + e)
      case Ok(valid) => Ok(valid)
  }

  /** A client for a non-empty host that the library accepts and whose
      engine passes the gate, pinned to the package's API version. */
  function NewClient(host: string, daemon: Daemon, parse: string -> Result<Semver>): (r: Result<EngineClient>)
    ensures host == "" ==> r == Err("engine client host param is empty")
    ensures r.Ok? <==> host != "" && daemon.connect(host).None? && CheckEngineVersion(daemon, parse).Ok?
    ensures r.Ok? ==> r.value == EngineClient(host, EngineAPIVersion)
    ensures host != "" && daemon.connect(host).Some? ==> r == Err(daemon.connect(host).value)
  {
    if host == "" then Err("engine client host param is empty")
    else
      match daemon.connect(host)
      case Some(e) => Err(e)
      case None =>
        match CheckEngineVersion(daemon, parse)
        case Err(e) => Err(e)
        case Ok(_) => Ok(EngineClient(host, EngineAPIVersion))
  }

  /** Conversion keeps the first two components and replaces whatever
      follows the second dot by "0". */
  lemma {:induction false} ZeroPatchReplacesThird(a: string, b: string, c: string)
    requires '.' !in a && '.' !in b
    ensures ZeroPatch(a + "." + b + "." + c) == Some(a + "." + b + "." + "0")
  {
    SplitNThreeOf(a, b, c, '.');
    JoinThree(a, b);
  }

  /** "17.03.x" is converted through "17.03.0". */
  lemma {:induction false} PatchZeroedExample()
    ensures ZeroPatch("17.03.x") == Some("17.03.0")
  {
    ZeroPatchReplacesThird("17", "03", "x");
    SeventeenOhThree();
  }

  lemma {:induction false} SeventeenOhThree()
    ensures "17" + "." + "03" + "." + "0" == "17.03.0"
    ensures "17" + "." + "03" + "." + "x" == "17.03.x"
  {
    var s := "17" + "." + "03" + "." + "0";
    assert |s| == 7;
    assert s[0] == '1' && s[1] == '7' && s[2] == '.' && s[3] == '0' && s[4] == '3' && s[5] == '.' && s[6] == '0';
    var t := "17" + "." + "03" + "." + "x";
    assert |t| == 7;
    assert t[0] == '1' && t[1] == '7' && t[2] == '.' && t[3] == '0' && t[4] == '3' && t[5] == '.' && t[6] == 'x';
  }

  /** Every supported pattern has two dots, so none of them makes the
      scan fail before the parser is reached. */
  lemma {:induction false} SupportedPatternsConvert()
    ensures forall k | 0 <= k < |EngineSupportVersion| :: ZeroPatch(EngineSupportVersion[k]).Some?
  {
    forall k | 0 <= k < |EngineSupportVersion| ensures ZeroPatch(EngineSupportVersion[k]).Some? {
      var v := EngineSupportVersion[k];
      if k < 3 {
        assert v[1] == '.' && v[4] == '.';
      } else {
        assert v[2] == '.' && v[5] == '.';
      }
    }
  }

  /** A RancherOS engine passes the gate whatever its version string says,
      even one the parser rejects. */
  lemma {:induction false} RosAlwaysSupported(host: string, daemon: Daemon, parse: string -> Result<Semver>)
    requires host != "" && daemon.connect(host).None?
    requires daemon.info == Ok("17.03.2-ros1")
    ensures NewClient(host, daemon, parse) == Ok(EngineClient(host, EngineAPIVersion))
  {
    assert OccursAt("17.03.2-ros1", "ros", 8);
  }

  /** An engine of a version outside the list still yields a client:
      unsupported is a warning, not an error. */
  lemma {:induction false} UnsupportedStillConnects(host: string, daemon: Daemon, parse: string -> Result<Semver>)
    requires host != "" && daemon.connect(host).None? && daemon.info.Ok?
    requires IsSupportVersion(daemon.info.value, EngineSupportVersion, parse) == Ok(false)
    ensures NewClient(host, daemon, parse).Ok?
  {
  }
}

=== FILE: common.dfy ===
/** The fixed locations and names of cmd/common.go. `RKEConfigDefault` is
    declared twice in the program with different values (cmd/common.go and
    cmd/rke.go), so the roster commands take the base path as a parameter
    and both values are kept here. */
module Common {
  const APIServerKubeConfig := "/var/lib/rancher/cube/kube-config.yml"
  const APIServerImage := "cnrancher/cube-apiserver"
  const APIServerContainerName := "cube-apiserver"
  const APIServerPortDefault := "9600"
  const RKEConfigDefault := "/var/lib/rancher/cube/rke_base.yml"
  const RKEConfigDefaultRke := "/var/lib/rancher/cube/rke_config.yml"
  const NodeConfigDefault := "/var/lib/rancher/cube/node_config.yml"
  const SSHKeyPathDefault := "/home/rancher/.ssh/id_rsa"
}

=== FILE: decimal.dfy ===
/** `strconv.Itoa` on the non-negative values the program renders (the
    16-bit port numbers of a container record), with its inverse. */
module Decimal {

  predicate IsDigit(c: char) {
    '0' <= c <= '9'
  }

  function DigitChar(d: nat): (c: char)
    requires d < 10
    ensures IsDigit(c)
  {
    ('0' as int + d) as char
  }

  function DigitValue(c: char): (d: nat)
    requires IsDigit(c)
    ensures d < 10
  {
    (c as int - '0' as int) as nat
  }

  /** Decimal rendering without sign or leading zeros. */
  function Itoa(n: nat): (s: string)
    ensures |s| >= 1
    ensures forall k | 0 <= k < |s| :: IsDigit(s[k])
    ensures |s| > 1 ==> s[0] != '0'
    decreases n
  {
    if n < 10 then [DigitChar(n)] else Itoa(n / 10) + [DigitChar(n % 10)]
  }

  /** Reads a string of digits back as a number. */
  function Atoi(s: string): nat
    requires forall k | 0 <= k < |s| :: IsDigit(s[k])
  {
    if |s| == 0 then 0 else Atoi(s[..|s| - 1]) * 10 + DigitValue(s[|s| - 1])
  }

  /** Reading back a rendered number gives the number: the rendering is
      injective, so distinct ports print differently. */
  lemma {:induction false} AtoiItoa(n: nat)
    ensures Atoi(Itoa(n)) == n
    decreases n
  {
    var s := Itoa(n);
    if n >= 10 {
      AtoiItoa(n / 10);
      assert s[..|s| - 1] == Itoa(n / 10);
    }
  }
}

=== FILE: engine.dfy ===
/** The container engine as the docker package sees it: the constants of
    docker/common.go, the records the engine reports, the calls the package
    issues, and an abstract engine state those calls change. */
module Engine {
  import opened Results
  import opened Strings

  const EngineAPIVersion := "1.24"
  const EngineRegistryURL := "docker.io"
  const EngineDefaultSock := "unix:///var/run/docker.sock"
  const EngineSupportVersion: seq<string> := ["1.11.x", "1.12.x", "1.13.x", "17.03.x", "17.12.x", "18.03.x"]
  /** Ten seconds, the wait of every stop and restart. */
  const ContainerDefaultTimeout := 10
  const SystemDockerSock := "unix:///var/run/system-docker.sock"

  /** Credentials for one registry, keyed by registry domain in a map. */
  datatype PrivateRegistry = PrivateRegistry(url: string, user: string, password: string)

  newtype uint16 = x: int | 0 <= x < 0x1_0000

  /** A published port of a container record. */
  datatype Port = Port(ip: string, privatePort: uint16, publicPort: uint16, portType: string)

  datatype RunState = Created | Running | Exited

  /** A container record as the engine lists it. `state` is what start,
      stop and restart change; `status` is the engine's display text. */
  datatype Container = Container(
    id: string, names: seq<string>, image: string, command: string,
    created: int, status: string, ports: seq<Port>, state: RunState)

  /** The zero record, returned by a status lookup that finds nothing. */
  const EmptyContainer := Container("", [], "", "", 0, "", [], Created)

  datatype MountType = TypeBind | TypeVolume | TypeTmpfs
  datatype Mount = Mount(mountType: MountType, source: string, target: string)
  datatype PortBinding = PortBinding(hostIP: string, hostPort: string)

  /** What a new container runs: image, command, and exposed ports
      ("9600/tcp"-style keys). */
  datatype ContainerConfig = ContainerConfig(image: string, cmd: seq<string>, exposedPorts: set<string>)
  datatype HostConfig = HostConfig(mounts: seq<Mount>, portBindings: map<string, seq<PortBinding>>)
  datatype NetworkingConfig = NetworkingConfig(networks: seq<string>)

  /** Pull options: the static `RegistryAuth` token, and the registry whose
      credentials the `PrivilegeFunc` callback re-derives, when one is set. */
  datatype PullOptions = PullOptions(registryAuth: string, privilegeFrom: Option<PrivateRegistry>)

  /** The engine calls the package issues. */
  datatype Call =
    | ContainerList(all: bool)
    | ImageInspect(ref: string)
    | ImagePull(ref: string, options: PullOptions)
    | ContainerCreate(config: ContainerConfig, hostConfig: HostConfig,
                      networking: Option<NetworkingConfig>, name: string)
    | ContainerStart(id: string)
    | ContainerRestart(id: string, timeout: int)
    | ContainerStop(id: string, timeout: int)
    | ContainerRemove(id: string, force: bool)

  /** The engine's containers (in list order) and its local images. */
  datatype State = State(containers: seq<Container>, images: set<string>)

  /** Everything outside the model: which engine calls fail and with what
      error, the id the engine gives a new container and the clock it
      stamps it with, `os.Hostname`, reference parsing down to the
      registry domain, and the JSON encoding of registry credentials. */
  datatype Env = Env(
    fail: Call -> Option<string>,
    newId: string,
    now: int,
    hostname: Result<string>,
    domainOf: string -> Result<string>,
    marshalAuth: (string, string) -> Result<seq<byte>>)

  /** The engine's ids are unique and never empty. */
  predicate WellFormed(st: State) {
    && (forall k | 0 <= k < |st.containers| :: st.containers[k].id != "")
    && (forall j, k | 0 <= j < k < |st.containers| :: st.containers[j].id != st.containers[k].id)
  }

  /** Every container with the id moved to run state `s`; nothing else
      changes. */
  function SetState(cs: seq<Container>, id: string, s: RunState): (r: seq<Container>)
    ensures |r| == |cs|
    ensures forall k | 0 <= k < |cs| :: r[k] == (if cs[k].id == id then cs[k].(state := s) else cs[k])
  {
    seq(|cs|, k requires 0 <= k < |cs| => if cs[k].id == id then cs[k].(state := s) else cs[k])
  }

  /** The containers without those carrying the id. */
  function Without(cs: seq<Container>, id: string): (r: seq<Container>)
    ensures forall k | 0 <= k < |r| :: r[k].id != id
    ensures |r| <= |cs|
    ensures (forall k | 0 <= k < |cs| :: cs[k].id != id) ==> r == cs
  {
    if |cs| == 0 then []
    else if cs[0].id == id then Without(cs[1..], id)
    else
      var rest := Without(cs[1..], id);
      assert forall k | 1 <= k < |cs| :: cs[k] == cs[1..][k - 1];
      [cs[0]] + rest
  }

  /** Every container with another id survives the removal, and no
      container is made up. */
  lemma {:induction false} WithoutKeepsOthers(cs: seq<Container>, id: string)
    ensures forall k | 0 <= k < |cs| && cs[k].id != id :: cs[k] in Without(cs, id)
    ensures forall k | 0 <= k < |Without(cs, id)| :: Without(cs, id)[k] in cs
    decreases |cs|
  {
    if |cs| > 0 {
      var tail := cs[1..];
      WithoutKeepsOthers(tail, id);
      forall k | 1 <= k < |cs| && cs[k].id != id ensures cs[k] in Without(cs, id) {
        assert cs[k] == tail[k - 1];
      }
      forall k | 0 <= k < |Without(tail, id)| ensures Without(tail, id)[k] in cs {
        assert Without(tail, id)[k] in tail;
      }
    }
  }

  /** With ids unique, removing the id of the container at `i` drops
      exactly that container and keeps the others in order. */
  lemma {:induction false} WithoutUnique(cs: seq<Container>, id: string, i: nat)
    requires i < |cs| && cs[i].id == id
    requires forall k | 0 <= k < |cs| && k != i :: cs[k].id != id
    ensures Without(cs, id) == cs[..i] + cs[i + 1..]
    decreases |cs|
  {
    if i == 0 {
      WithoutNone(cs[1..], id, cs);
      assert cs[..i] + cs[i + 1..] == cs[1..];
    } else {
      var tail := cs[1..];
      assert forall k | 0 <= k < |tail| && k != i - 1 :: tail[k].id != id by {
        forall k | 0 <= k < |tail| && k != i - 1 ensures tail[k].id != id { assert tail[k] == cs[k + 1]; }
      }
      WithoutUnique(tail, id, i - 1);
      SpliceBehindHead(cs, i);
    }
  }

  /** A suffix of `cs` free of the id is left alone. */
  lemma {:induction false} WithoutNone(tail: seq<Container>, id: string, cs: seq<Container>)
    requires |cs| >= 1 && tail == cs[1..]
    requires forall k | 1 <= k < |cs| :: cs[k].id != id
    ensures Without(tail, id) == tail
  {
    assert forall k | 0 <= k < |tail| :: tail[k] == cs[k + 1];
  }

  /** Splicing out index `i` >= 1 keeps the head in front. */
  lemma {:induction false} SpliceBehindHead(cs: seq<Container>, i: nat)
    requires 1 <= i < |cs|
    ensures cs[..i] + cs[i + 1..] == [cs[0]] + (cs[1..][..i - 1] + cs[1..][i..])
  {
    assert cs[..i] == [cs[0]] + cs[1..][..i - 1];
    assert cs[i + 1..] == cs[1..][i..];
  }

  /** The record a successful create adds: listed under "/" + name. */
  function NewContainer(env: Env, config: ContainerConfig, name: string): Container {
    Container(env.newId, ["/" + name], config.image, Join(config.cmd, " "), env.now, "Created", [], Created)
  }

  /** What a call that succeeds does to the engine. */
  function Apply(st: State, env: Env, call: Call): State {
    match call
    case ContainerList(_) => st
    case ImageInspect(_) => st
    case ImagePull(ref, _) => st.(images := st.images + {ref})
    case ContainerCreate(config, _, _, name) => st.(containers := st.containers + [NewContainer(env, config, name)])
    case ContainerStart(id) => st.(containers := SetState(st.containers, id, Running))
    case ContainerRestart(id, _) => st.(containers := SetState(st.containers, id, Running))
    case ContainerStop(id, _) => st.(containers := SetState(st.containers, id, Exited))
    case ContainerRemove(id, _) => st.(containers := Without(st.containers, id))
  }

  /** A finished engine operation: the engine afterwards, the calls issued
      in order, and what the operation returned. */
  datatype Effect<T> = Effect(state: State, calls: seq<Call>, result: Result<T>)
}

=== FILE: lifecycle.dfy ===
/** The name-addressed container operations of the docker package:
    create-or-restart (docker/create.go), stop (docker/stop.go), remove
    (docker/remove.go) and status (docker/status.go). Each lists every
    container first and acts on the first one whose name matches. */
module Lifecycle {
  import opened Results
  import opened Engine
  import opened Lookup
  import Pull

  /** Some container with the id is running. */
  predicate RunningId(st: State, id: string) {
    exists k | 0 <= k < |st.containers| :: st.containers[k].id == id && st.containers[k].state == Running
  }

  /** A container with the id exists. */
  predicate HasId(st: State, id: string) {
    exists k | 0 <= k < |st.containers| :: st.containers[k].id == id
  }

  /** Restart of the container already there. */
  function Restart(st: State, env: Env, id: string): (r: Effect<()>)
    ensures r.calls == [ContainerRestart(id, ContainerDefaultTimeout)]
    ensures r.result.Ok? <==> env.fail(r.calls[0]).None?
    ensures r.result.Err? ==> r.state == st
    ensures r.result.Ok? && HasId(st, id) ==> RunningId(r.state, id)
    ensures r.state.images == st.images && |r.state.containers| == |st.containers|
    // only the target's run state can change
    ensures forall k | 0 <= k < |st.containers| ::
      r.state.containers[k] == (if st.containers[k].id == id && r.result.Ok?
                                then st.containers[k].(state := Running) else st.containers[k])
  {
    var restart := ContainerRestart(id, ContainerDefaultTimeout);
    match env.fail(restart)
    case Some(e) => Effect(st, [restart], Err(e))
    case None =>
      var st' := Apply(st, env, restart);
      if HasId(st, id) then
        var k :| 0 <= k < |st.containers| && st.containers[k].id == id;
        assert st'.containers[k].id == id && st'.containers[k].state == Running;
        Effect(st', [restart], Ok(()))
      else Effect(st', [restart], Ok(()))
  }

  /** Creation path: resolve the image with an empty credentials map,
      create the container under the name, start it. A container that was
      created but fails to start is left in place. */
  function Provision(st: State, env: Env, config: ContainerConfig, hostConfig: HostConfig,
                     networking: Option<NetworkingConfig>, name: string, hostname: string): (r: Effect<()>)
    ensures ProvisionOutcome(st, env, config, hostConfig, networking, name,
                             Pull.UseLocalOrPull(st, env, hostname, config.image, map[]), r)
  {
    var image := Pull.UseLocalOrPull(st, env, hostname, config.image, map[]);
    Pull.EmptyMapPullsAnonymously(st, env, hostname, config.image);
    var r := if image.result.Err? then image
             else CreateAfter(image, env, ContainerCreate(config, hostConfig, networking, name));
    ProvisionFacts(st, env, config, hostConfig, networking, name, image, r);
    r
  }

  /** What the creation path promises, given the outcome `image` of the
      image resolution and the path's result `r`. */
  predicate ProvisionOutcome(st: State, env: Env, config: ContainerConfig, hostConfig: HostConfig,
                             networking: Option<NetworkingConfig>, name: string, image: Effect<()>, r: Effect<()>) {
    var create := ContainerCreate(config, hostConfig, networking, name);
    // the inspect comes first; pulls are anonymous; the create and then the start of the new id come last
    && 1 <= |r.calls| && r.calls[0] == ImageInspect(config.image)
    && (forall k | 0 <= k < |r.calls| && r.calls[k].ImagePull? :: r.calls[k].options == PullOptions("", None))
    && (forall k | 0 <= k < |r.calls| && r.calls[k].ContainerCreate? :: r.calls[k] == create && |r.calls| - 2 <= k)
    && (forall k | 0 <= k < |r.calls| && r.calls[k].ContainerStart? ::
          r.calls[k] == ContainerStart(env.newId) && k == |r.calls| - 1 && 0 < k && r.calls[k - 1] == create)
    && (r.result.Ok? ==> config.image in r.state.images && RunningId(r.state, env.newId))
    && (create in r.calls && env.fail(create).None? ==> HasId(r.state, env.newId))
    // existing containers stay where they are
    && |st.containers| <= |r.state.containers|
    && (forall k | 0 <= k < |st.containers| :: st.containers[k].id == r.state.containers[k].id)
    // a failed resolution is the answer; a resolved image is created under the name
    && (image.result.Err? ==> r == image)
    && (image.result.Ok? ==> create in r.calls)
    // a failing create is returned at once, with nothing started
    && (image.result.Ok? && env.fail(create).Some? ==>
          r == Effect(image.state, image.calls + [create], Err(env.fail(create).value)))
    // after a create comes the start, and the result is Ok exactly when the start succeeds
    && (image.result.Ok? && env.fail(create).None? ==>
          && r.calls == image.calls + [create, ContainerStart(env.newId)]
          && (r.result.Ok? <==> env.fail(ContainerStart(env.newId)).None?))
  }

  /** Provision's promises, stated of its result in terms of the
      resolution's outcome. */
  lemma {:induction false} ProvisionFacts(st: State, env: Env, config: ContainerConfig, hostConfig: HostConfig,
                                         networking: Option<NetworkingConfig>, name: string, image: Effect<()>, r: Effect<()>)
    requires 1 <= |image.calls| <= 2 && image.calls[0] == ImageInspect(config.image)
    requires |image.calls| == 2 ==> image.calls[1].ImagePull?
    requires forall k | 0 <= k < |image.calls| && image.calls[k].ImagePull? :: image.calls[k].options == PullOptions("", None)
    requires image.result.Ok? ==> config.image in image.state.images
    requires image.state.containers == st.containers
    requires r == if image.result.Err? then image
                  else CreateAfter(image, env, ContainerCreate(config, hostConfig, networking, name))
    ensures ProvisionOutcome(st, env, config, hostConfig, networking, name, image, r)
  {
    if image.result.Err? {
      ResolveOnly(image.calls);
    }
  }

  /** What follows a successful resolution: the create, then the start,
      behind the resolution's own calls. */
  function CreateAfter(image: Effect<()>, env: Env, create: Call): (r: Effect<()>)
    requires create.ContainerCreate? && image.result.Ok?
    requires 1 <= |image.calls| <= 2 && image.calls[0].ImageInspect?
    requires |image.calls| == 2 ==> image.calls[1].ImagePull?
    requires forall k | 0 <= k < |image.calls| && image.calls[k].ImagePull? :: image.calls[k].options == PullOptions("", None)
    ensures && 1 <= |r.calls| && r.calls[0] == image.calls[0] && create in r.calls
      && (forall k | 0 <= k < |r.calls| && r.calls[k].ImagePull? :: r.calls[k].options == PullOptions("", None))
      && (forall k | 0 <= k < |r.calls| && r.calls[k].ContainerCreate? :: r.calls[k] == create && |r.calls| - 2 <= k)
      && (forall k | 0 <= k < |r.calls| && r.calls[k].ContainerStart? ::
            r.calls[k] == ContainerStart(env.newId) && k == |r.calls| - 1 && 0 < k && r.calls[k - 1] == create)
    ensures env.fail(create).Some? ==> r == Effect(image.state, image.calls + [create], Err(env.fail(create).value))
    ensures env.fail(create).None? ==>
      && r.calls == image.calls + [create, ContainerStart(env.newId)]
      && HasId(r.state, env.newId)
      && (r.result.Ok? <==> env.fail(ContainerStart(env.newId)).None?)
    ensures r.result.Ok? ==> RunningId(r.state, env.newId)
    ensures r.state.images == image.state.images
    ensures |image.state.containers| <= |r.state.containers|
    ensures forall k | 0 <= k < |image.state.containers| :: image.state.containers[k].id == r.state.containers[k].id
  {
    var c := CreateAndStart(image.state, env, create);
    ResolveThenCreate(image.calls, c.calls, create, ContainerStart(env.newId));
    Effect(c.state, image.calls + c.calls, c.result)
  }

  /** The calls of a resolution alone: an inspect, then at most a pull,
      and neither a create nor a start. */
  lemma {:induction false} ResolveOnly(pre: seq<Call>)
    requires 1 <= |pre| <= 2 && pre[0].ImageInspect?
    requires |pre| == 2 ==> pre[1].ImagePull?
    ensures forall k | 0 <= k < |pre| :: !pre[k].ContainerCreate? && !pre[k].ContainerStart?
  {
  }

  /** The calls of a resolution (an inspect, then at most an anonymous
      pull) followed by a create and possibly a start: the create and the
      start are the last calls, in that order. */
  lemma {:induction false} ResolveThenCreate(pre: seq<Call>, post: seq<Call>, create: Call, start: Call)
    requires create.ContainerCreate? && start.ContainerStart?
    requires 1 <= |pre| <= 2 && pre[0].ImageInspect?
    requires forall k | 0 <= k < |pre| && pre[k].ImagePull? :: pre[k].options == PullOptions("", None)
    requires |pre| == 2 ==> pre[1].ImagePull?
    requires post == [create] || post == [create, start]
    ensures var calls := pre + post;
      && 1 <= |calls| && calls[0] == pre[0] && create in calls
      && (forall k | 0 <= k < |calls| && calls[k].ImagePull? :: calls[k].options == PullOptions("", None))
      && (forall k | 0 <= k < |calls| && calls[k].ContainerCreate? :: calls[k] == create && |calls| - 2 <= k)
      && (forall k | 0 <= k < |calls| && calls[k].ContainerStart? ::
            calls[k] == start && k == |calls| - 1 && 0 < k && calls[k - 1] == create)
  {
    var calls := pre + post;
    assert calls[|pre|] == create;
    assert forall k | |pre| <= k < |calls| :: calls[k] == post[k - |pre|];
  }

  /** Create the container, then start the id the engine gave it. */
  function CreateAndStart(st: State, env: Env, create: Call): (r: Effect<()>)
    requires create.ContainerCreate?
    ensures env.fail(create).Some? ==> r == Effect(st, [create], Err(env.fail(create).value))
    ensures env.fail(create).None? ==>
      && r.calls == [create, ContainerStart(env.newId)]
      && HasId(r.state, env.newId)
      && (r.result.Ok? <==> env.fail(ContainerStart(env.newId)).None?)
    ensures r.result.Ok? ==> RunningId(r.state, env.newId)
    ensures r.state.images == st.images
    ensures |st.containers| <= |r.state.containers|
    ensures forall k | 0 <= k < |st.containers| :: st.containers[k].id == r.state.containers[k].id
  {
    match env.fail(create)
    case Some(e) => Effect(st, [create], Err(e))
    case None =>
      var created := Apply(st, env, create);
      var n := |created.containers| - 1;
      assert created.containers[n].id == env.newId;
      var start := ContainerStart(env.newId);
      match env.fail(start)
      case Some(e) => Effect(created, [create, start], Err(e))
      case None =>
        var started := Apply(created, env, start);
        assert started.containers[n].id == env.newId && started.containers[n].state == Running;
        Effect(started, [create, start], Ok(()))
  }

  /** Create-or-restart: a container whose name shares a character with
      `containerName` is restarted and nothing is pulled or created;
      otherwise the image is resolved and a new container is created under
      the name and started. On success the container acted on runs. */
  function CreateOrRestart(st: State, env: Env, config: ContainerConfig, hostConfig: HostConfig,
                           networking: Option<NetworkingConfig>, containerName: string): (r: Effect<()>)
    ensures 1 <= |r.calls| && r.calls[0] == ContainerList(true)
    ensures env.fail(ContainerList(true)).Some? ==>
      r == Effect(st, [ContainerList(true)], Err(env.fail(ContainerList(true)).value))
    ensures env.fail(ContainerList(true)).None? && TargetId(st.containers, containerName).Some? ==>
      r.calls == [ContainerList(true), ContainerRestart(TargetId(st.containers, containerName).value, ContainerDefaultTimeout)]
    // a found container's restart decides the result
    ensures env.fail(ContainerList(true)).None? && TargetId(st.containers, containerName).Some? ==>
      var restart := Restart(st, env, TargetId(st.containers, containerName).value);
      r == Effect(restart.state, [ContainerList(true)] + restart.calls, restart.result)
    ensures (env.fail(ContainerList(true)).None? && TargetId(st.containers, containerName).None? && env.hostname.Err?) ==>
      r == Effect(st, [ContainerList(true)], Err(env.hostname.error))
    // nothing found: the list is followed by the creation path
    ensures (env.fail(ContainerList(true)).None? && TargetId(st.containers, containerName).None? && env.hostname.Ok?) ==>
      var p := Provision(st, env, config, hostConfig, networking, containerName, env.hostname.value);
      r == Effect(p.state, [ContainerList(true)] + p.calls, p.result)
    ensures forall k | 0 <= k < |r.calls| && r.calls[k].ContainerCreate? ::
      TargetId(st.containers, containerName).None? &&
      r.calls[k] == ContainerCreate(config, hostConfig, networking, containerName)
    ensures forall k | 0 <= k < |r.calls| && r.calls[k].ImagePull? ::
      r.calls[k].options == PullOptions("", None)
    ensures r.result.Ok? ==>
      RunningId(r.state, if TargetId(st.containers, containerName).Some? then TargetId(st.containers, containerName).value else env.newId)
  {
    var list := ContainerList(true);
    match env.fail(list)
    case Some(e) => Effect(st, [list], Err(e))
    case None =>
      match TargetId(st.containers, containerName)
      case Some(id) =>
        var i := FirstMatch(st.containers, containerName, SharedChar).value;
        assert HasId(st, id) by { assert st.containers[i].id == id; }
        var r := Restart(st, env, id);
        ListThenCalls(r.calls, ContainerCreate(config, hostConfig, networking, containerName), false);
        Effect(r.state, [list] + r.calls, r.result)
      case None =>
        match env.hostname
        case Err(e) => Effect(st, [list], Err(e))
        case Ok(hostname) =>
          var p := Provision(st, env, config, hostConfig, networking, containerName, hostname);
          ListThenCalls(p.calls, ContainerCreate(config, hostConfig, networking, containerName), true);
          Effect(p.state, [list] + p.calls, p.result)
  }

  /** The list call in front of an operation's calls adds no create and
      no pull: what holds of the creates and pulls of the calls holds of
      the whole sequence. */
  lemma {:induction false} ListThenCalls(calls: seq<Call>, create: Call, mayCreate: bool)
    requires forall k | 0 <= k < |calls| && calls[k].ContainerCreate? :: mayCreate && calls[k] == create
    requires forall k | 0 <= k < |calls| && calls[k].ImagePull? :: calls[k].options == PullOptions("", None)
    ensures var all := [ContainerList(true)] + calls;
      forall k | 0 <= k < |all| && all[k].ContainerCreate? :: mayCreate && all[k] == create
    ensures var all := [ContainerList(true)] + calls;
      forall k | 0 <= k < |all| && all[k].ImagePull? :: all[k].options == PullOptions("", None)
  {
    var all := [ContainerList(true)] + calls;
    assert forall k | 1 <= k < |all| :: all[k] == calls[k - 1];
  }

  /** Stop: the first container sharing a character with the name is
      stopped with the default timeout; no match is not an error. Only
      containers with that id change. */
  function StopContainer(st: State, env: Env, containerName: string): (r: Effect<()>)
    ensures 1 <= |r.calls| && r.calls[0] == ContainerList(true)
    ensures env.fail(ContainerList(true)).Some? ==>
      r == Effect(st, [ContainerList(true)], Err(env.fail(ContainerList(true)).value))
    ensures env.fail(ContainerList(true)).None? && TargetId(st.containers, containerName).None? ==>
      r == Effect(st, [ContainerList(true)], Ok(()))
    ensures env.fail(ContainerList(true)).None? && TargetId(st.containers, containerName).Some? ==>
      var id := TargetId(st.containers, containerName).value;
      && r.calls == [ContainerList(true), ContainerStop(id, ContainerDefaultTimeout)]
      && (r.result.Ok? <==> env.fail(r.calls[1]).None?)
      && (r.result.Ok? ==> !RunningId(r.state, id))
    ensures r.result.Err? ==> r.state == st
    ensures r.state.images == st.images && |r.state.containers| == |st.containers|
    ensures forall k | 0 <= k < |st.containers| ::
      r.state.containers[k] == st.containers[k] ||
      (TargetId(st.containers, containerName) == Some(st.containers[k].id) &&
       r.state.containers[k] == st.containers[k].(state := Exited))
  {
    var list := ContainerList(true);
    match env.fail(list)
    case Some(e) => Effect(st, [list], Err(e))
    case None =>
      match TargetId(st.containers, containerName)
      case None => Effect(st, [list], Ok(()))
      case Some(id) =>
        var stop := ContainerStop(id, ContainerDefaultTimeout);
        match env.fail(stop)
        case Some(e) => Effect(st, [list, stop], Err(e))
        case None => Effect(Apply(st, env, stop), [list, stop], Ok(()))
  }

  /** Remove: the first container sharing a character with the name is
      force-removed; no match is not an error. Exactly the containers with
      that id disappear; the rest stay, in order. */
  function RemoveContainer(st: State, env: Env, containerName: string): (r: Effect<()>)
    ensures 1 <= |r.calls| && r.calls[0] == ContainerList(true)
    ensures env.fail(ContainerList(true)).Some? ==>
      r == Effect(st, [ContainerList(true)], Err(env.fail(ContainerList(true)).value))
    ensures env.fail(ContainerList(true)).None? && TargetId(st.containers, containerName).None? ==>
      r == Effect(st, [ContainerList(true)], Ok(()))
    ensures env.fail(ContainerList(true)).None? && TargetId(st.containers, containerName).Some? ==>
      var id := TargetId(st.containers, containerName).value;
      && r.calls == [ContainerList(true), ContainerRemove(id, true)]
      && (r.result.Ok? <==> env.fail(r.calls[1]).None?)
      && (r.result.Ok? ==> !HasId(r.state, id))
      && (r.result.Ok? ==>
            forall k | 0 <= k < |st.containers| && st.containers[k].id != id :: st.containers[k] in r.state.containers)
    ensures r.result.Err? ==> r.state == st
    ensures r.state.images == st.images
    ensures forall k | 0 <= k < |r.state.containers| :: r.state.containers[k] in st.containers
  {
    var list := ContainerList(true);
    match env.fail(list)
    case Some(e) => Effect(st, [list], Err(e))
    case None =>
      match TargetId(st.containers, containerName)
      case None => Effect(st, [list], Ok(()))
      case Some(id) =>
        var remove := ContainerRemove(id, true);
        match env.fail(remove)
        case Some(e) => Effect(st, [list, remove], Err(e))
        case None =>
          WithoutKeepsOthers(st.containers, id);
          Effect(Apply(st, env, remove), [list, remove], Ok(()))
  }

  /** Status: the first container with the name as a substring of one of
      its names, or the zero record when none has; the engine is only
      read. */
  function StatusContainer(st: State, env: Env, containerName: string): (r: Effect<Container>)
    ensures r.state == st && r.calls == [ContainerList(true)]
    ensures env.fail(ContainerList(true)).Some? <==> r.result.Err?
    ensures r.result.Ok? && FirstMatch(st.containers, containerName, Substring).None? ==>
      r.result.value == EmptyContainer
    ensures r.result.Ok? && FirstMatch(st.containers, containerName, Substring).Some? ==>
      r.result.value in st.containers && Matches(r.result.value, containerName, Substring)
    ensures r.result.Ok? && r.result.value != EmptyContainer ==>
      exists k | 0 <= k < |st.containers| :: st.containers[k] == r.result.value &&
        Matches(st.containers[k], containerName, Substring) &&
        forall j | 0 <= j < k :: !Matches(st.containers[j], containerName, Substring)
  {
    var list := ContainerList(true);
    match env.fail(list)
    case Some(e) => Effect(st, [list], Err(e))
    case None =>
      match FirstMatch(st.containers, containerName, Substring)
      case None => Effect(st, [list], Ok(EmptyContainer))
      case Some(i) => Effect(st, [list], Ok(st.containers[i]))
  }
}

=== FILE: lifecycle_props.dfy ===
/** Properties relating several runs of the container operations. */
module LifecycleProps {
  import opened Results
  import opened Strings
  import opened Engine
  import opened Lookup
  import opened Lifecycle

  /** The new container's own name shares its first character with the
      name it was created under. */
  lemma {:induction false} NewContainerMatches(env: Env, config: ContainerConfig, name: string)
    requires name != ""
    ensures Matches(NewContainer(env, config, name), name, SharedChar)
  {
    var c := NewContainer(env, config, name);
    assert c.names[0][1] == name[0];
    assert ContainsAny(c.names[0], name);
  }

  /** When nothing matched before, the first match afterwards is the
      container appended last. */
  lemma {:induction false} FirstMatchOfAppended(cs: seq<Container>, c: Container, name: string)
    requires FirstMatch(cs, name, SharedChar).None?
    requires Matches(c, name, SharedChar)
    ensures FirstMatch(cs + [c], name, SharedChar) == Some(|cs|)
  {
    assert (cs + [c])[|cs|] == c;
    assert forall j | 0 <= j < |cs| :: (cs + [c])[j] == cs[j];
  }

  /** Create-or-restart is idempotent in what it does to the engine: once
      it has created and started a container under a non-empty name, the
      next run finds that container and only restarts it. */
  lemma {:induction false} CreateThenRestarts(st: State, env: Env, config: ContainerConfig, hostConfig: HostConfig,
                                              networking: Option<NetworkingConfig>, name: string)
    requires name != "" && env.newId != ""
    requires FirstMatch(st.containers, name, SharedChar).None?
    requires CreateOrRestart(st, env, config, hostConfig, networking, name).result.Ok?
    ensures var st' := CreateOrRestart(st, env, config, hostConfig, networking, name).state;
      CreateOrRestart(st', env, config, hostConfig, networking, name).calls ==
        [ContainerList(true), ContainerRestart(env.newId, ContainerDefaultTimeout)]
  {
    var hostname := env.hostname.value;
    var p := Provision(st, env, config, hostConfig, networking, name, hostname);
    var st' := CreateOrRestart(st, env, config, hostConfig, networking, name).state;
    assert st' == p.state && p.result.Ok?;
    ProvisionStarts(st, env, config, hostConfig, networking, name, hostname);
    StartedIsTarget(st, p.state, env, config, name);
  }

  /** A successful creation path adds the new container to the end of the
      engine's list, running, and changes no other name or id. */
  lemma {:induction false} ProvisionStarts(st: State, env: Env, config: ContainerConfig, hostConfig: HostConfig,
                        networking: Option<NetworkingConfig>, name: string, hostname: string)
    requires Provision(st, env, config, hostConfig, networking, name, hostname).result.Ok?
    ensures var after := Provision(st, env, config, hostConfig, networking, name, hostname).state;
      && |after.containers| == |st.containers| + 1
      && after.containers[|st.containers|] == NewContainer(env, config, name).(state := Running)
      && forall j | 0 <= j < |st.containers| ::
           after.containers[j].names == st.containers[j].names && after.containers[j].id == st.containers[j].id
  {
    var image := Pull.UseLocalOrPull(st, env, hostname, config.image, map[]);
    var create := ContainerCreate(config, hostConfig, networking, name);
    assert image.state.containers == st.containers;
    assert Provision(st, env, config, hostConfig, networking, name, hostname) == CreateAfter(image, env, create);
    assert CreateAfter(image, env, create).state == CreateAndStart(image.state, env, create).state;
    CreateAndStartAppends(image.state, env, create);
  }

  /** A create and start that both succeed add the new container, running,
      at the end, and keep the names and ids of the others. */
  lemma {:induction false} CreateAndStartAppends(st: State, env: Env, create: Call)
    requires create.ContainerCreate? && CreateAndStart(st, env, create).result.Ok?
    ensures var after := CreateAndStart(st, env, create).state;
      && |after.containers| == |st.containers| + 1
      && after.containers[|st.containers|] == NewContainer(env, create.config, create.name).(state := Running)
      && forall j | 0 <= j < |st.containers| ::
           after.containers[j].names == st.containers[j].names && after.containers[j].id == st.containers[j].id
  {
    var created := Apply(st, env, create);
    assert env.fail(create).None? && env.fail(ContainerStart(env.newId)).None?;
    assert CreateAndStart(st, env, create).state == Apply(created, env, ContainerStart(env.newId));
    assert created.containers == st.containers + [NewContainer(env, create.config, create.name)];
  }

  /** The container appended by a creation is what the next lookup finds. */
  lemma {:induction false} StartedIsTarget(st: State, after: State, env: Env, config: ContainerConfig, name: string)
    requires name != "" && env.newId != ""
    requires FirstMatch(st.containers, name, SharedChar).None?
    requires |after.containers| == |st.containers| + 1
    requires after.containers[|st.containers|] == NewContainer(env, config, name).(state := Running)
    requires forall j | 0 <= j < |st.containers| ::
      after.containers[j].names == st.containers[j].names && after.containers[j].id == st.containers[j].id
    ensures TargetId(after.containers, name) == Some(env.newId)
  {
    var c := NewContainer(env, config, name);
    NewContainerMatches(env, config, name);
    FirstMatchOfAppended(st.containers, c, name);
    assert forall j | 0 <= j < |st.containers| :: (st.containers + [c])[j] == st.containers[j];
    FirstMatchSameNames(st.containers + [c], after.containers, name);
  }

  /** The lookup reads only names: changing nothing else about the
      containers keeps its answer. */
  lemma {:induction false} FirstMatchSameNames(a: seq<Container>, b: seq<Container>, name: string)
    requires |a| == |b|
    requires forall k | 0 <= k < |a| :: a[k].names == b[k].names && a[k].id == b[k].id
    ensures FirstMatch(a, name, SharedChar) == FirstMatch(b, name, SharedChar)
    ensures TargetId(a, name) == TargetId(b, name)
    decreases |a|
  {
    if |a| > 0 {
      assert Matches(a[0], name, SharedChar) == Matches(b[0], name, SharedChar);
      FirstMatchSameNames(a[1..], b[1..], name);
    }
  }

  /** An empty name never finds a container to restart, so every run with
      it goes down the creation path. */
  lemma {:induction false} EmptyNameAlwaysCreates(st: State, env: Env, config: ContainerConfig, hostConfig: HostConfig,
                               networking: Option<NetworkingConfig>)
    requires env.fail(ContainerList(true)).None? && env.hostname.Ok?
    ensures var r := CreateOrRestart(st, env, config, hostConfig, networking, "");
      r.calls[1] == ImageInspect(config.image) &&
      forall k | 0 <= k < |r.calls| :: !r.calls[k].ContainerRestart?
  {
    EmptyNameNeverShares(st.containers);
  }

  /** Two running containers for the removal scenario below: "/nginx"
      shares an `i` with "cube-apiserver" and is listed first. */
  const Nginx := Container("a1", ["/nginx"], "nginx", "nginx", 0, "Up", [], Running)
  const Apiserver := Container("b2", ["/cube-apiserver"], "cnrancher/cube-apiserver", "serve", 0, "Up", [], Running)

  /** Remove is not idempotent and can hit the wrong container: asked to
      remove "cube-apiserver", it first removes "/nginx" (they share an
      `i`) and only on the second run the container actually so named. */
  lemma {:induction false} RemoveHitsUnrelatedContainer(env: Env)
    requires forall call :: env.fail(call).None?
    ensures var st := State([Nginx, Apiserver], {});
      var once := RemoveContainer(st, env, "cube-apiserver");
      var twice := RemoveContainer(once.state, env, "cube-apiserver");
      once.state.containers == [Apiserver] && twice.state.containers == []
  {
    NginxFoundFirst();
    ApiserverFoundNext();
    RemoveTwice(State([Nginx, Apiserver], {}), env, "cube-apiserver", Nginx, Apiserver);
  }

  lemma {:induction false} NginxFoundFirst()
    ensures TargetId([Nginx, Apiserver], "cube-apiserver") == Some("a1")
  {
    assert Nginx.names[0][3] == 'i';
    assert Matches(Nginx, "cube-apiserver", SharedChar);
  }

  lemma {:induction false} ApiserverFoundNext()
    ensures TargetId([Apiserver], "cube-apiserver") == Some("b2")
  {
    assert Apiserver.names[0][1] == 'c';
    assert Matches(Apiserver, "cube-apiserver", SharedChar);
  }

  /** Two removals without failures, where the lookup finds `a` first and
      then `b`, empty a two-container engine. */
  lemma {:induction false} RemoveTwice(st: State, env: Env, name: string, a: Container, b: Container)
    requires forall call :: env.fail(call).None?
    requires st.containers == [a, b] && a.id != b.id
    requires TargetId([a, b], name) == Some(a.id) && TargetId([b], name) == Some(b.id)
    ensures var once := RemoveContainer(st, env, name);
      once.state.containers == [b] && RemoveContainer(once.state, env, name).state.containers == []
  {
    assert env.fail(ContainerList(true)).None? && env.fail(ContainerRemove(a.id, true)).None?;
    RemovesWithout(st, env, name);
    assert Without([a, b], a.id) == [b] by {
      assert [a, b][1..] == [b];
    }
    var once := RemoveContainer(st, env, name);
    assert env.fail(ContainerRemove(b.id, true)).None?;
    RemovesWithout(once.state, env, name);
    assert Without([b], b.id) == [] by {
      assert [b][1..] == [];
    }
  }

  /** A successful removal takes out every container with the id the
      lookup found. */
  lemma {:induction false} RemovesWithout(st: State, env: Env, name: string)
    requires TargetId(st.containers, name).Some?
    requires RemoveContainer(st, env, name).result.Ok?
    ensures RemoveContainer(st, env, name).state.containers ==
      Without(st.containers, TargetId(st.containers, name).value)
  {
  }

  /** With unique ids, a stop changes at most one container. */
  lemma {:induction false} StopChangesAtMostOne(st: State, env: Env, name: string)
    requires WellFormed(st)
    ensures var r := StopContainer(st, env, name);
      forall j, k | 0 <= j < k < |st.containers| ::
        r.state.containers[j] == st.containers[j] || r.state.containers[k] == st.containers[k]
  {
  }

  /** With the engine's ids unique, a successful removal takes out exactly
      the container the lookup found and keeps the others in order. */
  lemma {:induction false} RemoveDropsTarget(st: State, env: Env, name: string)
    requires WellFormed(st)
    requires TargetId(st.containers, name).Some?
    requires RemoveContainer(st, env, name).result.Ok?
    ensures var i := FirstMatch(st.containers, name, SharedChar).value;
      RemoveContainer(st, env, name).state.containers == st.containers[..i] + st.containers[i + 1..]
    ensures |RemoveContainer(st, env, name).state.containers| == |st.containers| - 1
  {
    var i := FirstMatch(st.containers, name, SharedChar).value;
    var id := st.containers[i].id;
    assert RemoveContainer(st, env, name).state.containers == Without(st.containers, id) by {
      assert TargetId(st.containers, name) == Some(id);
      RemovesWithout(st, env, name);
    }
    assert Without(st.containers, id) == st.containers[..i] + st.containers[i + 1..] by {
      assert forall k | 0 <= k < |st.containers| && k != i :: st.containers[k].id != id;
      WithoutUnique(st.containers, id, i);
    }
  }

  /** Stopping again what a stop left behind changes nothing: the lookup
      finds the same container, and it has already exited. */
  lemma {:induction false} StopTwiceIsNoop(st: State, env: Env, name: string)
    requires StopContainer(st, env, name).result.Ok?
    ensures var st' := StopContainer(st, env, name).state;
      StopContainer(st', env, name).result.Ok? ==> StopContainer(st', env, name).state == st'
  {
    var st' := StopContainer(st, env, name).state;
    StopSetsExited(st, env, name);
    FirstMatchSameNames(st.containers, st'.containers, name);
    if StopContainer(st', env, name).result.Ok? {
      StopSetsExited(st', env, name);
      if TargetId(st.containers, name).Some? {
        SetStateTwice(st.containers, TargetId(st.containers, name).value, Exited);
      }
    }
  }

  /** A successful stop marks every container with the found id exited,
      and leaves the engine alone when nothing is found. */
  lemma {:induction false} StopSetsExited(st: State, env: Env, name: string)
    requires StopContainer(st, env, name).result.Ok?
    ensures StopContainer(st, env, name).state ==
      if TargetId(st.containers, name).Some?
      then st.(containers := SetState(st.containers, TargetId(st.containers, name).value, Exited))
      else st
  {
  }

  /** Setting the same state twice is setting it once. */
  lemma {:induction false} SetStateTwice(cs: seq<Container>, id: string, s: RunState)
    ensures SetState(SetState(cs, id, s), id, s) == SetState(cs, id, s)
  {
    var once := SetState(cs, id, s);
    var twice := SetState(once, id, s);
    forall k | 0 <= k < |cs| ensures twice[k] == once[k] {
    }
  }
}

=== FILE: lookup.dfy ===
/** The name lookup the container operations share: a scan of the engine's
    containers in list order, and of each container's names in order, for
    the first name that matches. Create, stop and remove match with
    `strings.ContainsAny` (some character in common); status matches with
    `strings.Contains` (substring). */
module Lookup {
  import opened Results
  import opened Strings
  import opened Engine

  datatype Rule = SharedChar | Substring

  predicate NameMatches(name: string, containerName: string, rule: Rule) {
    match rule
    case SharedChar => ContainsAny(name, containerName)
    case Substring => Contains(name, containerName)
  }

  predicate Matches(c: Container, containerName: string, rule: Rule) {
    exists k | 0 <= k < |c.names| :: NameMatches(c.names[k], containerName, rule)
  }

  /** The index of the first container with a matching name. */
  function FirstMatch(cs: seq<Container>, containerName: string, rule: Rule): (r: Option<nat>)
    ensures r.Some? ==> r.value < |cs| && Matches(cs[r.value], containerName, rule)
    ensures r.Some? ==> forall j | 0 <= j < r.value :: !Matches(cs[j], containerName, rule)
    ensures r.None? ==> forall j | 0 <= j < |cs| :: !Matches(cs[j], containerName, rule)
    decreases |cs|
  {
    if |cs| == 0 then None
    else if Matches(cs[0], containerName, rule) then Some(0)
    else
      match FirstMatch(cs[1..], containerName, rule)
      case None =>
        assert forall j | 1 <= j < |cs| :: cs[j] == cs[1..][j - 1];
        None
      case Some(i) =>
        assert forall j | 1 <= j <= i :: cs[j] == cs[1..][j - 1];
        Some(i + 1)
  }

  /** The id the create, stop and remove operations act on: that of the
      first container sharing a character with the name, when it has one. */
  function TargetId(cs: seq<Container>, containerName: string): (r: Option<string>)
    ensures FirstMatch(cs, containerName, SharedChar).None? ==> r.None?
    ensures r.Some? ==>
      var i := FirstMatch(cs, containerName, SharedChar);
      i.Some? && r.value == cs[i.value].id && r.value != ""
  {
    match FirstMatch(cs, containerName, SharedChar)
    case Some(i) => if cs[i].id != "" then Some(cs[i].id) else None
    case None => None
  }

  /** The target id in terms of the containers alone: none when no name
      shares a character with the requested one, otherwise the id of the
      first container with such a name, an empty id counting as not
      found. */
  lemma {:induction false} TargetIdIsFirstShared(cs: seq<Container>, containerName: string)
    ensures (forall k | 0 <= k < |cs| :: !Matches(cs[k], containerName, SharedChar)) ==>
      TargetId(cs, containerName).None?
    ensures forall k | 0 <= k < |cs| && Matches(cs[k], containerName, SharedChar) &&
                       (forall j | 0 <= j < k :: !Matches(cs[j], containerName, SharedChar)) ::
      TargetId(cs, containerName) == (if cs[k].id != "" then Some(cs[k].id) else None)
  {
    var first := FirstMatch(cs, containerName, SharedChar);
    forall k | 0 <= k < |cs| && Matches(cs[k], containerName, SharedChar) &&
               (forall j | 0 <= j < k :: !Matches(cs[j], containerName, SharedChar))
      ensures TargetId(cs, containerName) == (if cs[k].id != "" then Some(cs[k].id) else None)
    {
      assert first.Some?;
      assert !(k < first.value);
      assert !(first.value < k);
    }
  }

  /** An empty name shares no character with anything, so the
      shared-character lookup never finds a container for it. */
  lemma {:induction false} EmptyNameNeverShares(cs: seq<Container>)
    ensures FirstMatch(cs, "", SharedChar).None?
  {
    forall j, k | 0 <= j < |cs| && 0 <= k < |cs[j].names|
      ensures !NameMatches(cs[j].names[k], "", SharedChar)
    {
      ContainsAnySymmetric(cs[j].names[k], "");
    }
  }

  /** The empty string is a substring of every name, so the substring
      lookup for an empty name finds the first container with any name. */
  lemma {:induction false} EmptyNameSubstringFindsFirstNamed(cs: seq<Container>)
    ensures forall j | 0 <= j < |cs| :: Matches(cs[j], "", Substring) <==> |cs[j].names| > 0
  {
    forall j | 0 <= j < |cs| && |cs[j].names| > 0 ensures Matches(cs[j], "", Substring) {
      assert OccursAt(cs[j].names[0], "", 0);
    }
  }

  /** For a non-empty name the substring rule is the stricter one: every
      container it matches, the shared-character rule matches too. */
  lemma {:induction false} SubstringImpliesSharedChar(c: Container, containerName: string)
    requires containerName != "" && Matches(c, containerName, Substring)
    ensures Matches(c, containerName, SharedChar)
  {
    var k :| 0 <= k < |c.names| && NameMatches(c.names[k], containerName, Substring);
    ContainsImpliesContainsAny(c.names[k], containerName);
  }

  /** The shared-character rule finds containers whose names have nothing
      to do with the one asked for: "/nginx" shares an `i` with
      "cube-apiserver". The substring rule does not. */
  lemma {:induction false} SharedCharFalsePositive()
    ensures var cs := [Container("f00d", ["/nginx"], "nginx", "nginx", 0, "Up", [], Running)];
      FirstMatch(cs, "cube-apiserver", SharedChar) == Some(0) &&
      FirstMatch(cs, "cube-apiserver", Substring) == None
  {
    var c := Container("f00d", ["/nginx"], "nginx", "nginx", 0, "Up", [], Running);
    assert "/nginx"[3] == 'i' && 'i' in "cube-apiserver";
    assert c.names[0] == "/nginx";
    assert NameMatches(c.names[0], "cube-apiserver", SharedChar);
    assert Matches(c, "cube-apiserver", SharedChar);
    assert !Contains("/nginx", "cube-apiserver");
  }
}

=== FILE: node.dfy ===
/** The roster commands of cmd/node.go: `node ls`, `node add` and
    `node rm`. The file system and the cluster engine are the `Host`
    oracles; each command returns the trace of host steps it took and how it
    ended. */
module NodeCmd {
  import opened Results
  import opened Strings
  import opened Rke
  import Common

  /** The host operations a roster command issues, in order. */
  datatype Step =
    | ReadConfig(path: string)
    | ClusterUp(config: ClusterConfig)
    | WriteConfig(config: ClusterConfig, path: string)

  /** What the host answers: whether `os.Stat` of the primary roster path
      succeeds, what reading a roster file yields, and the error (if any) of
      bringing the cluster up and of writing the roster back. */
  datatype Host = Host(
    statPrimary: bool,
    read: string -> Result<ClusterConfig>,
    clusterUp: ClusterConfig -> Option<string>,
    write: (ClusterConfig, string) -> Option<string>)

  /** How a command ends: success, a returned error, or a Go runtime panic. */
  datatype Outcome = Done | Failed(error: string) | Panicked

  datatype Run = Run(steps: seq<Step>, outcome: Outcome)

  /** The roster that was written, if the command got that far. */
  function Written(run: Run): Option<ClusterConfig> {
    if |run.steps| > 0 && run.steps[|run.steps| - 1].WriteConfig? then
      Some(run.steps[|run.steps| - 1].config)
    else None
  }

  /** The configuration handed to the cluster engine, if any. */
  function Provisioned(run: Run): Option<ClusterConfig> {
    if |run.steps| > 1 && run.steps[1].ClusterUp? then Some(run.steps[1].config) else None
  }

  /** The primary path when it can be stat'ed, the base path otherwise. */
  function LoadPath(host: Host, basePath: string): (path: string)
    ensures path == Common.NodeConfigDefault <==> host.statPrimary || basePath == Common.NodeConfigDefault
    ensures path == basePath <==> !host.statPrimary || basePath == Common.NodeConfigDefault
  {
    if host.statPrimary then Common.NodeConfigDefault else basePath
  }

  predicate HasAddress(nodes: seq<Node>, address: string) {
    exists k | 0 <= k < |nodes| :: nodes[k].address == address
  }

  /** The roster invariant: no address is listed twice. */
  predicate UniqueAddresses(nodes: seq<Node>) {
    forall j, k | 0 <= j < k < |nodes| :: nodes[j].address != nodes[k].address
  }

  /** The index of the first entry with the address, or -1. */
  function FindIndex(nodes: seq<Node>, address: string): (r: int)
    ensures -1 <= r < |nodes|
    ensures r >= 0 ==> nodes[r].address == address
    ensures r >= 0 ==> forall j | 0 <= j < r :: nodes[j].address != address
    ensures r == -1 <==> !HasAddress(nodes, address)
    decreases |nodes|
  {
    if |nodes| == 0 then -1
    else if nodes[0].address == address then 0
    else
      var k := FindIndex(nodes[1..], address);
      assert HasAddress(nodes, address) ==> HasAddress(nodes[1..], address) by {
        if HasAddress(nodes, address) {
          var j :| 0 <= j < |nodes| && nodes[j].address == address;
          assert nodes[1..][j - 1] == nodes[j];
        }
      }
      if k == -1 then -1 else k + 1
  }

  /** The entry `node add` appends: its roles are the comma-separated pieces
      of the roles flag, in order. */
  function NewEntry(address: string, roles: string, user: string, sshKeyPath: string): (n: Node)
    ensures n.address == address && n.user == user && n.sshKeyPath == sshKeyPath
    ensures |n.role| >= 1
    ensures Join(n.role, ",") == roles
    ensures forall k | 0 <= k < |n.role| :: ',' !in n.role[k]
  {
    JoinSplit(roles, ',');
    SplitPiecesFree(roles, ',');
    Node(address, Split(roles, ','), user, sshKeyPath)
  }

  /** The roster edit of `node add`: `None` when the address is already
      listed, otherwise the roster with the entry appended at the end. */
  function AddEntry(nodes: seq<Node>, entry: Node): (r: Option<seq<Node>>)
    ensures r.None? <==> HasAddress(nodes, entry.address)
    ensures r.Some? ==> |r.value| == |nodes| + 1 && r.value[..|nodes|] == nodes
    ensures r.Some? ==> r.value[|nodes|] == entry
    ensures r.Some? && UniqueAddresses(nodes) ==> UniqueAddresses(r.value)
  {
    if HasAddress(nodes, entry.address) then None else Some(nodes + [entry])
  }

  /** The roster edit of `node rm` as the code is written. */
  datatype Removal = NoNodes | Replaced(nodes: seq<Node>) | SlicePanic

  /** The two-slice splice of the multi-entry branch: it keeps
      `nodes[0:foundIndex-1]` and `nodes[foundIndex+1:]`, so it drops the
      entry before the match as well as the match. Go panics on the slice
      when `foundIndex` is below 1, hence the precondition. */
  function SpliceAsWritten(nodes: seq<Node>, foundIndex: int): (r: seq<Node>)
    requires 1 <= foundIndex < |nodes|
    ensures |r| == |nodes| - 2
    ensures forall k | 0 <= k < foundIndex - 1 :: r[k] == nodes[k]
    ensures forall k | foundIndex - 1 <= k < |r| :: r[k] == nodes[k + 2]
  {
    var left, right := nodes[..foundIndex - 1], nodes[foundIndex + 1..];
    MergeTwoConcat(left, right);
    MergeNodes([left, right])
  }

  /** `node rm`'s roster edit as written: an empty roster is left alone, a
      one-entry roster is emptied whatever the address, and a longer one is
      spliced around the first match, or panics when the match is at index
      0 or missing. */
  function RemoveEntryAsWritten(nodes: seq<Node>, address: string): (r: Removal)
    ensures r.NoNodes? <==> |nodes| == 0
    ensures |nodes| == 1 ==> r == Replaced([])
    ensures r.SlicePanic? <==> |nodes| >= 2 && FindIndex(nodes, address) < 1
    ensures |nodes| >= 2 && r.Replaced? ==>
      var i := FindIndex(nodes, address);
      r.nodes == nodes[..i - 1] + nodes[i + 1..]
  {
    var foundIndex := FindIndex(nodes, address);
    if |nodes| == 0 then NoNodes
    else if |nodes| == 1 then Replaced([])
    else if foundIndex < 1 then SlicePanic
    else
      var r := SpliceAsWritten(nodes, foundIndex);
      assert r == nodes[..foundIndex - 1] + nodes[foundIndex + 1..];
      Replaced(r)
  }

  /** The evidently intended removal: the entry at `i` and nothing else
      leaves the roster, and the order of the others is kept. */
  function RemoveAt(nodes: seq<Node>, i: nat): (r: seq<Node>)
    requires i < |nodes|
    ensures |r| == |nodes| - 1
    ensures forall k | 0 <= k < i :: r[k] == nodes[k]
    ensures forall k | i <= k < |r| :: r[k] == nodes[k + 1]
    ensures r == nodes[..i] + nodes[i + 1..]
    ensures multiset(r) + multiset{nodes[i]} == multiset(nodes)
  {
    MergeTwoConcat(nodes[..i], nodes[i + 1..]);
    SpliceOut(nodes, i);
    MergeNodes([nodes[..i], nodes[i + 1..]])
  }

  /** The two slices around index `i` hold every entry but the one there. */
  lemma {:induction false} SpliceOut(nodes: seq<Node>, i: nat)
    requires i < |nodes|
    ensures var r := nodes[..i] + nodes[i + 1..];
      && |r| == |nodes| - 1
      && (forall k | 0 <= k < i :: r[k] == nodes[k])
      && (forall k | i <= k < |r| :: r[k] == nodes[k + 1])
      && multiset(r) + multiset{nodes[i]} == multiset(nodes)
  {
    var left, right := nodes[..i], nodes[i + 1..];
    assert nodes == left + [nodes[i]] + right;
  }

  /** The corrected roster edit: `None` when the address is not listed
      (nothing to do), otherwise the roster without its first match. */
  function RemoveEntry(nodes: seq<Node>, address: string): (r: Option<seq<Node>>)
    ensures r.None? <==> !HasAddress(nodes, address)
    ensures r.Some? ==> |r.value| == |nodes| - 1
    // the first match leaves, and the others keep their order
    ensures r.Some? ==> var i := FindIndex(nodes, address); r.value == nodes[..i] + nodes[i + 1..]
    ensures r.Some? && UniqueAddresses(nodes) ==> !HasAddress(r.value, address)
    ensures r.Some? && UniqueAddresses(nodes) ==> UniqueAddresses(r.value)
  {
    var i := FindIndex(nodes, address);
    var r := if i == -1 then None else Some(RemoveAt(nodes, i));
    RemovalFacts(nodes, address, r);
    r
  }

  /** What the corrected removal promises, proved about its result apart
      from its definition. */
  lemma {:induction false} RemovalFacts(nodes: seq<Node>, address: string, r: Option<seq<Node>>)
    requires var i := FindIndex(nodes, address);
      r == if i == -1 then None else Some(RemoveAt(nodes, i))
    ensures r.None? <==> !HasAddress(nodes, address)
    ensures r.Some? ==> |r.value| == |nodes| - 1
    ensures r.Some? ==> var i := FindIndex(nodes, address); r.value == nodes[..i] + nodes[i + 1..]
    ensures r.Some? && UniqueAddresses(nodes) ==> !HasAddress(r.value, address)
    ensures r.Some? && UniqueAddresses(nodes) ==> UniqueAddresses(r.value)
  {
    var i := FindIndex(nodes, address);
    if i != -1 {
      SpliceKeepsUnique(nodes, i, address);
    }
  }

  /** Taking one entry out of a roster with unique addresses keeps the
      addresses unique and loses the removed one. */
  lemma {:induction false} SpliceKeepsUnique(nodes: seq<Node>, i: nat, address: string)
    requires i < |nodes| && nodes[i].address == address
    ensures |nodes[..i] + nodes[i + 1..]| == |nodes| - 1
    ensures UniqueAddresses(nodes) ==> UniqueAddresses(nodes[..i] + nodes[i + 1..])
    ensures UniqueAddresses(nodes) ==> !HasAddress(nodes[..i] + nodes[i + 1..], address)
  {
    var r := nodes[..i] + nodes[i + 1..];
    SpliceOut(nodes, i);
    if UniqueAddresses(nodes) {
      forall j, k | 0 <= j < k < |r| ensures r[j].address != r[k].address {
        var j' := if j < i then j else j + 1;
        var k' := if k < i then k else k + 1;
        assert r[j] == nodes[j'] && r[k] == nodes[k'];
      }
      forall j | 0 <= j < |r| ensures r[j].address != address {
        var j' := if j < i then j else j + 1;
        assert r[j] == nodes[j'];
      }
    }
  }

  /** The roster a command loads. */
  function Loaded(host: Host, basePath: string): Result<ClusterConfig> {
    host.read(LoadPath(host, basePath))
  }

  /** `node ls`: the roster it reads and prints. */
  function NodeLs(basePath: string, host: Host): (r: (seq<Step>, Result<ClusterConfig>))
    ensures r.0 == [ReadConfig(LoadPath(host, basePath))]
    ensures r.1 == host.read(LoadPath(host, basePath))
  {
    var path := LoadPath(host, basePath);
    ([ReadConfig(path)], host.read(path))
  }

  /** Bring the cluster up with the edited roster, then save it to the
      primary path; each failure ends the command with its error. */
  function Apply(steps: seq<Step>, config: ClusterConfig, host: Host): (run: Run)
    ensures |run.steps| == |steps| + 1 || |run.steps| == |steps| + 2
    ensures run.steps[..|steps|] == steps && run.steps[|steps|] == ClusterUp(config)
    ensures |run.steps| == |steps| + 2 <==> host.clusterUp(config).None?
    ensures |run.steps| == |steps| + 2 ==> run.steps[|steps| + 1] == WriteConfig(config, Common.NodeConfigDefault)
    ensures run.outcome.Done? <==> host.clusterUp(config).None? && host.write(config, Common.NodeConfigDefault).None?
    ensures !run.outcome.Panicked?
  {
    match host.clusterUp(config)
    case Some(e) => Run(steps + [ClusterUp(config)], Failed(e))
    case None =>
      var written := steps + [ClusterUp(config), WriteConfig(config, Common.NodeConfigDefault)];
      match host.write(config, Common.NodeConfigDefault)
      case Some(e) => Run(written, Failed(e))
      case None => Run(written, Done)
  }

  /** `node add`. */
  function NodeAdd(address: string, roles: string, user: string, sshKeyPath: string,
                   basePath: string, host: Host): (run: Run)
    // an empty address is refused before anything is read
    ensures address == "" ==> run == Run([], Failed("cube node add: require address"))
    // otherwise the roster is read first, from the path `os.Stat` selects
    ensures address != "" ==> |run.steps| >= 1 && run.steps[0] == ReadConfig(LoadPath(host, basePath))
    // a read error ends the command with nothing else done
    ensures (address != "" && Loaded(host, basePath).Err?) ==>
      run == Run([ReadConfig(LoadPath(host, basePath))], Failed(Loaded(host, basePath).error))
    // an address already listed is a successful no-op: no cluster-up, no write
    ensures (address != "" && Loaded(host, basePath).Ok? &&
             HasAddress(Loaded(host, basePath).value.nodes, address)) ==>
      run == Run([ReadConfig(LoadPath(host, basePath))], Done)
    // a fresh address is appended, provisioned and written, each failure returned
    ensures (address != "" && Loaded(host, basePath).Ok? &&
             !HasAddress(Loaded(host, basePath).value.nodes, address)) ==>
      var prior := Loaded(host, basePath).value;
      run == Apply([ReadConfig(LoadPath(host, basePath))],
                   prior.(nodes := prior.nodes + [NewEntry(address, roles, user, sshKeyPath)]), host)
    // whatever is provisioned is the read roster with exactly the new entry appended
    ensures Provisioned(run).Some? ==>
      Loaded(host, basePath).Ok? &&
      var prior := Loaded(host, basePath).value;
      Provisioned(run).value == prior.(nodes := prior.nodes + [NewEntry(address, roles, user, sshKeyPath)])
    // the roster is written only after the cluster came up, and it is what came up
    ensures Written(run).Some? ==>
      Provisioned(run) == Written(run) && host.clusterUp(Written(run).value).None?
    ensures !run.outcome.Panicked?
  {
    if address == "" then
      Run([], Failed("cube node add: require address"))
    else
      var entry := NewEntry(address, roles, user, sshKeyPath);
      var path := LoadPath(host, basePath);
      match host.read(path)
      case Err(e) => Run([ReadConfig(path)], Failed(e))
      case Ok(config) =>
        match AddEntry(config.nodes, entry)
        case None => Run([ReadConfig(path)], Done)
        case Some(nodes) => Apply([ReadConfig(path)], config.(nodes := nodes), host)
  }

  /** `node rm` as the code is written. */
  function NodeRm(address: string, basePath: string, host: Host): (run: Run)
    ensures address == "" ==> run == Run([], Failed("cube node remove: require address"))
    ensures address != "" ==> |run.steps| >= 1 && run.steps[0] == ReadConfig(LoadPath(host, basePath))
    ensures (address != "" && Loaded(host, basePath).Err?) ==>
      run == Run([ReadConfig(LoadPath(host, basePath))], Failed(Loaded(host, basePath).error))
    // an empty roster is a warned no-op
    ensures (address != "" && Loaded(host, basePath).Ok? && |Loaded(host, basePath).value.nodes| == 0) ==>
      run == Run([ReadConfig(LoadPath(host, basePath))], Done)
    // a one-entry roster is provisioned empty, matching address or not; only the node list changes
    ensures (address != "" && Loaded(host, basePath).Ok? && |Loaded(host, basePath).value.nodes| == 1) ==>
      Provisioned(run) == Some(Loaded(host, basePath).value.(nodes := []))
    // a longer roster whose first match is not at index 1 or later panics before any other step
    ensures (address != "" && Loaded(host, basePath).Ok? && |Loaded(host, basePath).value.nodes| >= 2 &&
             FindIndex(Loaded(host, basePath).value.nodes, address) < 1) ==>
      run == Run([ReadConfig(LoadPath(host, basePath))], Panicked)
    // otherwise two entries are gone: the match and the one before it
    ensures (address != "" && Loaded(host, basePath).Ok? && |Loaded(host, basePath).value.nodes| >= 2 &&
             FindIndex(Loaded(host, basePath).value.nodes, address) >= 1) ==>
      var prior := Loaded(host, basePath).value;
      var i := FindIndex(prior.nodes, address);
      Provisioned(run) == Some(prior.(nodes := prior.nodes[..i - 1] + prior.nodes[i + 1..]))
    // what is provisioned is then written to the primary path, each failure returned
    ensures Provisioned(run).Some? ==>
      run == Apply([ReadConfig(LoadPath(host, basePath))], Provisioned(run).value, host)
    ensures Written(run).Some? ==>
      Provisioned(run) == Written(run) && host.clusterUp(Written(run).value).None?
  {
    if address == "" then
      Run([], Failed("cube node remove: require address"))
    else
      var path := LoadPath(host, basePath);
      match host.read(path)
      case Err(e) => Run([ReadConfig(path)], Failed(e))
      case Ok(config) => RemoveLoaded(path, config, address, host)
  }

  /** What `node rm` does once the roster at `path` is loaded. */
  function RemoveLoaded(path: string, config: ClusterConfig, address: string, host: Host): (run: Run)
    ensures |run.steps| >= 1 && run.steps[0] == ReadConfig(path)
    ensures |config.nodes| == 0 ==> run == Run([ReadConfig(path)], Done)
    ensures |config.nodes| >= 2 && FindIndex(config.nodes, address) < 1 ==> run == Run([ReadConfig(path)], Panicked)
    ensures RemoveEntryAsWritten(config.nodes, address).Replaced? ==>
      Provisioned(run) == Some(config.(nodes := RemoveEntryAsWritten(config.nodes, address).nodes))
    ensures Provisioned(run).Some? ==> run == Apply([ReadConfig(path)], Provisioned(run).value, host)
    ensures Written(run).Some? ==>
      Provisioned(run) == Written(run) && host.clusterUp(Written(run).value).None?
  {
    match RemoveEntryAsWritten(config.nodes, address)
    case NoNodes => Run([ReadConfig(path)], Done)
    case SlicePanic => Run([ReadConfig(path)], Panicked)
    case Replaced(nodes) =>
      Apply([ReadConfig(path)], config.(nodes := nodes), host)
  }

  /** `node rm` with the evidently intended roster edit: an address that
      is not listed leaves everything alone, a listed one is removed and
      nothing else is. */
  function NodeRmCorrected(address: string, basePath: string, host: Host): (run: Run)
    ensures address == "" ==> run == Run([], Failed("cube node remove: require address"))
    ensures address != "" ==> |run.steps| >= 1 && run.steps[0] == ReadConfig(LoadPath(host, basePath))
    ensures (address != "" && Loaded(host, basePath).Ok? &&
             !HasAddress(Loaded(host, basePath).value.nodes, address)) ==>
      run == Run([ReadConfig(LoadPath(host, basePath))], Done)
    ensures Provisioned(run).Some? ==>
      Loaded(host, basePath).Ok? &&
      var prior := Loaded(host, basePath).value;
      RemoveEntry(prior.nodes, address) == Some(Provisioned(run).value.nodes) &&
      Provisioned(run).value.others == prior.others
    // a listed address is removed, and the edited roster is provisioned and written
    ensures (address != "" && Loaded(host, basePath).Ok? &&
             HasAddress(Loaded(host, basePath).value.nodes, address)) ==> Provisioned(run).Some?
    ensures Provisioned(run).Some? ==>
      run == Apply([ReadConfig(LoadPath(host, basePath))], Provisioned(run).value, host)
    ensures Written(run).Some? ==>
      Provisioned(run) == Written(run) && host.clusterUp(Written(run).value).None?
    ensures !run.outcome.Panicked?
  {
    if address == "" then
      Run([], Failed("cube node remove: require address"))
    else
      var path := LoadPath(host, basePath);
      match host.read(path)
      case Err(e) => Run([ReadConfig(path)], Failed(e))
      case Ok(config) => RemoveLoadedCorrected(path, config, address, host)
  }

  /** What the corrected `node rm` does once the roster at `path` is loaded. */
  function RemoveLoadedCorrected(path: string, config: ClusterConfig, address: string, host: Host): (run: Run)
    ensures |run.steps| >= 1 && run.steps[0] == ReadConfig(path)
    ensures !HasAddress(config.nodes, address) ==> run == Run([ReadConfig(path)], Done)
    ensures HasAddress(config.nodes, address) ==> Provisioned(run).Some?
    ensures Provisioned(run).Some? ==>
      RemoveEntry(config.nodes, address) == Some(Provisioned(run).value.nodes) &&
      Provisioned(run).value.others == config.others
    ensures Provisioned(run).Some? ==> run == Apply([ReadConfig(path)], Provisioned(run).value, host)
    ensures Written(run).Some? ==>
      Provisioned(run) == Written(run) && host.clusterUp(Written(run).value).None?
    ensures !run.outcome.Panicked?
  {
    match RemoveEntry(config.nodes, address)
    case None => Run([ReadConfig(path)], Done)
    case Some(nodes) => Apply([ReadConfig(path)], config.(nodes := nodes), host)
  }
}

=== FILE: node_props.dfy ===
/** Properties of the roster commands that relate several calls, and the
    inputs on which `node rm` as written departs from its evident intent. */
module NodeProps {
  import opened Results
  import opened Rke
  import opened NodeCmd

  /** `node add` keeps the roster invariant: when the roster it read listed
      every address once, so does the roster it writes. */
  lemma {:induction false} AddKeepsAddressesUnique(address: string, roles: string, user: string, sshKeyPath: string,
                                basePath: string, host: Host)
    requires Loaded(host, basePath).Ok? && UniqueAddresses(Loaded(host, basePath).value.nodes)
    ensures var run := NodeAdd(address, roles, user, sshKeyPath, basePath, host);
      Written(run).Some? ==> UniqueAddresses(Written(run).value.nodes)
  {
    var run := NodeAdd(address, roles, user, sshKeyPath, basePath, host);
    if Written(run).Some? {
      var nodes := Loaded(host, basePath).value.nodes;
      var entry := NewEntry(address, roles, user, sshKeyPath);
      assert AddEntry(nodes, entry) == Some(nodes + [entry]);
    }
  }

  /** Adding is idempotent: once `node add` has written a roster, running
      it again with the same address against that roster changes nothing
      and provisions nothing. */
  lemma {:induction false} AddTwiceIsNoop(address: string, roles: string, user: string, sshKeyPath: string,
                       basePath: string, host: Host, host2: Host)
    requires Written(NodeAdd(address, roles, user, sshKeyPath, basePath, host)).Some?
    requires Loaded(host2, basePath) == Ok(Written(NodeAdd(address, roles, user, sshKeyPath, basePath, host)).value)
    ensures NodeAdd(address, roles, user, sshKeyPath, basePath, host2) ==
      Run([ReadConfig(LoadPath(host2, basePath))], Done)
  {
    var run := NodeAdd(address, roles, user, sshKeyPath, basePath, host);
    var nodes := Written(run).value.nodes;
    assert nodes[|nodes| - 1].address == address;
    assert HasAddress(nodes, address);
  }

  /** The corrected removal undoes an add: removing the address just
      appended gives the roster back, entries and order. */
  lemma {:induction false} RemoveUndoesAdd(nodes: seq<Node>, entry: Node)
    requires AddEntry(nodes, entry).Some?
    ensures RemoveEntry(AddEntry(nodes, entry).value, entry.address) == Some(nodes)
  {
    var added := nodes + [entry];
    assert FindIndex(added, entry.address) == |nodes| by {
      assert added[|nodes|].address == entry.address;
      forall j | 0 <= j < |nodes| ensures added[j].address != entry.address {
        assert added[j] == nodes[j];
      }
    }
    var r := RemoveAt(added, |nodes|);
    assert r == nodes;
  }

  /** Removing an address that is not listed leaves the roster as it is,
      and a second removal of the same address is such a case. */
  lemma {:induction false} RemoveTwiceIsNoop(nodes: seq<Node>, address: string)
    requires UniqueAddresses(nodes) && RemoveEntry(nodes, address).Some?
    ensures RemoveEntry(RemoveEntry(nodes, address).value, address).None?
  {
  }

  // As written, `node rm` departs from the intended removal on these inputs.

  /** Removing the middle entry of three loses its predecessor too. */
  lemma {:induction false} AsWrittenLosesPredecessor(a: Node, b: Node, c: Node)
    requires a.address != b.address
    ensures RemoveEntryAsWritten([a, b, c], b.address) == Replaced([c])
    ensures RemoveEntry([a, b, c], b.address) == Some([a, c])
  {
    SecondIsFound(a, b, c);
    assert SpliceAsWritten([a, b, c], 1) == [c];
    assert [a, b, c][..1] + [a, b, c][2..] == [a, c] by {
      assert [a, b, c][..1] == [a] && [a, b, c][2..] == [c];
    }
  }

  lemma {:induction false} SecondIsFound(a: Node, b: Node, c: Node)
    requires a.address != b.address
    ensures FindIndex([a, b, c], b.address) == 1
  {
    assert [a, b, c][1..] == [b, c];
    assert FindIndex([b, c], b.address) == 0;
  }

  /** A one-entry roster is emptied even when its address does not match. */
  lemma {:induction false} AsWrittenEmptiesOnMismatch(a: Node, address: string)
    requires a.address != address
    ensures RemoveEntryAsWritten([a], address) == Replaced([])
    ensures RemoveEntry([a], address) == None
  {
    assert !HasAddress([a], address);
  }

  /** Removing the first entry of a longer roster is a slice-bounds panic. */
  lemma {:induction false} AsWrittenPanicsOnFirst(a: Node, b: Node)
    ensures RemoveEntryAsWritten([a, b], a.address) == SlicePanic
    ensures RemoveEntry([a, b], a.address) == Some([b])
  {
    var s := RemoveAt([a, b], 0);
    assert s == [b];
  }

  /** The end-to-end roster scenario: on an empty roster, adding an entry
      gives a one-entry roster, adding it again is a no-op, and removing it
      (as written or corrected) leaves the roster empty again. */
  lemma {:induction false} AddAddRemoveScenario()
    ensures var entry := NewEntry("10.0.0.5", "worker", "rancher", "/k");
      AddEntry([], entry) == Some([entry]) &&
      AddEntry([entry], entry) == None &&
      RemoveEntryAsWritten([entry], "10.0.0.5") == Replaced([]) &&
      RemoveEntry([entry], "10.0.0.5") == Some([])
  {
    var entry := NewEntry("10.0.0.5", "worker", "rancher", "/k");
    assert entry.address == "10.0.0.5";
    OneEntryRoundTrip(entry);
  }

  /** The same round trip for any entry: add, add again, remove. */
  lemma {:induction false} OneEntryRoundTrip(entry: Node)
    ensures AddEntry([], entry) == Some([entry])
    ensures AddEntry([entry], entry) == None
    ensures RemoveEntryAsWritten([entry], entry.address) == Replaced([])
    ensures RemoveEntry([entry], entry.address) == Some([])
  {
    assert [entry][0].address == entry.address;
    assert HasAddress([entry], entry.address);
    assert [entry][..0] == [] && [entry][1..] == [];
  }
}

=== FILE: pull.dfy ===
/** Image resolution before a container is created (docker/pull.go): use
    the local image when the engine has it, otherwise pull it, with
    registry credentials taken from a map keyed by registry domain. */
module Pull {
  import opened Results
  import opened Engine
  import Base64Url

  /** Go's map index: the entry under the key, or the zero record. */
  function RegistryAt(prs: map<string, PrivateRegistry>, key: string): (pr: PrivateRegistry)
    ensures key in prs ==> pr == prs[key]
    ensures key !in prs ==> pr == PrivateRegistry("", "", "")
  {
    if key in prs then prs[key] else PrivateRegistry("", "", "")
  }

  /** The registry token: the JSON encoding of the user and password, in
      the URL-safe base64 alphabet with padding. Decoding the token gives
      the JSON back. */
  function RegistryAuth(env: Env, pr: PrivateRegistry): (r: Result<string>)
    ensures env.marshalAuth(pr.user, pr.password).Err? ==> r == Err(env.marshalAuth(pr.user, pr.password).error)
    ensures env.marshalAuth(pr.user, pr.password).Ok? ==>
      r.Ok? && Base64Url.Decode(r.value) == Ok(env.marshalAuth(pr.user, pr.password).value)
    // the canonical encoding itself, not merely some text that decodes to the JSON
    ensures env.marshalAuth(pr.user, pr.password).Ok? ==>
      r == Ok(Base64Url.Encode(env.marshalAuth(pr.user, pr.password).value))
  {
    match env.marshalAuth(pr.user, pr.password)
    case Err(e) => Err(e)
    case Ok(json) =>
      Base64Url.DecodeEncode(json);
      Ok(Base64Url.Encode(json))
  }

  /** The token and the URL recorded in the credentials entry. */
  datatype RegistryConfig = RegistryConfig(auth: string, url: string)

  /** Credentials for the image's registry domain, when the map has an
      entry for it; no token and no URL otherwise. */
  function ImageRegistryConfig(env: Env, image: string, prs: map<string, PrivateRegistry>): (r: Result<RegistryConfig>)
    ensures env.domainOf(image).Err? ==> r == Err(env.domainOf(image).error)
    ensures env.domainOf(image).Ok? && env.domainOf(image).value !in prs ==> r == Ok(RegistryConfig("", ""))
    ensures (env.domainOf(image).Ok? && env.domainOf(image).value in prs) ==>
      var pr := prs[env.domainOf(image).value];
      && (r.Ok? <==> env.marshalAuth(pr.user, pr.password).Ok?)
      && (r.Ok? ==> r.value.url == pr.url &&
                    Base64Url.Decode(r.value.auth) == Ok(env.marshalAuth(pr.user, pr.password).value))
      && (r.Ok? ==> r.value.auth == Base64Url.Encode(env.marshalAuth(pr.user, pr.password).value))
      && (r.Err? ==> r.error == env.marshalAuth(pr.user, pr.password).error)
  {
    match env.domainOf(image)
    case Err(e) => Err(e)
    case Ok(domain) =>
      if domain in prs then
        match RegistryAuth(env, prs[domain])
        case Err(e) => Err(e)
        case Ok(auth) => Ok(RegistryConfig(auth, prs[domain].url))
      else Ok(RegistryConfig("", ""))
  }

  /** Pull options: the token always; the re-deriving callback only for a
      non-empty token whose entry names the default registry, and then
      built from the entry stored under that URL, not under the domain. */
  function OptionsFor(prs: map<string, PrivateRegistry>, rc: RegistryConfig): (o: PullOptions)
    ensures o.registryAuth == rc.auth
    ensures o.privilegeFrom.Some? <==> rc.auth != "" && rc.url == EngineRegistryURL
    ensures o.privilegeFrom.Some? ==> o.privilegeFrom.value == RegistryAt(prs, EngineRegistryURL)
  {
    if rc.auth != "" && rc.url == EngineRegistryURL then
      PullOptions(rc.auth, Some(RegistryAt(prs, rc.url)))
    else PullOptions(rc.auth, None)
  }

  /** Whether the engine has the image. A not-found answer is `false`; any
      other inspect failure is an error. */
  function LocalImageExists(st: State, env: Env, hostname: string, image: string): (r: (seq<Call>, Result<bool>))
    ensures r.0 == [ImageInspect(image)]
    ensures env.fail(ImageInspect(image)).None? <==> r.1.Ok?
    ensures r.1.Ok? ==> (r.1.value <==> image in st.images)
    ensures r.1.Err? ==>
      r.1.error == "error checking if image [" + image + "] exists on host [" + hostname + "]: " + env.fail(ImageInspect(image)).value
  {
    var call := ImageInspect(image);
    match env.fail(call)
    case Some(e) =>
      ([call], Err("error checking if image [" + image + "] exists on host [" + hostname + "]: " + e))
    case None => ([call], Ok(image in st.images))
  }

  /** One pull of the image; on success the engine has it. */
  function PullImage(st: State, env: Env, hostname: string, image: string, prs: map<string, PrivateRegistry>): (r: Effect<()>)
    ensures ImageRegistryConfig(env, image, prs).Err? ==> r == Effect(st, [], Err(ImageRegistryConfig(env, image, prs).error))
    ensures ImageRegistryConfig(env, image, prs).Ok? ==>
      r.calls == [ImagePull(image, OptionsFor(prs, ImageRegistryConfig(env, image, prs).value))]
    ensures r.result.Ok? <==> |r.calls| == 1 && env.fail(r.calls[0]).None?
    ensures |r.calls| == 1 && r.result.Err? ==>
      r.result.error == "can't pull docker image [" + image + "] for host [" + hostname + "]: " + env.fail(r.calls[0]).value
    ensures r.result.Ok? ==> r.state == st.(images := st.images + {image})
    ensures r.result.Err? ==> r.state == st
  {
    match ImageRegistryConfig(env, image, prs)
    case Err(e) => Effect(st, [], Err(e))
    case Ok(rc) =>
      var call := ImagePull(image, OptionsFor(prs, rc));
      match env.fail(call)
      case Some(e) =>
        Effect(st, [call], Err("can't pull docker image [" + image + "] for host [" + hostname + "]: " + e))
      case None => Effect(Apply(st, env, call), [call], Ok(()))
  }

  /** Local image or pull: the engine is asked first, and a pull happens
      only when it answers not-found. Containers are never touched; on
      success the image is present. */
  function UseLocalOrPull(st: State, env: Env, hostname: string, image: string, prs: map<string, PrivateRegistry>): (r: Effect<()>)
    ensures 1 <= |r.calls| <= 2 && r.calls[0] == ImageInspect(image)
    ensures |r.calls| == 2 ==> r.calls[1].ImagePull? && r.calls[1].ref == image && image !in st.images
    ensures env.fail(ImageInspect(image)).Some? ==> r.calls == [ImageInspect(image)] && r.result.Err? && r.state == st
    ensures env.fail(ImageInspect(image)).None? && image in st.images ==> r == Effect(st, [ImageInspect(image)], Ok(()))
    // not found: the pull follows, and its outcome is the answer
    ensures env.fail(ImageInspect(image)).None? && image !in st.images ==>
      var p := PullImage(st, env, hostname, image, prs);
      r == Effect(p.state, [ImageInspect(image)] + p.calls, p.result)
    ensures r.result.Ok? ==> image in r.state.images
    ensures r.state.containers == st.containers
    ensures r.state.images == st.images || r.state.images == st.images + {image}
  {
    var (inspect, exists_) := LocalImageExists(st, env, hostname, image);
    match exists_
    case Err(e) => Effect(st, inspect, Err(e))
    case Ok(true) => Effect(st, inspect, Ok(()))
    case Ok(false) =>
      var p := PullImage(st, env, hostname, image, prs);
      Effect(p.state, inspect + p.calls, p.result)
  }

  /** Once resolution has succeeded, running it again pulls nothing. */
  lemma {:induction false} ResolveIsIdempotent(st: State, env: Env, hostname: string, image: string, prs: map<string, PrivateRegistry>)
    requires UseLocalOrPull(st, env, hostname, image, prs).result.Ok?
    ensures var st' := UseLocalOrPull(st, env, hostname, image, prs).state;
      UseLocalOrPull(st', env, hostname, image, prs) == Effect(st', [ImageInspect(image)], Ok(()))
  {
  }

  /** With an empty credentials map a pull carries neither a token nor a
      re-deriving callback. */
  lemma {:induction false} EmptyMapPullsAnonymously(st: State, env: Env, hostname: string, image: string)
    ensures var r := UseLocalOrPull(st, env, hostname, image, map[]);
      forall k | 0 <= k < |r.calls| && r.calls[k].ImagePull? :: r.calls[k].options == PullOptions("", None)
  {
  }

  /** When the credentials entry for the default registry records that
      registry as its URL, the callback re-derives exactly the token sent
      up front. */
  lemma {:induction false} CallbackRederivesToken(env: Env, image: string, prs: map<string, PrivateRegistry>)
    requires env.domainOf(image) == Ok(EngineRegistryURL)
    requires EngineRegistryURL in prs && prs[EngineRegistryURL].url == EngineRegistryURL
    requires ImageRegistryConfig(env, image, prs).Ok?
    ensures var o := OptionsFor(prs, ImageRegistryConfig(env, image, prs).value);
      o.privilegeFrom.Some? ==> RegistryAuth(env, o.privilegeFrom.value) == Ok(o.registryAuth)
  {
  }

  /** The callback looks credentials up by the entry's URL, not by the
      domain the image resolved to: an entry under another domain that
      records the default registry as its URL gets a callback built from
      whatever is stored under "docker.io", here nothing. */
  lemma {:induction false} CallbackUsesEntryUrl(env: Env, image: string)
    requires env.domainOf(image) == Ok("registry.example")
    requires env.marshalAuth("u", "p") == Ok([123 as byte, 125 as byte])
    ensures var prs := map["registry.example" := PrivateRegistry(EngineRegistryURL, "u", "p")];
      var o := OptionsFor(prs, ImageRegistryConfig(env, image, prs).value);
      o.registryAuth != "" && o.privilegeFrom == Some(PrivateRegistry("", "", ""))
  {
    var prs := map["registry.example" := PrivateRegistry(EngineRegistryURL, "u", "p")];
    assert EngineRegistryURL !in prs;
    var rc := ImageRegistryConfig(env, image, prs).value;
    assert |rc.auth| == 4 by { assert |Base64Url.Encode([123 as byte, 125 as byte])| == (2 + 2) / 3 * 4; }
  }
}

=== FILE: results.dfy ===
/** Failure-carrying values shared by every module of the model.
    Errors are the message strings the Go code builds with `errors.New`,
    `fmt.Errorf` and friends. */
module Results {

  /** A Go value that may be nil, a map lookup that may miss, an error that may be nil. */
  datatype Option<+T> = None | Some(value: T)

  /** A Go `(value, error)` pair in which exactly one half is meaningful. */
  datatype Result<+T> = Ok(value: T) | Err(error: string) {

    predicate IsFailure() {
      Err?
    }

    function PropagateFailure<U>(): Result<U>
      requires Err?
    {
      Err(error)
    }

    function Extract(): T
      requires Ok?
    {
      value
    }
  }

  /** Bytes as Go's `[]byte` holds them. */
  newtype byte = x: int | 0 <= x < 256
}

=== FILE: rke.dfy ===
/** The roster types and `MergeNodes` of util/rke.go. Reading and writing
    the YAML roster file are the host operations of module `NodeCmd`. */
module Rke {

  /** One cluster member as the roster lists it: its address (the key the
      commands look it up by), its roles, and how to reach it over SSH. */
  datatype Node = Node(address: string, role: seq<string>, user: string, sshKeyPath: string)

  /** The cluster configuration document. Only the node list is interpreted;
      every other field travels through load and save untouched. */
  datatype ClusterConfig = ClusterConfig(nodes: seq<Node>, others: string)

  /** The in-order concatenation of a list of rosters, folded from the back:
      the reference `MergeNodes` is held to. */
  function Flatten(s: seq<seq<Node>>): seq<Node>
    decreases |s|
  {
    if |s| == 0 then [] else Flatten(s[..|s| - 1]) + s[|s| - 1]
  }

  /** Taking the first roster off the front of a concatenation. */
  lemma {:induction false} FlattenCons(s: seq<seq<Node>>)
    requires |s| >= 1
    ensures Flatten(s) == s[0] + Flatten(s[1..])
    decreases |s|
  {
    if |s| > 1 {
      var init := s[..|s| - 1];
      FlattenCons(init);
      assert init[1..] == s[1..][..|s[1..]| - 1];
      assert init[0] == s[0];
      assert s[1..][|s[1..]| - 1] == s[|s| - 1];
    } else {
      assert s[..0] == [];
    }
  }

  /** `MergeNodes(s...)`: no arguments give an empty roster, one argument is
      returned as it is, and more are the first followed by the merge of the
      rest. The result is the concatenation of all arguments in order. */
  function MergeNodes(s: seq<seq<Node>>): (slice: seq<Node>)
    ensures slice == Flatten(s)
    decreases |s|
  {
    if |s| == 0 then
      []
    else if |s| == 1 then
      assert s[..0] == [];
      s[0]
    else
      FlattenCons(s);
      s[0] + MergeNodes(s[1..])
  }

  /** Merging two rosters: the first is kept as the prefix, the second as
      the suffix, and nothing else is added. */
  lemma {:induction false} MergeTwo(a: seq<Node>, b: seq<Node>)
    ensures |MergeNodes([a, b])| == |a| + |b|
    ensures MergeNodes([a, b])[..|a|] == a
    ensures MergeNodes([a, b])[|a|..] == b
  {
    assert [a, b][1..] == [b];
  }

  /** Hence merging two rosters is their concatenation. */
  lemma {:induction false} MergeTwoConcat(a: seq<Node>, b: seq<Node>)
    ensures MergeNodes([a, b]) == a + b
  {
    MergeTwo(a, b);
    var m := MergeNodes([a, b]);
    assert m == m[..|a|] + m[|a|..];
  }
}

=== FILE: server.dfy ===
/** The api-server commands (cmd/server.go): run, stop, rm and status of
    the RancherCUBE api-server container on the system engine. */
module Server {
  import opened Results
  import Strings
  import opened Engine
  import opened Lookup
  import opened Lifecycle
  import LifecycleProps
  import opened Client
  import opened Common
  import opened TableFormat
  import opened TableWriter

  const ServerPort := "port"
  const ConfigLocation := "kube-config"
  /** The port the api-server listens on inside its container. */
  const ListenPort := "9600"

  /** What the commands take from outside the engine: the system engine's
      daemon, the semver parser, the file rename (an error or none), and
      the path the kube config is expected at. */
  datatype Host = Host(
    daemon: Daemon,
    parse: string -> Result<Semver>,
    rename: (string, string) -> Option<string>,
    kubeConfigLocation: string)

  /** The api-server container: its image, serving on 0.0.0.0:9600, with
      9600/tcp exposed. */
  function ServerConfig(): ContainerConfig {
    ContainerConfig(APIServerImage, ["serve", "--listen-addr=0.0.0.0:" + ListenPort], {ListenPort + "/tcp"})
  }

  /** The kube config bound in at the same path, and 9600/tcp published
      on every host address at the requested port. */
  function ServerHostConfig(port: string): HostConfig {
    HostConfig([Mount(TypeBind, APIServerKubeConfig, APIServerKubeConfig)],
               map[ListenPort + "/tcp" := [PortBinding("0.0.0.0", port + "/tcp")]])
  }

  function Connect(host: Host): Result<EngineClient> {
    NewClient(SystemDockerSock, host.daemon, host.parse)
  }

  /** The checks `server run` makes before it talks to the engine. */
  function RunPreflight(host: Host, configLocation: string): (r: Result<()>)
    ensures configLocation == "" ==> r == Err("cube server run: require " + ConfigLocation)
    // the config is moved into place only when it is elsewhere, and a failed move is the answer
    ensures configLocation != "" && configLocation != host.kubeConfigLocation &&
            host.rename(configLocation, host.kubeConfigLocation).Some? ==>
      r == Err(host.rename(configLocation, host.kubeConfigLocation).value)
    ensures r.Ok? <==>
      && configLocation != ""
      && (configLocation == host.kubeConfigLocation || host.rename(configLocation, host.kubeConfigLocation).None?)
      && Connect(host).Ok?
    ensures r.Err? && configLocation != "" &&
            (configLocation == host.kubeConfigLocation || host.rename(configLocation, host.kubeConfigLocation).None?) ==>
      Connect(host).Err? && r.error == Connect(host).error
  {
    if configLocation == "" then Err("cube server run: require " + ConfigLocation)
    else if configLocation != host.kubeConfigLocation && host.rename(configLocation, host.kubeConfigLocation).Some? then
      Err(host.rename(configLocation, host.kubeConfigLocation).value)
    else match Connect(host)
      case Err(e) => Err(e)
      case Ok(_) => Ok(())
  }

  /** `cube server run`: a missing config location, a failed move of the
      config into place or an unreachable engine stop it before any engine
      call; then the api-server container is restarted or created with
      exactly the descriptor above. */
  function ServerRun(st: State, env: Env, host: Host, port: string, configLocation: string): (r: Effect<()>)
    ensures configLocation == "" ==> r == Effect(st, [], Err("cube server run: require " + ConfigLocation))
    ensures configLocation != "" && configLocation != host.kubeConfigLocation &&
            host.rename(configLocation, host.kubeConfigLocation).Some? ==>
      r == Effect(st, [], Err(host.rename(configLocation, host.kubeConfigLocation).value))
    ensures configLocation != "" && Connect(host).Err? ==> r.calls == [] && r.state == st && r.result.Err?
    ensures r.calls != [] <==> RunPreflight(host, configLocation).Ok?
    // past the preflight the command is the create-or-restart of the api-server
    ensures RunPreflight(host, configLocation).Ok? ==>
      r == CreateOrRestart(st, env, ServerConfig(), ServerHostConfig(port), None, APIServerContainerName)
    ensures forall k | 0 <= k < |r.calls| && r.calls[k].ContainerCreate? ::
      r.calls[k] == ContainerCreate(ServerConfig(), ServerHostConfig(port), None, APIServerContainerName)
    ensures r.result.Ok? ==>
      var target := TargetId(st.containers, APIServerContainerName);
      RunningId(r.state, if target.Some? then target.value else env.newId)
  {
    match RunPreflight(host, configLocation)
    case Err(e) => Effect(st, [], Err(e))
    case Ok(_) => CreateOrRestart(st, env, ServerConfig(), ServerHostConfig(port), None, APIServerContainerName)
  }

  /** `cube server stop`. */
  function ServerStop(st: State, env: Env, host: Host): (r: Effect<()>)
    ensures Connect(host).Err? ==> r == Effect(st, [], Err(Connect(host).error))
    ensures Connect(host).Ok? ==> |r.calls| >= 1 && r.calls[0] == ContainerList(true)
    ensures Connect(host).Ok? ==> r == StopContainer(st, env, APIServerContainerName)
    ensures r.state.images == st.images && |r.state.containers| == |st.containers|
    ensures forall k | 0 <= k < |st.containers| ::
      r.state.containers[k] == st.containers[k] ||
      (TargetId(st.containers, APIServerContainerName) == Some(st.containers[k].id) &&
       r.state.containers[k] == st.containers[k].(state := Exited))
  {
    match Connect(host)
    case Err(e) => Effect(st, [], Err(e))
    case Ok(_) => StopContainer(st, env, APIServerContainerName)
  }

  /** `cube server rm`. */
  function ServerRm(st: State, env: Env, host: Host): (r: Effect<()>)
    ensures Connect(host).Err? ==> r == Effect(st, [], Err(Connect(host).error))
    ensures Connect(host).Ok? ==> |r.calls| >= 1 && r.calls[0] == ContainerList(true)
    ensures Connect(host).Ok? ==> r == RemoveContainer(st, env, APIServerContainerName)
    ensures r.result.Ok? && Connect(host).Ok? && TargetId(st.containers, APIServerContainerName).Some? ==>
      !HasId(r.state, TargetId(st.containers, APIServerContainerName).value)
    ensures forall k | 0 <= k < |r.state.containers| :: r.state.containers[k] in st.containers
  {
    match Connect(host)
    case Err(e) => Effect(st, [], Err(e))
    case Ok(_) => RemoveContainer(st, env, APIServerContainerName)
  }

  /** The columns of the status listing. */
  const StatusColumns: seq<Column> := [
    Column("CONTAINER ID", "{{.ID | id}}"),
    Column("IMAGE", "{{.Image}}"),
    Column("COMMAND", "{{.Command | cmd}}"),
    Column("CREATED", "{{.Created | ago}}"),
    Column("STATUS", "{{.Status}}"),
    Column("PORTS", "{{.Ports | port}}"),
    Column("NAMES", "{{.Names | name}}")]

  /** What `cube server status` does: its engine effect and error, and
      the text its writer produced by the time it was closed. */
  datatype StatusOutcome = StatusOutcome(effect: Effect<()>, text: string)

  /** Writing the found container, if it has an id, to a fresh writer,
      then closing it: the writer's error as it stood before the close,
      and all the text written. */
  function Report(c: Container, flags: Flags, render: Renderer<Container>): (r: (Result<()>, string))
    ensures c.id == "" ==> r == (Ok(()), Close(NewWriter(StatusColumns, flags), render).0.out)
    ensures c.id != "" ==> (r.0.Ok? <==> Write(NewWriter(StatusColumns, flags), c, render).err.None?)
  {
    var w := NewWriter(StatusColumns, flags);
    var w' := if c.id != "" then Write(w, c, render) else w;
    var result := if w'.err.Some? then Err(w'.err.value) else Ok(());
    (result, Close(w', render).0.out)
  }

  /** `cube server status`: looks the api-server up, writes it when one
      was found (a container with an id), and returns the writer's error
      as it stood before the deferred close, so an error from the close
      itself is lost. */
  function ServerStatus(st: State, env: Env, host: Host, flags: Flags, render: Renderer<Container>): (o: StatusOutcome)
    ensures o.effect.state == st
    ensures Connect(host).Err? ==> o == StatusOutcome(Effect(st, [], Err(Connect(host).error)), "")
    ensures Connect(host).Ok? ==> o.effect.calls == [ContainerList(true)]
    ensures Connect(host).Ok? && env.fail(ContainerList(true)).Some? ==>
      o.effect.result == Err(env.fail(ContainerList(true)).value) && o.text == ""
    ensures Connect(host).Ok? && env.fail(ContainerList(true)).None? ==>
      var m := FirstMatch(st.containers, APIServerContainerName, Substring);
      var c := if m.Some? then st.containers[m.value] else EmptyContainer;
      o == StatusOutcome(Effect(st, [ContainerList(true)], Report(c, flags, render).0), Report(c, flags, render).1)
  {
    match Connect(host)
    case Err(e) => StatusOutcome(Effect(st, [], Err(e)), "")
    case Ok(_) =>
      var found := StatusContainer(st, env, APIServerContainerName);
      match found.result
      case Err(e) => StatusOutcome(Effect(st, found.calls, Err(e)), "")
      case Ok(c) =>
        var (result, text) := Report(c, flags, render);
        StatusOutcome(Effect(st, found.calls, result), text)
  }

  /** Nothing found: the status succeeds and prints only what the close
      prints, the header of the default listing. */
  lemma {:induction false} StatusHeaderOnly(render: Renderer<Container>)
    requires var w := NewWriter(StatusColumns, Flags(false, "", false));
      render.header(w.funcs, w.headerFormat).Ok?
    ensures var w := NewWriter(StatusColumns, Flags(false, "", false));
      Report(EmptyContainer, Flags(false, "", false), render) ==
        (Ok(()), render.header(w.funcs, w.headerFormat).value)
  {
    StatusHeaderNonEmpty();
  }

  /** A failed flush on close does not reach the caller: a container
      written cleanly reports success whatever the close returns. */
  lemma {:induction false} StatusIgnoresCloseError(c: Container, flags: Flags, render: Renderer<Container>)
    requires c.id != "" && render.flush.Some?
    requires Write(NewWriter(StatusColumns, flags), c, render).err.None?
    ensures Report(c, flags, render).0 == Ok(())
  {
  }

  /** With the default flags the status text is the header followed by
      the server's row. */
  lemma {:induction false} StatusHeaderThenRow(c: Container, render: Renderer<Container>)
    requires c.id != ""
    requires var w := NewWriter(StatusColumns, Flags(false, "", false));
      render.header(w.funcs, w.headerFormat).Ok? && ValueText(w, c, render).Ok?
    ensures var w := NewWriter(StatusColumns, Flags(false, "", false));
      Report(c, Flags(false, "", false), render).1 ==
        render.header(w.funcs, w.headerFormat).value + ValueText(w, c, render).value
  {
    StatusHeaderNonEmpty();
    ReportHeaderThenRow(c, Flags(false, "", false), render);
  }

  /** Whenever the listing has a header, a found container's report is
      that header followed by the container's row. */
  lemma {:induction false} ReportHeaderThenRow(c: Container, flags: Flags, render: Renderer<Container>)
    requires c.id != ""
    requires var w := NewWriter(StatusColumns, flags);
      w.headerFormat != "" && render.header(w.funcs, w.headerFormat).Ok? && ValueText(w, c, render).Ok?
    ensures var w := NewWriter(StatusColumns, flags);
      Report(c, flags, render).1 == render.header(w.funcs, w.headerFormat).value + ValueText(w, c, render).value
  {
    var w := NewWriter(StatusColumns, flags);
    ReportText(c, flags, render);
    HeaderThenOneRecord(w, c, render);
    assert w.out == "";
    Strings.ConcatAssoc(w.out, render.header(w.funcs, w.headerFormat).value, ValueText(w, c, render).value);
  }

  /** What a found container's report prints: the text of the writer that
      recorded it, once closed. */
  lemma {:induction false} ReportText(c: Container, flags: Flags, render: Renderer<Container>)
    requires c.id != ""
    ensures Report(c, flags, render).1 == Close(Write(NewWriter(StatusColumns, flags), c, render), render).0.out
  {
  }

  /** The container listens on the port it exposes, and that port is the
      one published on the host at the requested port. */
  lemma {:induction false} ServerPublishesListenPort(port: string)
    ensures ServerConfig().cmd[1] == "--listen-addr=0.0.0.0:" + ListenPort
    ensures ServerConfig().exposedPorts == ServerHostConfig(port).portBindings.Keys
    ensures ServerHostConfig(port).portBindings[ListenPort + "/tcp"] == [PortBinding("0.0.0.0", port + "/tcp")]
  {
  }

  /** Running the server twice: when the first run creates the
      container, the second only lists and restarts it. */
  lemma {:induction false} ServerRunTwiceRestarts(st: State, env: Env, host: Host, port: string, configLocation: string)
    requires RunPreflight(host, configLocation).Ok? && env.newId != ""
    requires FirstMatch(st.containers, APIServerContainerName, SharedChar).None?
    requires ServerRun(st, env, host, port, configLocation).result.Ok?
    ensures var st' := ServerRun(st, env, host, port, configLocation).state;
      ServerRun(st', env, host, port, configLocation).calls ==
        [ContainerList(true), ContainerRestart(env.newId, ContainerDefaultTimeout)]
  {
    LifecycleProps.CreateThenRestarts(st, env, ServerConfig(), ServerHostConfig(port), None, APIServerContainerName);
  }

  /** The default status header is not empty, so it is printed. */
  lemma {:induction false} StatusHeaderNonEmpty()
    ensures NewWriter(StatusColumns, Flags(false, "", false)).headerFormat != ""
  {
    var w := NewWriter(StatusColumns, Flags(false, "", false));
    assert Titles(StatusColumns)[0] == "CONTAINER ID";
    assert DropLeadingEmpty(Titles(StatusColumns)) == Titles(StatusColumns);
    Strings.JoinCoversFirst(Titles(StatusColumns), "\t");
  }

  /** A successful `server rm` takes out the api-server container the
      lookup found and nothing else. */
  lemma {:induction false} ServerRmRemovesOne(st: State, env: Env, host: Host)
    requires WellFormed(st) && Connect(host).Ok?
    requires TargetId(st.containers, APIServerContainerName).Some?
    requires ServerRm(st, env, host).result.Ok?
    ensures var i := FirstMatch(st.containers, APIServerContainerName, SharedChar).value;
      ServerRm(st, env, host).state.containers == st.containers[..i] + st.containers[i + 1..]
  {
    LifecycleProps.RemoveDropsTarget(st, env, APIServerContainerName);
  }

  /** Running `server stop` a second time changes nothing more. */
  lemma {:induction false} ServerStopTwiceIsNoop(st: State, env: Env, host: Host)
    requires ServerStop(st, env, host).result.Ok?
    ensures var st' := ServerStop(st, env, host).state;
      ServerStop(st', env, host).result.Ok? ==> ServerStop(st', env, host).state == st'
  {
    if Connect(host).Ok? {
      LifecycleProps.StopTwiceIsNoop(st, env, APIServerContainerName);
    }
  }
}

=== FILE: strings.dfy ===
/** The handful of Go `strings` functions the program relies on, over
    `seq<char>`. Go works on UTF-8 bytes; every string the model feeds
    through these functions is treated as one element per character. */
module Strings {
  import opened Results

  /** `strings.HasPrefix`. */
  predicate HasPrefix(s: string, prefix: string) {
    |prefix| <= |s| && s[..|prefix|] == prefix
  }

  /** A prefix of a text is a prefix of anything that extends it. */
  lemma {:induction false} PrefixExtends(s: string, t: string, prefix: string)
    requires HasPrefix(s, prefix)
    ensures HasPrefix(s + t, prefix)
  {
    assert (s + t)[..|prefix|] == s[..|prefix|];
  }

  /** `sub` sits in `s` starting at position `i`. */
  predicate OccursAt(s: string, sub: string, i: int) {
    0 <= i && i + |sub| <= |s| && s[i..i + |sub|] == sub
  }

  /** `strings.Contains`: a left-to-right scan for a substring. The empty
      string occurs in every string. */
  function Contains(s: string, sub: string): (b: bool)
    ensures b <==> exists i :: OccursAt(s, sub, i)
    decreases |s|
  {
    if |sub| > |s| then
      false
    else if s[..|sub|] == sub then
      assert OccursAt(s, sub, 0);
      true
    else
      var rest := Contains(s[1..], sub);
      assert rest ==> exists i :: OccursAt(s, sub, i) by {
        if rest {
          var i :| OccursAt(s[1..], sub, i);
          assert s[1..][i..i + |sub|] == s[i + 1..i + 1 + |sub|];
          assert OccursAt(s, sub, i + 1);
        }
      }
      assert (exists i :: OccursAt(s, sub, i)) ==> rest by {
        if exists i :: OccursAt(s, sub, i) {
          var i :| OccursAt(s, sub, i);
          assert i != 0;
          assert s[1..][i - 1..i - 1 + |sub|] == s[i..i + |sub|];
          assert OccursAt(s[1..], sub, i - 1);
        }
      }
      rest
  }

  /** `strings.ContainsAny`: some character of `chars` occurs in `s`. */
  predicate ContainsAny(s: string, chars: string) {
    exists i | 0 <= i < |s| :: s[i] in chars
  }

  /** Sharing a character does not depend on the order of the arguments, and
      the empty string shares nothing. */
  lemma {:induction false} ContainsAnySymmetric(s: string, t: string)
    ensures ContainsAny(s, t) <==> ContainsAny(t, s)
    ensures !ContainsAny(s, "") && !ContainsAny("", s)
  {
    if ContainsAny(s, t) {
      var i :| 0 <= i < |s| && s[i] in t;
      var j :| 0 <= j < |t| && t[j] == s[i];
      assert t[j] in s;
    }
    if ContainsAny(t, s) {
      var i :| 0 <= i < |t| && t[i] in s;
      var j :| 0 <= j < |s| && s[j] == t[i];
      assert s[j] in t;
    }
  }

  /** A non-empty substring shares all of its characters with the string,
      so substring containment is the stronger of the two tests. */
  lemma {:induction false} ContainsImpliesContainsAny(s: string, sub: string)
    requires sub != "" && Contains(s, sub)
    ensures ContainsAny(s, sub)
  {
    var i :| OccursAt(s, sub, i);
    assert s[i] == s[i..i + |sub|][0] == sub[0];
    assert s[i] in sub;
  }

  /** The first position of `c` in `s`, as Go's `strings.Index` with a
      one-character separator finds it. */
  function IndexOfChar(s: string, c: char): (r: Option<nat>)
    ensures r.Some? ==> r.value < |s| && s[r.value] == c
    ensures r.Some? ==> forall j | 0 <= j < r.value :: s[j] != c
    ensures r.Some? ==> c !in s[..r.value]
    ensures r.None? <==> c !in s
  {
    if |s| == 0 then None
    else if s[0] == c then Some(0)
    else
      match IndexOfChar(s[1..], c)
      case None => assert s == [s[0]] + s[1..]; None
      case Some(i) => assert s[..i + 1] == [s[0]] + s[1..][..i]; Some(i + 1)
  }

  /** `strings.Split` with a one-character separator: the pieces between the
      separators, always at least one. */
  function Split(s: string, sep: char): (parts: seq<string>)
    ensures |parts| >= 1
    decreases |s|
  {
    match IndexOfChar(s, sep)
    case None => [s]
    case Some(i) => [s[..i]] + Split(s[i + 1..], sep)
  }

  /** `strings.SplitN` with a one-character separator and `n > 0`: at most `n`
      pieces, the last of which is the unsplit remainder. */
  function SplitN(s: string, sep: char, n: nat): (parts: seq<string>)
    requires n >= 1
    ensures 1 <= |parts| <= n
    decreases n
  {
    if n == 1 then [s]
    else
      match IndexOfChar(s, sep)
      case None => [s]
      case Some(i) => [s[..i]] + SplitN(s[i + 1..], sep, n - 1)
  }

  /** `strings.Join`. */
  function Join(parts: seq<string>, sep: string): string {
    if |parts| == 0 then ""
    else if |parts| == 1 then parts[0]
    else parts[0] + sep + Join(parts[1..], sep)
  }

  /** Splitting and joining back with the same separator gives the input:
      splitting loses nothing. */
  lemma {:induction false} JoinSplit(s: string, sep: char)
    ensures Join(Split(s, sep), [sep]) == s
    decreases |s|
  {
    match IndexOfChar(s, sep)
    case None =>
    case Some(i) =>
      var rest := Split(s[i + 1..], sep);
      JoinSplit(s[i + 1..], sep);
      assert Split(s, sep) == [s[..i]] + rest;
      assert s == s[..i] + [sep] + s[i + 1..];
  }

  /** No piece produced by `Split` contains the separator. */
  lemma {:induction false} SplitPiecesFree(s: string, sep: char)
    ensures forall k | 0 <= k < |Split(s, sep)| :: sep !in Split(s, sep)[k]
    decreases |s|
  {
    match IndexOfChar(s, sep)
    case None =>
    case Some(i) =>
      SplitPiecesFree(s[i + 1..], sep);
      var rest := Split(s[i + 1..], sep);
      assert Split(s, sep) == [s[..i]] + rest;
      assert sep !in s[..i] by {
        forall j | 0 <= j < i ensures s[..i][j] != sep {
        }
      }
  }

  /** Joining pieces free of the separator and splitting again gives the
      pieces back: `Split` is the inverse of `Join`. */
  lemma {:induction false} SplitJoin(parts: seq<string>, sep: char)
    requires |parts| >= 1
    requires forall k | 0 <= k < |parts| :: sep !in parts[k]
    ensures Split(Join(parts, [sep]), sep) == parts
    decreases |parts|
  {
    if |parts| == 1 {
      assert IndexOfChar(parts[0], sep).None?;
    } else {
      var tail := Join(parts[1..], [sep]);
      assert Join(parts, [sep]) == parts[0] + [sep] + tail;
      SplitAfterPiece(parts[0], tail, sep);
      assert forall k | 0 <= k < |parts[1..]| :: sep !in parts[1..][k] by {
        forall k | 0 <= k < |parts[1..]| ensures sep !in parts[1..][k] { assert parts[1..][k] == parts[k + 1]; }
      }
      SplitJoin(parts[1..], sep);
      HeadThenTail(parts);
    }
  }

  /** A separator-free piece and the separator in front of a rest split
      off as the first piece. */
  lemma {:induction false} SplitAfterPiece(a: string, rest: string, sep: char)
    requires sep !in a
    ensures Split(a + [sep] + rest, sep) == [a] + Split(rest, sep)
  {
    CutAfterPiece(a, rest, sep);
  }

  /** Splitting two texts joined by the separator gives the pieces of the
      first followed by the pieces of the second. */
  lemma {:induction false} SplitAcross(a: string, b: string, sep: char)
    ensures Split(a + [sep] + b, sep) == Split(a, sep) + Split(b, sep)
    decreases |a|
  {
    match IndexOfChar(a, sep)
    case None =>
      assert Split(a, sep) == [a];
      SplitAfterPiece(a, b, sep);
    case Some(i) =>
      var head, rest := a[..i], a[i + 1..];
      assert a == head + [sep] + rest;
      SplitAcross(rest, b, sep);
      SplitAcrossAt(head, rest, b, sep);
  }

  /** The step of `SplitAcross`: a first piece free of the separator comes
      off both sides alike. */
  lemma {:induction false} SplitAcrossAt(head: string, rest: string, b: string, sep: char)
    requires sep !in head
    requires Split(rest + [sep] + b, sep) == Split(rest, sep) + Split(b, sep)
    ensures Split(head + [sep] + rest + [sep] + b, sep) == Split(head + [sep] + rest, sep) + Split(b, sep)
  {
    Regroup(head, rest, b, sep);
    SplitAfterPiece(head, rest, sep);
    SplitAfterPiece(head, rest + [sep] + b, sep);
    ConcatAssoc([head], Split(rest, sep), Split(b, sep));
  }

  /** Three texts joined by a separator group either way. */
  lemma {:induction false} Regroup(head: string, rest: string, b: string, sep: char)
    ensures head + [sep] + rest + [sep] + b == head + [sep] + (rest + [sep] + b)
  {
  }

  /** Concatenation is associative. */
  lemma {:induction false} ConcatAssoc<T>(a: seq<T>, b: seq<T>, c: seq<T>)
    ensures a + b + c == a + (b + c)
  {
  }

  /** A non-empty sequence is its head followed by its tail. */
  lemma {:induction false} HeadThenTail<T>(xs: seq<T>)
    requires |xs| >= 1
    ensures xs == [xs[0]] + xs[1..]
  {
  }

  /** `SplitN(s, sep, 3)` yields three pieces exactly when `sep` occurs at
      least twice. */
  lemma {:induction false} SplitNThreeCount(s: string, sep: char)
    ensures |SplitN(s, sep, 3)| == 3 <==>
      exists i, j :: 0 <= i < j < |s| && s[i] == sep && s[j] == sep
  {
    match IndexOfChar(s, sep)
    case None =>
    case Some(i) =>
      var t := s[i + 1..];
      assert SplitN(s, sep, 3) == [s[..i]] + SplitN(t, sep, 2);
      match IndexOfChar(t, sep)
      case None =>
      case Some(j) =>
        assert s[i + 1 + j] == t[j];
  }

  /** When `SplitN(s, sep, 3)` has three pieces, the first two are free of
      `sep` and the pieces with two separators rebuild `s`. */
  lemma {:induction false} SplitNThreeShape(s: string, sep: char)
    requires |SplitN(s, sep, 3)| == 3
    ensures var p := SplitN(s, sep, 3);
      s == p[0] + [sep] + p[1] + [sep] + p[2]
  {
    var i, j := SplitNThreeParts(s, sep);
    CutTwice(s, sep, i, j);
  }

  /** Cutting `s` at separator position `i`, and the rest at separator
      position `j`, loses nothing. */
  lemma {:induction false} CutTwice(s: string, sep: char, i: nat, j: nat)
    requires i < |s| && s[i] == sep
    requires j < |s[i + 1..]| && s[i + 1..][j] == sep
    ensures s == s[..i] + [sep] + s[i + 1..][..j] + [sep] + s[i + 1..][j + 1..]
  {
    var t := s[i + 1..];
    assert t == t[..j] + [sep] + t[j + 1..];
    assert s == s[..i] + [sep] + t;
  }

  /** The first two pieces of a three-way `SplitN` hold no separator. */
  lemma {:induction false} SplitNThreeFree(s: string, sep: char)
    requires |SplitN(s, sep, 3)| == 3
    ensures sep !in SplitN(s, sep, 3)[0] && sep !in SplitN(s, sep, 3)[1]
  {
    var i, j := SplitNThreeParts(s, sep);
    assert IndexOfChar(s, sep) == Some(i);
    assert IndexOfChar(s[i + 1..], sep) == Some(j);
  }

  /** The three pieces of `SplitN(s, sep, 3)` in terms of the first two
      separator positions: `i` in `s`, then `j` in what follows it. */
  lemma {:induction false} SplitNThreeParts(s: string, sep: char) returns (i: nat, j: nat)
    requires |SplitN(s, sep, 3)| == 3
    ensures IndexOfChar(s, sep) == Some(i)
    ensures i < |s| && s[i] == sep
    ensures IndexOfChar(s[i + 1..], sep) == Some(j)
    ensures j < |s[i + 1..]| && s[i + 1..][j] == sep
    ensures SplitN(s, sep, 3) == [s[..i], s[i + 1..][..j], s[i + 1..][j + 1..]]
  {
    assert IndexOfChar(s, sep).Some?;
    i := IndexOfChar(s, sep).value;
    var t := s[i + 1..];
    SplitNThreeCons(s, sep, i);
    assert |SplitN(t, sep, 2)| == 2;
    assert IndexOfChar(t, sep).Some?;
    j := IndexOfChar(t, sep).value;
    SplitNTwoCons(t, sep, j);
  }

  /** The first step of `SplitN` into three: the text before the first
      separator, then the split of the rest into two. */
  lemma {:induction false} SplitNThreeCons(s: string, sep: char, i: nat)
    requires IndexOfChar(s, sep) == Some(i)
    ensures i < |s| && SplitN(s, sep, 3) == [s[..i]] + SplitN(s[i + 1..], sep, 2)
  {
  }

  /** `SplitN` into two at the first separator: the text before it and
      everything after it. */
  lemma {:induction false} SplitNTwoCons(t: string, sep: char, j: nat)
    requires IndexOfChar(t, sep) == Some(j)
    ensures j < |t| && SplitN(t, sep, 2) == [t[..j], t[j + 1..]]
  {
    assert SplitN(t[j + 1..], sep, 1) == [t[j + 1..]];
  }

  /** A separator-free piece followed by the separator: the first
      separator is right after the piece. */
  lemma {:induction false} CutAfterPiece(a: string, rest: string, sep: char)
    requires sep !in a
    ensures var s := a + [sep] + rest;
      IndexOfChar(s, sep) == Some(|a|) && s[..|a|] == a && s[|a| + 1..] == rest
  {
    var s := a + [sep] + rest;
    assert s[..|a|] == a;
    assert s[|a| + 1..] == rest;
    forall j | 0 <= j < |a| ensures s[j] != sep {
      assert s[j] == a[j];
    }
    assert s[|a|] == sep;
    var r := IndexOfChar(s, sep);
    assert r.Some? by {
      assert sep in s;
    }
    assert r.value == |a| by {
      assert !(r.value < |a|);
      assert !(r.value > |a|);
    }
  }

  /** Two separator-free pieces, each followed by the separator, and a
      rest: `SplitN` into three gives exactly those. */
  lemma {:induction false} SplitNThreeOf(a: string, b: string, c: string, sep: char)
    requires sep !in a && sep !in b
    ensures SplitN(a + [sep] + b + [sep] + c, sep, 3) == [a, b, c]
  {
    var t := b + [sep] + c;
    var s := a + [sep] + t;
    assert SplitN(s, sep, 3) == [a, b, c] by {
      CutAfterPiece(a, t, sep);
      CutAfterPiece(b, c, sep);
      SplitNThreeAt(s, sep, |a|, |b|);
    }
    assert a + [sep] + b + [sep] + c == s;
  }

  /** `SplitN` into three, given the first separator and the first one
      after it. */
  lemma {:induction false} SplitNThreeAt(s: string, sep: char, i: nat, j: nat)
    requires IndexOfChar(s, sep) == Some(i)
    requires IndexOfChar(s[i + 1..], sep) == Some(j)
    ensures SplitN(s, sep, 3) == [s[..i], s[i + 1..][..j], s[i + 1..][j + 1..]]
  {
    SplitNThreeCons(s, sep, i);
    SplitNTwoCons(s[i + 1..], sep, j);
  }

  /** Joining one more piece adds the separator and the piece, except
      after nothing. */
  lemma {:induction false} JoinSnoc(xs: seq<string>, x: string, sep: string)
    ensures Join(xs + [x], sep) == if |xs| == 0 then x else Join(xs, sep) + sep + x
    decreases |xs|
  {
    if |xs| == 1 {
      assert (xs + [x])[1..] == [x];
    } else if |xs| > 1 {
      assert (xs + [x])[1..] == xs[1..] + [x];
      JoinSnoc(xs[1..], x, sep);
    }
  }

  /** A join is at least as long as its first piece. */
  lemma {:induction false} JoinCoversFirst(xs: seq<string>, sep: string)
    requires |xs| > 0
    ensures |Join(xs, sep)| >= |xs[0]|
  {
  }

  /** A join begins with its first piece. */
  lemma {:induction false} JoinStarts(xs: seq<string>, sep: string)
    requires |xs| > 0
    ensures HasPrefix(Join(xs, sep), xs[0])
  {
    if |xs| > 1 {
      assert Join(xs, sep) == xs[0] + (sep + Join(xs[1..], sep));
    }
  }
}

=== FILE: table_format.dfy ===
/** Building the output templates and rendering container fields for the
    tables (cmd/pkg/table/fmt.go and the field formatters of
    cmd/pkg/table/server_writer.go). */
module TableFormat {
  import opened Results
  import opened Strings
  import opened Engine
  import Decimal

  /** One table column: its header title and its value, either a template
      ("{{.ID | id}}") or a bare field name ("Address"). */
  datatype Column = Column(title: string, value: string)

  function Titles(values: seq<Column>): (r: seq<string>)
    ensures |r| == |values| && forall k | 0 <= k < |values| :: r[k] == values[k].title
  {
    seq(|values|, k requires 0 <= k < |values| => values[k].title)
  }

  /** A value that holds "{{" is a template already; a bare field name is
      wrapped into one. */
  function Cell(value: string): (r: string)
    ensures Contains(value, "{{") ==> r == value
    ensures !Contains(value, "{{") ==> r == "{{." + value + "}}"
  {
    if Contains(value, "{{") then value else "{{." + value + "}}"
  }

  function Cells(values: seq<Column>): (r: seq<string>)
    ensures |r| == |values| && forall k | 0 <= k < |values| :: r[k] == Cell(values[k].value)
  {
    seq(|values|, k requires 0 <= k < |values| => Cell(values[k].value))
  }

  /** A cell is never empty: a template has "{{", a wrapped name is at
      least "{{.}}". */
  lemma {:induction false} CellNonEmpty(value: string)
    ensures Cell(value) != ""
  {
    if Contains(value, "{{") {
      var i :| OccursAt(value, "{{", i);
    }
  }

  /** The titles without the empty ones in front. */
  function DropLeadingEmpty(ts: seq<string>): (r: seq<string>)
    ensures |r| <= |ts| && r == ts[|ts| - |r|..]
    ensures forall k | 0 <= k < |ts| - |r| :: ts[k] == ""
    ensures |r| > 0 ==> r[0] != ""
    decreases |ts|
  {
    if |ts| == 0 then []
    else if ts[0] == "" then DropLeadingEmpty(ts[1..])
    else ts
  }

  /** The tab separator goes in only once the buffer holds something. */
  function AppendTabDelim(buf: string, value: string): (r: string)
    ensures |buf| == 0 ==> r == value
    // after something, the value's fields follow the buffer's fields
    ensures |buf| > 0 ==> Split(r, '\t') == Split(buf, '\t') + Split(value, '\t')
    ensures |r| == |buf| + |value| + (if |buf| == 0 then 0 else 1)
  {
    if |buf| == 0 then value
    else
      SplitAcross(buf, value, '\t');
      buf + "\t" + value
  }

  /** Dropping leading empty titles commutes with adding one at the end. */
  lemma {:induction false} DropLeadingEmptySnoc(ts: seq<string>, t: string)
    ensures DropLeadingEmpty(ts + [t]) ==
      if |DropLeadingEmpty(ts)| == 0 then (if t == "" then [] else [t]) else DropLeadingEmpty(ts) + [t]
    decreases |ts|
  {
    if |ts| > 0 {
      assert (ts + [t])[1..] == ts[1..] + [t];
      DropLeadingEmptySnoc(ts[1..], t);
    }
  }

  /** The two buffers after the loop over the columns. */
  function Buffers(values: seq<Column>): (r: (string, string))
    ensures r.0 == Join(DropLeadingEmpty(Titles(values)), "\t")
    ensures r.1 == Join(Cells(values), "\t")
    decreases |values|
  {
    if |values| == 0 then ("", "")
    else
      var n := |values| - 1;
      var prior := Buffers(values[..n]);
      BufferLast(values);
      (AppendTabDelim(prior.0, values[n].title), AppendTabDelim(prior.1, Cell(values[n].value)))
  }

  /** The step of `BufferStep`, stated for the last column of a table. */
  lemma {:induction false} BufferLast(values: seq<Column>)
    requires |values| > 0
    ensures var n := |values| - 1;
      AppendTabDelim(Join(DropLeadingEmpty(Titles(values[..n])), "\t"), values[n].title) ==
        Join(DropLeadingEmpty(Titles(values)), "\t")
    ensures var n := |values| - 1;
      AppendTabDelim(Join(Cells(values[..n]), "\t"), Cell(values[n].value)) == Join(Cells(values), "\t")
  {
    var n := |values| - 1;
    assert values == values[..n] + [values[n]];
    BufferStep(values[..n], values[n]);
  }

  /** One turn of the loop: appending a column's title and cell to the
      buffers built so far gives the buffers of the longer table. */
  lemma {:induction false} BufferStep(init: seq<Column>, last: Column)
    ensures AppendTabDelim(Join(DropLeadingEmpty(Titles(init)), "\t"), last.title) ==
            Join(DropLeadingEmpty(Titles(init + [last])), "\t")
    ensures AppendTabDelim(Join(Cells(init), "\t"), Cell(last.value)) == Join(Cells(init + [last]), "\t")
  {
    assert Titles(init + [last]) == Titles(init) + [last.title];
    assert Cells(init + [last]) == Cells(init) + [Cell(last.value)];
    DropLeadingEmptySnoc(Titles(init), last.title);
    var d := DropLeadingEmpty(Titles(init));
    JoinSnoc(d, last.title, "\t");
    if |d| > 0 {
      JoinCoversFirst(d, "\t");
    }
    JoinSnoc(Cells(init), Cell(last.value), "\t");
    if |init| > 0 {
      JoinCoversFirst(Cells(init), "\t");
      CellNonEmpty(init[0].value);
    }
  }

  /** The header and value templates of a table: the titles and the cells,
      each tab-separated and newline-terminated, with empty titles in front
      dropped because no tab goes into an empty buffer. */
  function SimpleFormat(values: seq<Column>): (r: (string, string))
    ensures r.0 == Join(DropLeadingEmpty(Titles(values)), "\t") + "\n"
    ensures r.1 == Join(Cells(values), "\t") + "\n"
  {
    var b := Buffers(values);
    (b.0 + "\n", b.1 + "\n")
  }

  /** Splitting a template line at the tabs gives the columns back, when
      no title or cell holds a tab and the first title is not empty. */
  lemma {:induction false} SimpleFormatSplits(values: seq<Column>)
    requires |values| > 0 && values[0].title != ""
    requires forall k | 0 <= k < |values| :: '\t' !in values[k].title && '\t' !in Cell(values[k].value)
    ensures var r := SimpleFormat(values);
      && Split(r.0[..|r.0| - 1], '\t') == Titles(values)
      && Split(r.1[..|r.1| - 1], '\t') == Cells(values)
  {
    var r := SimpleFormat(values);
    assert DropLeadingEmpty(Titles(values)) == Titles(values);
    assert r.0[..|r.0| - 1] == Join(Titles(values), "\t");
    assert r.1[..|r.1| - 1] == Join(Cells(values), "\t");
    SplitJoin(Titles(values), '\t');
    SplitJoin(Cells(values), '\t');
  }

  /** A table without columns has an empty header line and an empty value
      line. */
  lemma {:induction false} NoColumnsEmptyLines()
    ensures SimpleFormat([]).0 == "\n" && SimpleFormat([]).1 == "\n"
  {
    var none: seq<Column> := [];
    assert Titles(none) == [] && Cells(none) == [];
    assert DropLeadingEmpty([]) == [];
    var r := SimpleFormat(none);
    assert r.0 == Join([], "\t") + "\n";
    assert r.1 == Join([], "\t") + "\n";
  }

  /** An interface value as the formatters receive it: a string, or
      something else. */
  datatype Dynamic = DString(s: string) | DOther

  /** The first `limit` characters, or all of a shorter string. */
  function Truncate(s: string, limit: nat): (r: string)
    ensures |r| == if |s| > limit then limit else |s|
    ensures r == s[..|r|]
  {
    if |s| > limit then s[..limit] else s
  }

  /** Container ids are shown as their first twelve characters; anything
      but a string shows as empty. */
  function FormatContainerID(data: Dynamic): (r: string)
    ensures data.DOther? ==> r == ""
    ensures data.DString? ==> |r| <= 12 && |r| <= |data.s| && r == data.s[..|r|]
    ensures data.DString? && |data.s| <= 12 ==> r == data.s
    ensures data.DString? && |data.s| > 12 ==> |r| == 12
  {
    match data
    case DString(s) => Truncate(s, 12)
    case DOther => ""
  }

  /** Commands are shown as their first twenty-five characters. */
  function FormatContainerCommand(data: Dynamic): (r: string)
    ensures data.DOther? ==> r == ""
    ensures data.DString? ==> |r| <= 25 && |r| <= |data.s| && r == data.s[..|r|]
    ensures data.DString? && |data.s| <= 25 ==> r == data.s
    ensures data.DString? && |data.s| > 25 ==> |r| == 25
  {
    match data
    case DString(s) => Truncate(s, 25)
    case DOther => ""
  }

  /** Truncating is idempotent: a shown id or command shows as itself. */
  lemma {:induction false} TruncateIdempotent(data: Dynamic)
    ensures FormatContainerID(DString(FormatContainerID(data))) == FormatContainerID(data)
    ensures FormatContainerCommand(DString(FormatContainerCommand(data))) == FormatContainerCommand(data)
  {
  }

  /** The engine's names ("/cube-apiserver") without their leading slash,
      separated by single spaces. The program slices off the first byte of
      every name, so an empty name is outside what it can render. */
  function FormatContainerName(names: seq<string>): (r: string)
    requires forall k | 0 <= k < |names| :: |names[k]| > 0
    ensures |names| == 0 ==> r == ""
    decreases |names|
  {
    if |names| == 0 then ""
    else
      var n := |names| - 1;
      var prior := FormatContainerName(names[..n]);
      if n == 0 then names[n][1..] else prior + " " + names[n][1..]
  }

  function Unslashed(names: seq<string>): (r: seq<string>)
    requires forall k | 0 <= k < |names| :: |names[k]| > 0
    ensures |r| == |names| && forall k | 0 <= k < |names| :: r[k] == names[k][1..]
  {
    seq(|names|, k requires 0 <= k < |names| => names[k][1..])
  }

  /** The rendering is the names without their slashes, joined by spaces;
      names without spaces split back apart. */
  lemma {:induction false} FormatContainerNameJoins(names: seq<string>)
    requires forall k | 0 <= k < |names| :: |names[k]| > 0
    ensures FormatContainerName(names) == Join(Unslashed(names), " ")
    decreases |names|
  {
    if |names| > 0 {
      var n := |names| - 1;
      FormatContainerNameJoins(names[..n]);
      assert Unslashed(names) == Unslashed(names[..n]) + [names[n][1..]];
      JoinSnoc(Unslashed(names[..n]), names[n][1..], " ");
    }
  }

  lemma {:induction false} FormatContainerNameSplits(names: seq<string>)
    requires |names| > 0
    requires forall k | 0 <= k < |names| :: |names[k]| > 0 && ' ' !in names[k][1..]
    ensures Split(FormatContainerName(names), ' ') == Unslashed(names)
  {
    FormatContainerNameJoins(names);
    SplitJoin(Unslashed(names), ' ');
  }

  /** One published port: "IP:public->private/type". */
  function PortText(p: Port): string {
    p.ip + ":" + Decimal.Itoa(p.publicPort as nat) + "->" + Decimal.Itoa(p.privatePort as nat) + "/" + p.portType
  }

  /** The published ports, separated by single spaces: the first port's
      text alone, every later one behind a space; none shows as empty. */
  function FormatContainerPort(ports: seq<Port>): (r: string)
    ensures |ports| == 0 ==> r == ""
    ensures r == Join(PortTexts(ports), " ")
    decreases |ports|
  {
    if |ports| == 0 then ""
    else
      var n := |ports| - 1;
      PortTextsSnoc(ports);
      JoinSnoc(PortTexts(ports[..n]), PortText(ports[n]), " ");
      if n == 0 then PortText(ports[n]) else FormatContainerPort(ports[..n]) + " " + PortText(ports[n])
  }

  function PortTexts(ports: seq<Port>): (r: seq<string>)
    ensures |r| == |ports| && forall k | 0 <= k < |ports| :: r[k] == PortText(ports[k])
  {
    seq(|ports|, k requires 0 <= k < |ports| => PortText(ports[k]))
  }

  /** The texts of a non-empty port list: those of all but the last port,
      then the last port's. */
  lemma {:induction false} PortTextsSnoc(ports: seq<Port>)
    requires |ports| > 0
    ensures PortTexts(ports) == PortTexts(ports[..|ports| - 1]) + [PortText(ports[|ports| - 1])]
  {
    var n := |ports| - 1;
    var l, r := PortTexts(ports), PortTexts(ports[..n]) + [PortText(ports[n])];
    assert |l| == |r|;
    forall k | 0 <= k < |l| ensures l[k] == r[k] {
      if k < n {
        assert ports[..n][k] == ports[k];
      }
    }
  }

  /** A port text holds no space when its address and type hold none:
      the numbers are digits only. */
  lemma {:induction false} PortTextSpaceFree(p: Port)
    requires ' ' !in p.ip && ' ' !in p.portType
    ensures ' ' !in PortText(p)
  {
    var pub := Decimal.Itoa(p.publicPort as nat);
    var priv := Decimal.Itoa(p.privatePort as nat);
    assert ' ' !in pub by {
      forall k | 0 <= k < |pub| ensures pub[k] != ' ' { assert Decimal.IsDigit(pub[k]); }
    }
    assert ' ' !in priv by {
      forall k | 0 <= k < |priv| ensures priv[k] != ' ' { assert Decimal.IsDigit(priv[k]); }
    }
  }

  /** Each port is recoverable: splitting the rendering at spaces gives
      one text per port, in order. */
  lemma {:induction false} FormatContainerPortSplits(ports: seq<Port>)
    requires |ports| > 0
    requires forall k | 0 <= k < |ports| :: ' ' !in ports[k].ip && ' ' !in ports[k].portType
    ensures Split(FormatContainerPort(ports), ' ') == PortTexts(ports)
  {
    forall k | 0 <= k < |ports| ensures ' ' !in PortTexts(ports)[k] {
      PortTextSpaceFree(ports[k]);
    }
    SplitJoin(PortTexts(ports), ' ');
  }

  /** The public port number reads back from its text. */
  lemma {:induction false} PortNumbersReadBack(p: Port)
    ensures Decimal.Atoi(Decimal.Itoa(p.publicPort as nat)) == p.publicPort as nat
    ensures Decimal.Atoi(Decimal.Itoa(p.privatePort as nat)) == p.privatePort as nat
  {
    Decimal.AtoiItoa(p.publicPort as nat);
    Decimal.AtoiItoa(p.privatePort as nat);
  }

  /** `FormatJSON` and `FormatYAML`: the encoding followed by a newline;
      on an encoding error, the newline alone, with the error. */
  function FormatEncoded(encoded: Result<string>): (r: (string, Option<string>))
    ensures |r.0| >= 1 && r.0[|r.0| - 1] == '\n'
    ensures encoded.Ok? ==> r.0[..|r.0| - 1] == encoded.value && r.1 == None
    ensures encoded.Err? ==> r.0 == "\n" && r.1 == Some(encoded.error)
  {
    match encoded
    case Ok(text) => (text + "\n", None)
    case Err(e) => ("\n", Some(e))
  }
}

=== FILE: table_writer.dfy ===
/** The table writer shared by the server and node listings: option
    selection at construction (cmd/pkg/table/server_writer.go,
    cmd/pkg/table/node_writer.go) and the header/value state machine
    (cmd/pkg/table/writer.go; server_writer.go holds the same methods).
    Template parsing and execution, JSON and YAML encoding, and the final
    column alignment are outside the model and enter through a
    `Renderer`; the writer's text is what it hands to the aligner. */
module TableWriter {
  import opened Results
  import opened Strings
  import opened TableFormat

  /** The output flags of a listing: --quiet, --format and --ids. */
  datatype Flags = Flags(quiet: bool, format: string, ids: bool)

  /** The writer: its two templates, the sticky error, whether the header
      went out, the names of the template functions it registered, and
      the text written so far. */
  datatype Writer = Writer(
    headerFormat: string, valueFormat: string, err: Option<string>,
    headerPrinted: bool, funcs: set<string>, out: string)

  /** Rendering: the header template (executed on an empty record), the
      value template on a record, the JSON and YAML encodings of a record,
      each given the registered function names; and the aligner's flush
      at the end. */
  datatype Renderer<!T> = Renderer(
    header: (set<string>, string) -> Result<string>,
    value: (set<string>, string, T) -> Result<string>,
    json: T -> Result<string>,
    yaml: T -> Result<string>,
    flush: Option<string>)

  const IdsHeader: seq<Column> := [Column("ID", "ID")]
  const ServerFuncs: set<string> := {"id", "cmd", "port", "ago", "name", "json", "yaml"}
  const NodeFuncs: set<string> := {"json", "yaml"}

  /** The format flag overrides what the columns give: "json" and "yaml"
      select an encoding, anything else non-empty is a value template of
      its own; all three drop the header. */
  function ApplyFormat(header: string, value: string, format: string): (r: (string, string))
    ensures format != "" ==> r.0 == ""
    ensures format == "" ==> r == (header, value)
    ensures format == "json" || format == "yaml" ==> r.1 == format
    ensures format != "" && format != "json" && format != "yaml" ==> r.1 == format + "\n"
  {
    if format == "json" then ("", "json")
    else if format == "yaml" then ("", "yaml")
    else if format != "" then ("", format + "\n")
    else (header, value)
  }

  /** A server listing writer: with --ids an ID column goes first; --quiet
      shows the ids alone; --format overrides both. */
  function NewWriter(values: seq<Column>, flags: Flags): (w: Writer)
    ensures w.err.None? && !w.headerPrinted && w.out == "" && w.funcs == ServerFuncs
    ensures flags.format == "" && !flags.quiet ==>
      (w.headerFormat, w.valueFormat) == SimpleFormat(if flags.ids then IdsHeader + values else values)
    ensures flags.format == "" && flags.quiet ==> w.headerFormat == "" && w.valueFormat == "{{.ID}}\n"
    ensures flags.format != "" ==>
      (w.headerFormat, w.valueFormat) == ApplyFormat("", "", flags.format)
  {
    var columns := if flags.ids then IdsHeader + values else values;
    var (h, v) := SimpleFormat(columns);
    var (h', v') := if flags.quiet then ("", "{{.ID}}\n") else (h, v);
    var (h'', v'') := ApplyFormat(h', v', flags.format);
    Writer(h'', v'', None, false, ServerFuncs, "")
  }

  /** A node listing writer: no --ids or --quiet, only --format. */
  function NewNodeWriter(values: seq<Column>, format: string): (w: Writer)
    ensures w.err.None? && !w.headerPrinted && w.out == "" && w.funcs == NodeFuncs
    ensures format == "" ==> (w.headerFormat, w.valueFormat) == SimpleFormat(values)
    ensures format != "" ==> (w.headerFormat, w.valueFormat) == ApplyFormat("", "", format)
  {
    var (h, v) := SimpleFormat(values);
    var (h', v') := ApplyFormat(h, v, format);
    Writer(h', v', None, false, NodeFuncs, "")
  }

  /** Registering a template function under a name. The model keeps the
      names; which function a name is bound to is not modelled. */
  function AddFormatFunc(w: Writer, name: string): (w': Writer)
    ensures w'.funcs == w.funcs + {name}
    ensures w' == w.(funcs := w'.funcs)
  {
    w.(funcs := w.funcs + {name})
  }

  /** The header goes out once, before anything else, and only when there
      is one. */
  function WriteHeader<T>(w: Writer, r: Renderer<T>): (w': Writer)
    requires w.err.None?
    ensures w.headerPrinted || w.headerFormat == "" ==> w' == w
    ensures !w.headerPrinted && w.headerFormat != "" ==>
      && w'.headerPrinted
      && (r.header(w.funcs, w.headerFormat).Ok? ==> w' == w.(headerPrinted := true, out := w.out + r.header(w.funcs, w.headerFormat).value))
      && (r.header(w.funcs, w.headerFormat).Err? ==> w' == w.(headerPrinted := true, err := Some(r.header(w.funcs, w.headerFormat).error)))
  {
    if w.headerFormat != "" && !w.headerPrinted then
      match r.header(w.funcs, w.headerFormat)
      case Ok(text) => w.(headerPrinted := true, out := w.out + text)
      case Err(e) => w.(headerPrinted := true, err := Some(e))
    else w
  }

  /** The text one record adds in the writer's value format. */
  function ValueText<T>(w: Writer, obj: T, r: Renderer<T>): Result<string> {
    if w.valueFormat == "json" then
      match r.json(obj)
      case Ok(c) => Ok(c + "\n")
      case Err(e) => Err(e)
    else if w.valueFormat == "yaml" then
      match r.yaml(obj)
      case Ok(c) => Ok("---\n" + c + "\n")
      case Err(e) => Err(e)
    else r.value(w.funcs, w.valueFormat, obj)
  }

  /** Writing one record: nothing once an error is recorded; otherwise the
      header if it is still due, then the record, and the first failure
      becomes the writer's error. Text is only ever appended. */
  function Write<T>(w: Writer, obj: T, r: Renderer<T>): (w': Writer)
    ensures w.err.Some? ==> w' == w
    ensures |w.out| <= |w'.out| && w'.out[..|w.out|] == w.out
    ensures w'.headerPrinted == (w.headerPrinted || (w.err.None? && w.headerFormat != ""))
    ensures w'.headerFormat == w.headerFormat && w'.valueFormat == w.valueFormat && w'.funcs == w.funcs
    ensures w.err.None? && (w.headerPrinted || w.headerFormat == "") ==>
      (ValueText(w, obj, r).Ok? ==> w' == w.(out := w.out + ValueText(w, obj, r).value)) &&
      (ValueText(w, obj, r).Err? ==> w' == w.(err := Some(ValueText(w, obj, r).error)))
    ensures w.err.None? && !w.headerPrinted && w.headerFormat != "" && r.header(w.funcs, w.headerFormat).Err? ==>
      w' == w.(headerPrinted := true, err := Some(r.header(w.funcs, w.headerFormat).error))
    // a header still due goes out first, then the record or its render error
    ensures w.err.None? && !w.headerPrinted && w.headerFormat != "" && r.header(w.funcs, w.headerFormat).Ok? ==>
      var h := w.(headerPrinted := true, out := w.out + r.header(w.funcs, w.headerFormat).value);
      && (ValueText(h, obj, r).Ok? ==> w' == h.(out := h.out + ValueText(h, obj, r).value))
      && (ValueText(h, obj, r).Err? ==> w' == h.(err := Some(ValueText(h, obj, r).error)))
  {
    if w.err.Some? then w
    else
      var h := WriteHeader(w, r);
      if h.err.Some? then h
      else
        match ValueText(h, obj, r)
        case Ok(text) => h.(out := h.out + text)
        case Err(e) => h.(err := Some(e))
  }

  /** Closing: the recorded error if there is one; otherwise the header
      if it never went out (so an empty listing still has its header),
      then the aligner's flush result. */
  function Close<T>(w: Writer, r: Renderer<T>): (result: (Writer, Option<string>))
    ensures w.err.Some? ==> result == (w, w.err)
    ensures w.err.None? && (w.headerPrinted || w.headerFormat == "") ==> result == (w, r.flush)
    ensures |w.out| <= |result.0.out| && result.0.out[..|w.out|] == w.out
    ensures w.err.None? ==> result.0.headerPrinted == (w.headerPrinted || w.headerFormat != "")
    // a header still due is printed before the flush, and its render error replaces the flush result
    ensures w.err.None? && !w.headerPrinted && w.headerFormat != "" && r.header(w.funcs, w.headerFormat).Ok? ==>
      result == (w.(headerPrinted := true, out := w.out + r.header(w.funcs, w.headerFormat).value), r.flush)
    ensures w.err.None? && !w.headerPrinted && w.headerFormat != "" && r.header(w.funcs, w.headerFormat).Err? ==>
      result == (w.(headerPrinted := true, err := Some(r.header(w.funcs, w.headerFormat).error)),
                 Some(r.header(w.funcs, w.headerFormat).error))
  {
    if w.err.Some? then (w, w.err)
    else
      var h := WriteHeader(w, r);
      if h.err.Some? then (h, h.err) else (h, r.flush)
  }

  /** Writing records one after another. */
  function WriteAll<T>(w: Writer, objs: seq<T>, r: Renderer<T>): Writer
    decreases |objs|
  {
    if |objs| == 0 then w else WriteAll(Write(w, objs[0], r), objs[1..], r)
  }

  /** The texts of records that all render. */
  function Texts<T>(w: Writer, objs: seq<T>, r: Renderer<T>): string
    requires forall k | 0 <= k < |objs| :: ValueText(w, objs[k], r).Ok?
    decreases |objs|
  {
    if |objs| == 0 then "" else ValueText(w, objs[0], r).value + Texts(w, objs[1..], r)
  }

  /** An error sticks: further records and the close change nothing and
      report it. */
  lemma {:induction false} ErrorSticks<T>(w: Writer, objs: seq<T>, r: Renderer<T>)
    requires w.err.Some?
    ensures WriteAll(w, objs, r) == w
    ensures Close(WriteAll(w, objs, r), r) == (w, w.err)
    decreases |objs|
  {
    if |objs| > 0 {
      ErrorSticks(Write(w, objs[0], r), objs[1..], r);
    }
  }

  /** With the header out (or none), records that render are appended in
      order and nothing else is written. */
  lemma {:induction false} RecordsInOrder<T>(w: Writer, objs: seq<T>, r: Renderer<T>)
    requires w.err.None? && (w.headerPrinted || w.headerFormat == "")
    requires forall k | 0 <= k < |objs| :: ValueText(w, objs[k], r).Ok?
    ensures WriteAll(w, objs, r) == w.(out := w.out + Texts(w, objs, r))
    decreases |objs|
  {
    if |objs| > 0 {
      var first := ValueText(w, objs[0], r).value;
      var w1 := Write(w, objs[0], r);
      assert w1 == w.(out := w.out + first);
      var t := Texts(w, objs[1..], r);
      assert WriteAll(w1, objs[1..], r) == w1.(out := w1.out + t) by {
        assert forall k | 0 <= k < |objs[1..]| :: ValueText(w1, objs[1..][k], r) == ValueText(w, objs[k + 1], r);
        RecordsInOrder(w1, objs[1..], r);
        TextsSameFormats(w1, w, objs[1..], r);
      }
      assert WriteAll(w, objs, r) == WriteAll(w1, objs[1..], r);
      assert Texts(w, objs, r) == first + t;
      ConcatAssoc(w.out, first, t);
    }
  }

  /** The texts depend only on the formats and function names. */
  lemma {:induction false} TextsSameFormats<T>(a: Writer, b: Writer, objs: seq<T>, r: Renderer<T>)
    requires a.valueFormat == b.valueFormat && a.funcs == b.funcs
    requires forall k | 0 <= k < |objs| :: ValueText(a, objs[k], r).Ok?
    ensures forall k | 0 <= k < |objs| :: ValueText(b, objs[k], r) == ValueText(a, objs[k], r)
    ensures Texts(a, objs, r) == Texts(b, objs, r)
    decreases |objs|
  {
    if |objs| > 0 {
      TextsSameFormats(a, b, objs[1..], r);
    }
  }

  /** A fresh table writer prints its header exactly once, in front of
      the records, whether there are records or not, and closes with the
      aligner's result. */
  lemma {:induction false} HeaderOnceThenRecords<T>(w: Writer, objs: seq<T>, r: Renderer<T>)
    requires w.err.None? && !w.headerPrinted && w.out == "" && w.headerFormat != ""
    requires r.header(w.funcs, w.headerFormat).Ok?
    requires forall k | 0 <= k < |objs| :: ValueText(w, objs[k], r).Ok?
    ensures var done := Close(WriteAll(w, objs, r), r);
      done.0.out == r.header(w.funcs, w.headerFormat).value + Texts(w, objs, r) && done.1 == r.flush
  {
    if |objs| == 0 {
      assert WriteAll(w, objs, r) == w;
    } else {
      HeaderThenRecords(w, objs, r);
    }
  }

  /** The non-empty case: the first record brings the header out, and the
      rest follow in order. */
  lemma {:induction false} HeaderThenRecords<T>(w: Writer, objs: seq<T>, r: Renderer<T>)
    requires w.err.None? && !w.headerPrinted && w.out == "" && w.headerFormat != ""
    requires r.header(w.funcs, w.headerFormat).Ok?
    requires |objs| > 0 && forall k | 0 <= k < |objs| :: ValueText(w, objs[k], r).Ok?
    ensures WriteAll(w, objs, r) ==
      w.(headerPrinted := true, out := r.header(w.funcs, w.headerFormat).value + Texts(w, objs, r))
  {
    var h := r.header(w.funcs, w.headerFormat).value;
    var first := ValueText(w, objs[0], r).value;
    var rest := objs[1..];
    var w1 := Write(w, objs[0], r);
    assert w1 == w.(headerPrinted := true, out := h + first) by {
      ValueTextSameFormats(w, w.(headerPrinted := true, out := h), objs[0], r);
    }
    assert forall k | 0 <= k < |rest| :: ValueText(w, rest[k], r).Ok? by {
      forall k | 0 <= k < |rest| ensures ValueText(w, rest[k], r).Ok? { assert rest[k] == objs[k + 1]; }
    }
    var t := Texts(w, rest, r);
    assert WriteAll(w1, rest, r) == w1.(out := w1.out + t) by {
      TextsSameFormats(w, w1, rest, r);
      RecordsInOrder(w1, rest, r);
    }
    assert WriteAll(w, objs, r) == WriteAll(w1, rest, r);
    assert Texts(w, objs, r) == first + t;
    ConcatAssoc(h, first, t);
  }

  /** A fresh listing of one record that renders: the header, then the
      record, and the close adds nothing more. */
  lemma {:induction false} HeaderThenOneRecord<T>(w: Writer, obj: T, r: Renderer<T>)
    requires w.err.None? && !w.headerPrinted && w.headerFormat != ""
    requires r.header(w.funcs, w.headerFormat).Ok? && ValueText(w, obj, r).Ok?
    ensures Close(Write(w, obj, r), r).0.out ==
      w.out + r.header(w.funcs, w.headerFormat).value + ValueText(w, obj, r).value
  {
    var h := w.(headerPrinted := true, out := w.out + r.header(w.funcs, w.headerFormat).value);
    ValueTextSameFormats(w, h, obj, r);
  }

  /** A record's text depends only on the value format and the function
      names. */
  lemma {:induction false} ValueTextSameFormats<T>(a: Writer, b: Writer, obj: T, r: Renderer<T>)
    requires a.valueFormat == b.valueFormat && a.funcs == b.funcs
    ensures ValueText(a, obj, r) == ValueText(b, obj, r)
  {
  }

  /** Quiet shows only ids, and a format flag overrides quiet. */
  lemma {:induction false} FormatBeatsQuiet(values: seq<Column>, ids: bool)
    ensures NewWriter(values, Flags(true, "", ids)).valueFormat == "{{.ID}}\n"
    ensures NewWriter(values, Flags(true, "json", ids)).valueFormat == "json"
    ensures NewWriter(values, Flags(true, "{{.Names}}", ids)).valueFormat == "{{.Names}}\n"
  {
  }

  /** With --ids the ID column is the first title and the first cell. */
  lemma {:induction false} IdsColumnFirst(values: seq<Column>)
    ensures var w := NewWriter(values, Flags(false, "", true));
      HasPrefix(w.headerFormat, "ID") && HasPrefix(w.valueFormat, "{{.ID}}")
  {
    var columns := IdsHeader + values;
    var (h, v) := SimpleFormat(columns);
    assert h == Join(DropLeadingEmpty(Titles(columns)), "\t") + "\n";
    assert v == Join(Cells(columns), "\t") + "\n";
    IdsTitleFirst(values);
    PrefixExtends(Join(DropLeadingEmpty(Titles(columns)), "\t"), "\n", "ID");
    IdsCellFirst(values);
    PrefixExtends(Join(Cells(columns), "\t"), "\n", "{{.ID}}");
  }

  /** With the ids column in front, the joined titles start with "ID". */
  lemma {:induction false} IdsTitleFirst(values: seq<Column>)
    ensures HasPrefix(Join(DropLeadingEmpty(Titles(IdsHeader + values)), "\t"), "ID")
  {
    var columns := IdsHeader + values;
    assert Titles(columns)[0] == "ID";
    assert DropLeadingEmpty(Titles(columns)) == Titles(columns);
    JoinStarts(Titles(columns), "\t");
  }

  /** With the ids column in front, the joined cells start with "{{.ID}}". */
  lemma {:induction false} IdsCellFirst(values: seq<Column>)
    ensures HasPrefix(Join(Cells(IdsHeader + values), "\t"), "{{.ID}}")
  {
    var columns := IdsHeader + values;
    assert !Contains("ID", "{{") by {
      assert "ID"[..2][0] != "{{"[0];
      assert !Contains("ID"[1..], "{{");
    }
    assert Cells(columns)[0] == "{{.ID}}";
    JoinStarts(Cells(columns), "\t");
  }
}
